=== FILE: README.md ===
# BookMart core, modelled in Dafny

BookMart is a small book shop. It has an Express/MongoDB back end and a React front end. This project models the parts of it that make decisions, as pure functions over immutable data, and proves what those decisions promise.

- **Authentication and accounts** (modules `Auth`, `AdminRouter`, `AdminAccounts`, `UserAccounts`, `Credentials`).
  - The bearer-token gate and the admin role gate.
  - How the three admin routes chain those gates.
  - Admin registration, login, profile lookup and the default-admin bootstrap.
  - Customer registration and login.
  - bcrypt is an abstract digest that accepts exactly its own preimage. The salt is a parameter.
  - The JWT library is an oracle: a pair of functions, `sign` and `verify`.
  - Every collection is a sequence of records in natural order. Whether the database accepts a write is a boolean parameter.
- **Back-end queries** (`Products`, `Orders`, `Sorting`).
  - The category filter of the product read.
  - The create, delete, single-read and distinct-categories outcomes.
  - Total income.
  - The top-five-customers aggregation: group by customer, sort by total spent descending, limit 5.
  - Newest-first order listing.
- **The cart** (`Cart`).
  - Adding without duplicates.
  - The two quantity controls (storefront and cart page), both clamped at 1.
  - Removal by id.
  - The items total, delivery fee and line count.
- **The product screens** (`Storefront`, `Inventory`, `Paging`, `Search`, `Text`, `Dashboard`).
  - The storefront's category buttons, fetch-and-search and 8-card pages.
  - The admin table's stock counters, category tally, filter chain, status badge, live search and paging.
  - The dashboard's fixed sample figures and bar chart.
  - JavaScript's `split`, `trim`, `toLowerCase`, `includes`, `slice`, `Math.ceil` and `String(n)` are written out in `Text` and `Paging`.

Prices and amounts are integer cents.

## Model

| member | source | states |
|---|---|---|
| Auth.BearerToken | backend/middleware/auth.js:6 | the token is the second space-separated word of the header, kept only when non-empty |
| Auth.BearerTokenIsSecondWord | backend/middleware/auth.js:6 | for any first word (the scheme is never checked) and any further words, the second word is the token |
| Auth.NoSpaceNoToken | backend/middleware/auth.js:6-7 | a header with no space carries no token |
| Auth.EmptySecondWordNoToken | backend/middleware/auth.js:6-7 | `"Bearer "` and a double space both leave an empty second word, so there is no token |
| Auth.Authenticate | backend/middleware/auth.js:5-16 | a missing header gives 401 "No token provided"; `next` is reached exactly when a token exists and verifies; `req.admin` is then the decoded claims; every refusal is 401 |
| Auth.NoTokenNoVerification | backend/middleware/auth.js:7 | without a token the verifier is never consulted: the outcome is identical for every token service |
| Auth.RejectedToken | backend/middleware/auth.js:13-15 | a token the verifier rejects gives 401 "Invalid or expired token" and `req.admin` stays unset |
| Auth.RequireAdmin | backend/middleware/auth.js:18-21 | a role other than "admin" gives 403 "Admin only"; role "admin" passes the request on unchanged; no `req.admin` throws |
| Auth.RequireAdminReadsOnlyRole | backend/middleware/auth.js:19 | two requests with the same role claim get the same verdict, and a passing request is not modified |
| AdminRouter.Dispatch | backend/router/adminRouter.js:8-10 | `/login` is `adminLogin` with the store untouched, whatever the headers; only `/create` can change the store |
| AdminRouter.AdminTokenReachesCreate | backend/router/adminRouter.js:8 | a token that verifies to role "admin" passes both gates: `/create` then answers exactly as `createAdmin` does, with every outcome it has |
| AdminRouter.CreateRequiresToken | backend/router/adminRouter.js:8 | without a valid token `/create` answers 401 and the store is unchanged |
| AdminRouter.CreateRequiresAdminRole | backend/router/adminRouter.js:8 | a verified token whose role is not "admin" gets 403 "Admin only" and the store is unchanged |
| AdminRouter.CreateChangesStoreOnlyForAdmins | backend/router/adminRouter.js:8 | if `/create` changed the store, the request carried a token that verifies to role "admin" |
| AdminRouter.LoginIsOpen | backend/router/adminRouter.js:9 | `/login` gives the same answer whatever headers the request carries |
| AdminRouter.ProfileNeedsTokenNotRole | backend/router/adminRouter.js:10 | `/profile` answers 401 without a token or with a rejected one; any verified claims, whatever their role, reach the profile handler |
| AdminRouter.DefaultAdminSession | backend/router/adminRouter.js:9-10 | after the bootstrap, logging in with the defaults and sending `Bearer <token>` to `/profile` returns the logged-in admin; no header gives 401 |
| AdminAccounts.FindByEmail | backend/controller/adminController.js:9 | nothing is found exactly when no admin has that email; otherwise the result is the first admin in natural order with that email |
| AdminAccounts.FindById | backend/controller/adminController.js:56 | nothing is found exactly when no admin has that id; otherwise the result is the first admin in natural order with that id |
| AdminAccounts.CreateAdmin | backend/controller/adminController.js:6-26 | a rejected lookup gives 500 and no change; a taken email gives 400 and no change; a rejected save gives 500 and no change; otherwise 201 and exactly one record appended under a fresh id, holding the given name, email, role and avatar and a digest that accepts exactly the given password; the body is that record's five password-free fields |
| AdminAccounts.CreateAdminKeepsUnique | backend/controller/adminController.js:9-14 | registration keeps emails and ids unique |
| AdminAccounts.CreateAdminTwice | backend/controller/adminController.js:9-10 | registering one email twice: 201 then 400, and exactly one record added |
| AdminAccounts.AdminLogin | backend/controller/adminController.js:28-51 | a rejected lookup gives 500 "Server error"; an unknown email gives 400 "Invalid email"; 200 exactly when the lookup resolves, the email is known and the password matches; on 200 the body holds the password-free admin and a token signed over the same five fields; no other status |
| AdminAccounts.UnknownEmailIgnoresPassword | backend/controller/adminController.js:31-32 | the email is checked before any password comparison: an unknown email gives the same answer for every password |
| AdminAccounts.WrongPassword | backend/controller/adminController.js:34-35 | a known email with a non-matching password gives 401 "Invalid password" |
| AdminAccounts.LoginTokenMatchesAdmin | backend/controller/adminController.js:37-46 | with a faithful token library, the login token verifies to exactly the claims of the admin object returned beside it |
| AdminAccounts.GetAdminProfile | backend/controller/adminController.js:53-62 | a missing `req.admin` or a rejected lookup gives 500; a known `req.admin.id` gives 200 with that record minus its password; an absent id gives 404 "Admin not found" |
| AdminAccounts.ProfileOfLoggedInAdmin | backend/controller/adminController.js:37-58 | with unique ids, the profile a login token leads to is the admin that login returned |
| AdminAccounts.OrDefault | backend/controller/adminController.js:70-72 | an unset or empty variable falls back to the default; any other value is used as is |
| AdminAccounts.EnsureDefaultAdmin | backend/controller/adminController.js:65-80 | a non-empty collection is left alone whatever its roles; a failed create is swallowed and changes nothing; otherwise at most one record is added and nothing is removed |
| AdminAccounts.BootstrapCreatesOneAdmin | backend/controller/adminController.js:67-75 | on an empty collection: exactly one record, role "admin", env-or-default name and email, and a digest of the env-or-default password |
| AdminAccounts.BootstrapIdempotent | backend/controller/adminController.js:67-68 | a second run adds nothing, so two runs create at most one record |
| AdminAccounts.DefaultAdminCanLogIn | backend/controller/adminController.js:70-75 | with no overrides, "admin@example.com" / "admin1234" logs in as a role-"admin" account |
| UserAccounts.FindByUserName | backend/controller/useControll.js:20 | nothing found exactly when no user has that name; otherwise the first one in natural order |
| UserAccounts.CreateUser | backend/controller/useControll.js:5-15 | a rejected save gives 500 and no change; otherwise 201 with the saved record as is, appended, its digest accepting exactly the given password |
| UserAccounts.DuplicateUserNamesAccepted | backend/controller/useControll.js:7-11 | there is no duplicate-name check: registering a taken name succeeds and the store holds both |
| UserAccounts.UserLogin | backend/controller/useControll.js:17-30 | a rejected lookup gives 500 "Server error"; an unknown name gives 400 "Invalid username"; 200 exactly when the lookup resolves, the name is known and the password matches; the success body is message, id and name, with no token or role; no other status |
| UserAccounts.ShadowedDuplicateCannotLogIn | backend/controller/useControll.js:20-24 | of two users with one name, the second one's password is refused with 401 |
| UserAccounts.RegisterThenLogin | backend/controller/useControll.js:8-26 | registering a new name and logging in with the same password succeeds |
| Credentials.FreshId | backend/controller/adminController.js:13-14 | a record saved under this id gets one that exceeds, and so differs from, every stored id |
| Credentials.CompareHash | backend/controller/useControll.js:23 | a digest accepts exactly the password it was made from, whatever the salt |
| Products.CreateProduct | backend/controller/productController.js:4-19 | no uploaded file or a rejected save gives 500 and saves nothing; otherwise 200 (not 201) with one appended product carrying the form's fields, the file name and a fresh id |
| Products.CategoryFilter | backend/controller/productController.js:24-29 | a category filter exists exactly when the body and its category are present and not blank; it is the category exactly as sent |
| Products.ReadProduct | backend/controller/productController.js:22-37 | without a filter every product is returned; with one, exactly the products whose category equals the untrimmed string, in store order, as many as there are |
| Products.ReadSingle | backend/controller/productController.js:61-68 | always 200; the body is null exactly when no product has the id, otherwise a product with that id |
| Products.DeleteOne | backend/controller/productController.js:73 | an absent id changes nothing; otherwise exactly the first document with that id goes and the rest keep their order |
| Products.DeleteProduct | backend/controller/productController.js:71-78 | always 200 "Product deleted successfully"; with unique ids no product keeps that id; every other product survives, in order |
| Products.DistinctCategories | backend/controller/productController.js:96 | each category value present in the store appears exactly once, and nothing else appears |
| Products.GetCategories | backend/controller/productController.js:94-101 | 200 with the distinct categories: each once, and exactly those in the store |
| Orders.TotalIncome | backend/controller/orderController.js:20-21 | the income is the sum of all order amounts; no orders gives `{ totalIncome: 0 }` without the group row |
| Orders.GetTotalIncome | backend/controller/orderController.js:18-25 | a rejected aggregate gives 500 "Error getting total income"; a resolved one gives 200 with the sum of all order amounts, carrying the group row exactly when there are orders |
| Orders.GroupByCustomer | backend/controller/orderController.js:31 | one row per customer with an order; each row's total and count are that customer's sum and number of orders; the rows add up to the income |
| Orders.AccumulateAt | backend/controller/orderController.js:31 | folding one order in changes only its customer's row: one more order, and its amount added |
| Orders.GroupRowsCorrect | backend/controller/orderController.js:31 | every group row holds its customer's sum and order count, and the count is at least one |
| Orders.GroupSumIsIncome | backend/controller/orderController.js:20-31 | the per-customer totals add up to the total income |
| Orders.SortedGroup | backend/controller/orderController.js:31-32 | the sorted grouping still has every customer exactly once with correct figures |
| Orders.LimitFive | backend/controller/orderController.js:32-33 | the first five rows of a sorted, correct table are sorted and correct, and any customer left out has spent no more than each of five listed ones |
| Orders.TopCustomers | backend/controller/orderController.js:30-35 | at most five rows, totals non-increasing, customers unique, each with their true sum and order count (at least one); a customer with orders is missing only if five others have spent at least as much |
| Orders.GetTopCustomer | backend/controller/orderController.js:28-39 | a rejected aggregate gives 500 "Error getting top customers"; a resolved one gives 200 with at most five unique customers, totals non-increasing, each with their true sum and order count |
| Orders.FewCustomersAllListed | backend/controller/orderController.js:33 | with at most five customers, every customer is listed |
| Orders.ReadOrders | backend/controller/orderController.js:10 | every order exactly once, newest `createdAt` first |
| Orders.ReadOrder | backend/controller/orderController.js:8-15 | a rejected find gives 500 "Server error while fetching orders"; a resolved one gives 200 with every order exactly once, newest `createdAt` first |
| Sorting.SortDesc | backend/controller/orderController.js:32 | the result is a permutation of the input with non-increasing keys |
| Sorting.SortDescPermutes | backend/controller/orderController.js:32 | sorting keeps the length, loses no element and adds none |
| Cart.AddToCart | frontend/src/components/Bookcard.jsx:65-71 | a product already in the cart leaves it unchanged; otherwise one line with quantity 1 is appended and the old lines stay as they were; one line per product is preserved |
| Cart.AddIdempotent | frontend/src/components/Bookcard.jsx:66 | adding a product twice is the same as adding it once |
| Cart.AddThenRemove | frontend/src/components/cartPage.jsx:26 | removing a product that was just added restores the cart |
| Cart.QuantityChange | frontend/src/components/Bookcard.jsx:73-82 | plus adds one and minus gives `max(1, q - 1)` on the product's line; every other line and the length and order are unchanged |
| Cart.UpdateQuantity | frontend/src/components/cartPage.jsx:20-24 | the product's line becomes `max(1, q + delta)`; every other line and the length and order are unchanged |
| Cart.QuantityChangeIsUpdate | frontend/src/components/Bookcard.jsx:76 | the storefront's minus is the cart page's `-1`, and for non-negative quantities its plus is the cart page's `+1` |
| Cart.QuantityChangeDiffersBelowZero | frontend/src/components/Bookcard.jsx:76 | on a stored quantity of -1 the storefront's plus gives 0 where the cart page's gives 1 |
| Cart.UpdateKeepsWellformed | frontend/src/components/cartPage.jsx:22 | after a quantity update, ids stay unique and every quantity stays at least 1 |
| Cart.QuantityChangeKeepsWellformed | frontend/src/components/Bookcard.jsx:74-78 | after a plus or minus, ids stay unique and every quantity stays at least 1 |
| Cart.RemoveItem | frontend/src/components/cartPage.jsx:26 | no line of that product remains; every other line survives in its original order, and nothing else; an absent id changes nothing |
| Cart.RemoveKeepsWellformed | frontend/src/components/cartPage.jsx:26 | removal keeps ids unique and quantities at least 1 |
| Cart.RemoveDropsLine | frontend/src/components/cartPage.jsx:26 | in a well-formed cart, removing a line's product drops exactly that one line |
| Cart.UpdateTotal | frontend/src/components/cartPage.jsx:20-28 | changing one line's quantity moves the items total by its price times the change in quantity |
| Cart.RemoveTotal | frontend/src/components/cartPage.jsx:26-28 | removing a line takes exactly its price times quantity off the items total |
| Cart.Fee | frontend/src/components/cartPage.jsx:80-82 | Standard delivery, which is preselected, costs 500 cents; Express costs 1000 cents |
| Cart.TotalCostAdd | frontend/src/components/cartPage.jsx:28-29 | adding a product not yet in the cart raises the total by its price |
| Cart.TotalCostRemove | frontend/src/components/cartPage.jsx:26-29 | removing a line lowers the total by exactly that line's price times quantity |
| Cart.TotalCostUpdate | frontend/src/components/cartPage.jsx:20-29 | a quantity button moves the total by the price times the change in copies |
| Cart.ExpressCostsMore | frontend/src/components/cartPage.jsx:80-82 | switching from Standard to Express adds $5 to the total of any cart |
| Cart.EmptyCartCost | frontend/src/components/cartPage.jsx:7-29 | an empty cart costs just the delivery fee: $5 by default |
| Cart.ItemCount | frontend/src/components/cartPage.jsx:38 | the label is the number of lines, one per product, and zero exactly for an empty cart |
| Cart.ItemCountMoves | frontend/src/components/cartPage.jsx:38 | the label goes up by one when a new product is added, stays when a product already in the cart is added, and goes down by one when a line is removed |
| Cart.ItemCountAtMostUnits | frontend/src/components/cartPage.jsx:75 | the label counts lines, which never exceed the copies in a well-formed cart |
| Cart.ClickAdd | frontend/src/components/Bookcard.jsx:64-70 | a click adds one line with one copy exactly when the product's status is "available" and it is not in the cart yet; the added line is that product |
| Cart.AddClickKeepsAvailable | frontend/src/components/Bookcard.jsx:198-200 | a cart filled only through the Add button holds only products whose status is "available" |
| Cart.UnavailableNeverAdded | frontend/src/components/Bookcard.jsx:200 | clicking Add on a product whose status is not "available" leaves the cart unchanged |
| Storefront.CategoryButtons | frontend/src/components/Bookcard.jsx:24 | the buttons are "All", then the fetched categories in order, then "Other" |
| Storefront.ChooseCategory | frontend/src/components/Bookcard.jsx:116 | "All" selects no category; any other button selects itself |
| Storefront.CardFields | frontend/src/components/Bookcard.jsx:39-40 | one to four non-empty texts, each of them the name, the category, the price text or `String(status)`; the price text is always one; the name, the category and the status are each one when present and non-empty; "undefined" is one when the status is missing |
| Storefront.SearchProducts | frontend/src/components/Bookcard.jsx:36-43 | a blank search applies no filter; otherwise exactly the cards some field of which, lower-cased, contains the lower-cased untrimmed key, in order and as many as match |
| Storefront.FetchData | frontend/src/components/Bookcard.jsx:30-51 | a failed request keeps the list and sets the error; a successful one resets the page to 1, clears the error and shows the search applied to the read handler's answer for the category: every shown card is a store product of the category that matches the search, and every such product is shown |
| Storefront.FoundInStore | frontend/src/components/Bookcard.jsx:34-43 | every card found comes from the store and has the chosen category, if any; every store product in the category that matches the search is found |
| Storefront.SearchIgnoresCase | frontend/src/components/Bookcard.jsx:37 | upper and lower case in the search box find the same cards |
| Storefront.MissingStatusFoundAsUndefined | frontend/src/components/Bookcard.jsx:39 | a card without a status is found by "undef", because `String(undefined)` is searched |
| Storefront.NameFindsBookA | frontend/src/components/Bookcard.jsx:36-43 | searching a book's name finds it |
| Storefront.UntrimmedKeyHidesMatch | frontend/src/components/Bookcard.jsx:37 | the key is not trimmed: "a " misses a book that "a" finds |
| Paging.JsSlice | frontend/src/components/Bookcard.jsx:85 | `slice` clamps its bounds to the list: for a start within the list the length runs to the clamped end (a negative end counts from the back), and for a non-negative start the result is the elements from `start` on |
| Paging.CeilDiv | frontend/src/components/Bookcard.jsx:84 | `Math.ceil(n / d)`: the least page count whose pages hold all `n` items; zero exactly for no items |
| Paging.PageNonEmptyIff | frontend/src/components/Books.jsx:57-59 | a page has rows exactly when its index is below the page count |
| Paging.FirstPagesArePrefix | frontend/src/components/Books.jsx:57-59 | the first `k` pages, one after another, are the list's first `k * size` elements |
| Paging.PagesCoverAll | frontend/src/components/Books.jsx:57-59 | all pages together are exactly the list: nothing dropped, repeated or reordered |
| Paging.CardPage | frontend/src/components/Bookcard.jsx:84-85 | page `p` shows the elements from `(p - 1) * 8` onward, at most 8 of them, and it is non-empty exactly when `p` is at most `ceil(n / 8)` |
| Paging.CardPrev | frontend/src/components/Bookcard.jsx:220 | Prev goes back one page and never below page 1 |
| Paging.CardNext | frontend/src/components/Bookcard.jsx:230 | Next goes forward one page and never past the last page |
| Paging.CardPagerStaysInRange | frontend/src/components/Bookcard.jsx:220-231 | Prev and Next keep the page within `[1, totalPages]`, and undo each other |
| Paging.CardPagerShownIff | frontend/src/components/Bookcard.jsx:216-217 | the storefront's pager is shown exactly when more than eight cards are found |
| Paging.PageLabel | frontend/src/components/Books.jsx:288 | the label shows the 1-based page and the page count, and never "of 0" |
| Paging.SetLimit | frontend/src/components/Books.jsx:259-268 | only the offered sizes 10, 20, 50 and 100 can be chosen; choosing one sets it and returns to page 0 |
| Paging.SetLimitShowsRows | frontend/src/components/Books.jsx:57-59 | after choosing a page size, a non-empty list shows its first `limit` rows (all of them when fewer) |
| Paging.TablePrev | frontend/src/components/Books.jsx:277 | Prev goes back one page and never below 0 |
| Paging.TableNext | frontend/src/components/Books.jsx:291 | Next goes forward one page and never past `totalPages - 1` |
| Paging.TablePagerStaysInRange | frontend/src/components/Books.jsx:277-292 | the enabled buttons keep the page in `[0, totalPages)`; Next is disabled exactly on the last page |
| Paging.TableViewShowsRows | frontend/src/components/Books.jsx:57-59 | a page index below the page count shows between one and `limit` rows |
| Paging.RowNumberIsPosition | frontend/src/components/Books.jsx:183 | the number beside a row is its 1-based position in the whole filtered list, on every page |
| Search.Present | frontend/src/components/Books.jsx:79 | `filter(Boolean)` keeps a field exactly when it is present and non-empty |
| Search.AnyFieldContains | frontend/src/components/Books.jsx:80 | a row matches exactly when some field, lower-cased, contains the key |
| Search.AnyFieldContainsAppend | frontend/src/components/Books.jsx:78-80 | matching over two field lists joined is matching over either |
| Text.Split | backend/middleware/auth.js:6 | `split` yields at least one separator-free piece, and joining the pieces gives the string back |
| Text.SplitJoin | backend/middleware/auth.js:6 | splitting a join of separator-free pieces gives the pieces back |
| Text.TrimEmptyIffBlank | backend/controller/productController.js:27 | `trim()` is empty exactly for strings of JavaScript whitespace |
| Text.ToLower | frontend/src/components/Books.jsx:74 | lower-casing keeps the length and maps each character on its own |
| Text.ToLowerIdempotent | frontend/src/components/Bookcard.jsx:37 | lower-casing twice is lower-casing once |
| Text.ContainsIffOccurs | frontend/src/components/Books.jsx:80 | `includes` holds exactly when the needle occurs at some position |
| Text.ContainsPrefix | frontend/src/components/Books.jsx:80 | whatever contains a string contains each of its prefixes |
| Text.DigitsRoundTrip | frontend/src/components/Books.jsx:78 | reading back the decimal text of a number gives the number |
| Common.FilterExact | frontend/src/components/Books.jsx:49-55 | an order-preserving selection of matching elements that keeps as many as match is exactly what `filter` returns, so the counted filters above are pinned |
| Inventory.StatsOf | frontend/src/components/Books.jsx:34-40 | low and out counts together never exceed the row count; an empty table has all figures zero |
| Inventory.StatsAppendRow | frontend/src/components/Books.jsx:34-40 | one more row adds its copies (a missing quantity as 0) to the stock total and its copies times price to the value, and one to the low or out count exactly when it is low (0 < q < 5) or out (q = 0) |
| Inventory.StockCountersIgnoreHealthyRows | frontend/src/components/Books.jsx:34-36 | a row with five or more copies, or no quantity, adds to the stock total and to neither low nor out |
| Inventory.CategoryKey | frontend/src/components/Books.jsx:43 | a missing or empty category is "Uncategorized"; any other is itself |
| Inventory.Bump | frontend/src/components/Books.jsx:44 | a key already present keeps its row's place; a new key is appended with count 1, exactly when no row has it |
| Inventory.BumpAt | frontend/src/components/Books.jsx:44 | counting a key adds one to that key's count and to no other |
| Inventory.CategoryCountsCorrect | frontend/src/components/Books.jsx:42-46 | in the accumulator each key appears once, each key's count is its number of books, and the counts sum to the number of books |
| Inventory.CategoryOrderStable | frontend/src/components/Books.jsx:42-46 | a later book never moves an earlier key: the accumulator keeps the order in which keys were first assigned |
| Inventory.Entries | frontend/src/components/Books.jsx:47 | `Object.entries` lists the same rows, array-index keys first in ascending numeric order, and the other keys in the accumulator's order |
| Inventory.CategoriesCorrect | frontend/src/components/Books.jsx:42-47 | the listed categories have each key once, each with its number of books, summing to the number of books; array-index keys come first in ascending order; the other keys keep first-appearance order |
| Inventory.IndexKeyListedFirst | frontend/src/components/Books.jsx:42-47 | a "Fiction" book then a "2024" book: the accumulator holds "Fiction" first, the listed rows put "2024" first |
| Inventory.EntriesWithoutIndexKeys | frontend/src/components/Books.jsx:47 | without array-index keys the listed rows are the accumulator's rows in its order |
| Inventory.TallyKeysPresent | frontend/src/components/Books.jsx:42-47 | every row counts at least one book, and every book's key has a row |
| Inventory.CategoryFiltered | frontend/src/components/Books.jsx:49-51 | "" keeps every book; otherwise exactly the books of that key, in order, as many as carry it |
| Inventory.LowFiltered | frontend/src/components/Books.jsx:53-55 | unticked keeps every row; ticked keeps exactly the low-stock rows, in order, as many as there are |
| Inventory.FinalBooksExact | frontend/src/components/Books.jsx:49-55 | the rows kept are exactly the books passing both controls, as an order-preserving subsequence |
| Inventory.FiltersCompose | frontend/src/components/Books.jsx:49-55 | the two filters in a row equal one filter by both conditions |
| Inventory.BadgeOf | frontend/src/components/Books.jsx:219-223 | "Out of Stock" exactly for quantity 0; five or more copies, or no quantity, is "In Stock" |
| Inventory.BadgeAgreesWithCounters | frontend/src/components/Books.jsx:219-223 | for non-negative or missing quantities the badge agrees with the low and out counters |
| Inventory.NegativeQuantityBadgedLow | frontend/src/components/Books.jsx:219-223 | a negative quantity is badged "Low Stock" but counted by neither counter |
| Inventory.RowFields | frontend/src/components/Books.jsx:78-79 | two to four texts, each of them the name, the category, `String(quantity)` or the price text; they end with the quantity text and the price text; the name comes first and the category is included when present and non-empty |
| Inventory.Keystroke | frontend/src/components/Books.jsx:73-83 | an empty box shows the server list when the reload succeeds and leaves the table as it was when it fails; other text keeps exactly the currently held books that match, in order, as many as match |
| Inventory.SearchCompounds | frontend/src/components/Books.jsx:76-82 | two keystrokes in a row filter by both keys |
| Inventory.BackspaceDoesNotWiden | frontend/src/components/Books.jsx:76-82 | after "ab" then "a", a book that matches "a" stays hidden, which the corrected search would show |
| Inventory.KeystrokeFixed | frontend/src/components/Books.jsx:73-83 | an empty box gives the server list; other text gives exactly the server's books that match, in order, as many as match |
| Inventory.KeystrokeFixedForgetsHistory | frontend/src/components/Books.jsx:73-83 | with the corrected search the result depends on the current text only, not on what the table held |
| Inventory.KeystrokeFixedWidens | frontend/src/components/Books.jsx:73-83 | with the corrected search a longer text finds a subsequence of what its prefix finds |
| Inventory.SelectCategory | frontend/src/components/Books.jsx:140 | choosing a category changes only the filter; the page stays |
| Inventory.SelectCategoryKeepsStalePage | frontend/src/components/Books.jsx:140 | on page 2, choosing a category with one book leaves that book unshown while it passes the filter |
| Inventory.SelectCategoryFixed | frontend/src/components/Books.jsx:261-263 | the corrected choice resets the page to 0, as the page-size control does, and filters the same rows |
| Inventory.SelectCategoryFixedShowsRows | frontend/src/components/Books.jsx:261-263 | after the corrected choice, rows are on screen whenever any book passes the filters |
| Inventory.ToggleLowStock | frontend/src/components/Books.jsx:154 | ticking or unticking "low stock only" flips only the flag; the page stays |
| Inventory.ToggleLowStockKeepsStalePage | frontend/src/components/Books.jsx:154 | on page 2, ticking "low stock only" with one low-stock book leaves that book unshown while it passes the filter |
| Inventory.ToggleLowStockFixed | frontend/src/components/Books.jsx:261-263 | the corrected toggle resets the page to 0, as the page-size control does, and filters the same rows |
| Inventory.ToggleLowStockFixedShowsRows | frontend/src/components/Books.jsx:261-263 | after the corrected toggle, rows are on screen whenever any book passes the filters |
| Dashboard.StockOverview | frontend/src/components/Dashboard.jsx:91-105 | the sample list has 20 copies in stock, two low-stock products and one out of stock |
| Dashboard.ProductDNotLow | frontend/src/components/Dashboard.jsx:103-104 | "Product D", with five copies, is counted neither as low stock nor as out of stock |
| Dashboard.CategoriesCard | frontend/src/components/Dashboard.jsx:107-112 | the categories card lists Electronics 2, Furniture 2 and Groceries 1, in that order |
| Dashboard.TallyOfFive | frontend/src/components/Dashboard.jsx:107-112 | two books under one key, two under a second and one under a third tally to three rows 2, 2, 1 |
| Dashboard.BarColor | frontend/src/components/Dashboard.jsx:72 | each bar's colour is one of the seven; bar `i < 7` has colour `i` |
| Dashboard.BarColorCycles | frontend/src/components/Dashboard.jsx:72 | colours repeat every seven bars |
| Dashboard.MaxOf | frontend/src/components/Dashboard.jsx:47 | the maximum is at least every value and is one of them |
| Dashboard.Height | frontend/src/components/Dashboard.jsx:57 | a bar's height times the maximum is its value times 100 |
| Dashboard.Heights | frontend/src/components/Dashboard.jsx:53-61 | one height per value, each against the list's maximum |
| Dashboard.HeightsBounded | frontend/src/components/Dashboard.jsx:57 | no bar exceeds 100%, the maximum value reaches exactly 100%, and non-negative values are not negative |
| Dashboard.DayTotalHeights | frontend/src/components/Dashboard.jsx:100 | with the week's totals, whose maximum is 100, each bar is as tall as its total |

## Left out

- Express, MongoDB and Mongoose are not modelled as such.
  - Request and response plumbing is reduced to status and body values.
  - `populate` and ObjectId cast errors are library behaviour.
  - Record ids are natural numbers, and a new id is one above the largest stored id.
- The schemas `adminModel`, `userModel` and `productModel` are not part of this model. Any uniqueness index they declare is therefore not modelled: whether the store rejects a write is the `saved`/`created` parameter.
- bcrypt and jsonwebtoken internals are abstract.
  - A digest accepts exactly its own preimage.
  - Tokens come from an oracle. Where a property needs it, the oracle is assumed to verify what it signed (`Credentials.SignsVerifiably`).
  - No expiry is modelled, because the source sets none.
  - Claims are the five signed fields only; the `iat` timestamp that `jwt.sign` adds and `jwt.verify` returns is not modelled, since nothing reads it.
- Concurrency is not modelled. The check-then-create sequences in `createAdmin` and `ensureDefaultAdmin` are modelled run to completion, one at a time.
- `updateProduct` is not modelled: its effect depends on how Mongoose treats `undefined` inside `$set`, which is library behaviour.
- `readAllDocu` is not modelled: it is the unfiltered case of `Products.ReadProduct`.
- `createOrder` is an empty stub and is not modelled.
- `backend/server.js`, `useRouter.js` and the screens with no decision logic are I/O, routing or rendering, and are not modelled.
- Side effects are not modelled: localStorage persistence, the `"storage"` event, `setTimeout` animation, loading flags, logging, `toFixed`/`toLocaleString` formatting and JSX.
- The dashboard's income, top-customer and line-chart figures are constants that are only displayed, so they are not modelled.
- Floating point is not modelled.
  - Prices and amounts are integer cents, and `String(price)` is the shortest decimal text of the cent value.
  - Bar heights are exact rationals.
- Orders.TopCustomers: MongoDB may order equal totals either way; the model fixes one order, and the contract states only what holds for every order.
- Orders.ReadOrders: the same applies to equal `createdAt` values.
- Products.DistinctCategories: the order of `distinct` results is the database's; the contract states only membership and uniqueness.
- Text.ToLower: lower-cases ASCII letters only; other characters are left as they are.
- Cart.AddToCart: the source stores `{ ...item, quantity: 1 }`, which overwrites the product's stock `quantity`. The model keeps the product record whole beside the line quantity, so the lost stock count is not modelled.
- Dashboard.Heights: requires a positive maximum. The source divides by the maximum as given, giving `NaN` or `Infinity` heights for an all-zero or all-negative week, and floating-point results are not modelled.
- Paging.CardNext: the storefront's Prev/Next `disabled` flags (`currentPage === 1`, `currentPage === totalPages`) are not modelled as such; `Paging.CardPagerStaysInRange` states what the clamps guarantee for a page already in range.
- Books.jsx confirmation-dialog and image-preview state are presentation only, and are not modelled.
- Inventory.CategoryCounts, Inventory.Bump, Inventory.CategoryCountsCorrect, Inventory.CategoriesCorrect: the accumulator is a plain object, so a category named after an inherited property (`constructor`, `toString`, `__proto__`, …) starts from that property instead of 0, which turns the count into a string or drops the row. The model treats every name as a fresh key, so `Inventory.CategoryCountsCorrect` and `Inventory.CategoriesCorrect` describe only categories without such names.
- Catalog.Product: the model gives every product a price. The source does not require one: Books.jsx:38 reads a missing price as 0, and Bookcard.jsx:39 would show the text "undefined" for it.
- Request bodies: their fields are taken to be present strings. A numeric `category` makes `category.trim()` throw at productController.js:27, and a missing `password` makes bcrypt throw; both end in the 500 catch, which the model does not reach that way.
- AdminAccounts.AdminLogin, UserAccounts.UserLogin: the 500 path is modelled only for a rejected lookup (`read`). A missing password makes `bcrypt.compare` throw, and for admins an unset `JWT_SECRET` makes `jwt.sign` throw; both also answer 500, but the model takes the password as given and the secret as set.
- Products.ReadProduct, Products.ReadSingle, Products.DeleteProduct, Products.GetCategories: a rejected database call ends in the catch with 500; these members take the call to resolve.

## Findings

| source | as written | input that shows it | evidently intended | confidence | as-written member | corrected member |
|---|---|---|---|---|---|---|
| frontend/src/components/Books.jsx:140 | choosing a category changes the filter but leaves `page` where it was | 11 books over two categories, table on page 2 of 10 rows; choose the category holding one book | the page returns to 0, as it does when the page size changes (Books.jsx:261-263), so matching rows are shown | not executed | Inventory.SelectCategoryKeepsStalePage | Inventory.SelectCategoryFixedShowsRows |
| frontend/src/components/Books.jsx:73-83 | a non-empty search filters the list currently held (`prev`), and the result replaces it, so keystrokes compound and deleting a character cannot bring rows back | a book "ac" in the table; type "ab" (no match) then backspace to "a" | every keystroke filters the server's list, so the result depends on the current text only | not executed | Inventory.BackspaceDoesNotWiden | Inventory.KeystrokeFixedWidens |
| frontend/src/components/Books.jsx:154 | ticking "low stock only" changes the filter but leaves `page` where it was | 10 well-stocked books and one with 3 copies, table on page 2 of 10 rows; tick "low stock only" | the page returns to 0, as it does when the page size changes (Books.jsx:261-263), so the low-stock row is shown | not executed | Inventory.ToggleLowStockKeepsStalePage | Inventory.ToggleLowStockFixedShowsRows |

=== FILE: admin.dfy ===
/** The admin account handlers of backend/controller/adminController.js over an
    in-memory admin collection: registration, login, profile lookup and the
    default-admin bootstrap run at start-up. */
module AdminAccounts {
  import opened Common
  import opened Credentials

  /** A stored admin document. The password field holds a digest, never the plaintext. */
  datatype Admin = Admin(
    id: Id,
    name: Option<string>,
    email: string,
    password: Digest,
    role: Option<string>,
    avatar: Option<string>)

  /** The admin collection, in insertion (natural) order. */
  type AdminStore = seq<Admin>

  /** `req.body` of `POST /create`. */
  datatype NewAdmin = NewAdmin(
    name: Option<string>,
    email: string,
    password: string,
    role: Option<string>,
    avatar: Option<string>)

  /** The password-free projection `{ id, name, email, role, avatar }`. */
  datatype Summary = Summary(
    id: Id,
    name: Option<string>,
    email: string,
    role: Option<string>,
    avatar: Option<string>)

  /** JSON bodies the admin handlers send. `Profile` is the document with its
      password field deselected (keyed `_id`); `Created` and `LoggedIn` carry the
      explicit projection (keyed `id`). */
  datatype Body =
    | Error(error: string)
    | Created(summary: Summary)
    | LoggedIn(message: string, admin: Summary, token: string)
    | Profile(profile: Summary)
    | ServerFault   // Express's default 500 page after an uncaught throw

  datatype Response = Response(status: int, body: Body)

  function SummaryOf(a: Admin): Summary
  {
    Summary(a.id, a.name, a.email, a.role, a.avatar)
  }

  /** The token payload built from the same five fields as the summary. */
  function ClaimsOf(s: Summary): Claims
  {
    Claims(Some(s.id), s.name, Some(s.email), s.role, s.avatar)
  }

  // ---------------------------------------------------------------------------
  // store queries
  // ---------------------------------------------------------------------------

  function Ids(store: AdminStore): set<Id>
  {
    set a | a in store :: a.id
  }

  function IdOf(a: Admin): Id
  {
    a.id
  }

  /** `AdminModel.findOne({ email })`: the first document in natural order with that email. */
  function FindByEmail(store: AdminStore, email: string): (r: Option<Admin>)
    ensures r.None? <==> forall i :: 0 <= i < |store| ==> store[i].email != email
    ensures r.Some? ==> exists i :: 0 <= i < |store| && store[i] == r.value
                                 && (forall j :: 0 <= j < i ==> store[j].email != email)
    ensures r.Some? ==> r.value.email == email
  {
    FindFirst(store, (a: Admin) => a.email == email)
  }

  /** `AdminModel.findById(id)`: the first document in natural order with that id. */
  function FindById(store: AdminStore, id: Id): (r: Option<Admin>)
    ensures r.None? <==> forall i :: 0 <= i < |store| ==> store[i].id != id
    ensures r.Some? ==> exists i :: 0 <= i < |store| && store[i] == r.value
                                 && (forall j :: 0 <= j < i ==> store[j].id != id)
    ensures r.Some? ==> r.value.id == id
  {
    FindFirst(store, (a: Admin) => a.id == id)
  }

  /** No two admins share an email. */
  predicate UniqueEmails(store: AdminStore)
  {
    forall i, j :: 0 <= i < j < |store| ==> store[i].email != store[j].email
  }

  /** No two admins share an id. */
  predicate UniqueIds(store: AdminStore)
  {
    forall i, j :: 0 <= i < j < |store| ==> store[i].id != store[j].id
  }

  // ---------------------------------------------------------------------------
  // createAdmin
  // ---------------------------------------------------------------------------

  /** `createAdmin`: `read` is whether the duplicate lookup resolves; `salt` is what
      bcrypt draws; `saved` is whether the database accepts the new document. Either
      failure lands in the catch as 500 and leaves the store as it was. */
  function CreateAdmin(store: AdminStore, input: NewAdmin, salt: string, read: bool, saved: bool): (out: (Response, AdminStore))
    ensures !read ==> out == (Response(500, Error("Server error")), store)
    ensures read && FindByEmail(store, input.email).Some? ==>
      out == (Response(400, Error("Email already registered")), store)
    ensures read && FindByEmail(store, input.email).None? && !saved ==>
      out == (Response(500, Error("Server error")), store)
    ensures read && FindByEmail(store, input.email).None? && saved ==>
      && out.0.status == 201
      && |out.1| == |store| + 1
      && out.1[..|store|] == store
      && out.1[|store|].email == input.email
      && out.1[|store|] == Admin(out.1[|store|].id, input.name, input.email, out.1[|store|].password, input.role, input.avatar)
      && out.1[|store|].id !in Ids(store)
      && (forall p :: Compare(p, out.1[|store|].password) <==> p == input.password)
      && out.0.body == Created(Summary(out.1[|store|].id, input.name, input.email, input.role, input.avatar))
      && out.0.body == Created(SummaryOf(out.1[|store|]))
  {
    if !read then (Response(500, Error("Server error")), store)
    else if FindByEmail(store, input.email).Some? then
      (Response(400, Error("Email already registered")), store)
    else if !saved then
      (Response(500, Error("Server error")), store)
    else
      var rec := Admin(FreshId(store, IdOf), input.name, input.email, Hash(input.password, salt), input.role, input.avatar);
      (Response(201, Created(SummaryOf(rec))), store + [rec])
  }

  /** Registration keeps emails and ids unique: a duplicate email is refused, a fresh one gets a fresh id. */
  lemma CreateAdminKeepsUnique(store: AdminStore, input: NewAdmin, salt: string, read: bool, saved: bool)
    requires UniqueEmails(store) && UniqueIds(store)
    ensures UniqueEmails(CreateAdmin(store, input, salt, read, saved).1)
    ensures UniqueIds(CreateAdmin(store, input, salt, read, saved).1)
  {
    var s' := CreateAdmin(store, input, salt, read, saved).1;
    if |s'| > |store| {
      assert s'[|store|].id !in Ids(store);
      forall i | 0 <= i < |store| ensures s'[i].id != s'[|store|].id && s'[i].email != s'[|store|].email {
        assert s'[i] == store[i];
        assert store[i] in store;
      }
    }
  }

  /** Registering the same email twice: the first call succeeds, the second is
      refused with 400, and exactly one record carries that email. */
  lemma CreateAdminTwice(store: AdminStore, input: NewAdmin, salt1: string, salt2: string)
    requires FindByEmail(store, input.email).None?
    ensures var (r1, s1) := CreateAdmin(store, input, salt1, true, true);
            var (r2, s2) := CreateAdmin(s1, input, salt2, true, true);
            r1.status == 201 && r2 == Response(400, Error("Email already registered")) && s2 == s1
            && |s2| == |store| + 1
  {
    var s1 := CreateAdmin(store, input, salt1, true, true).1;
    assert s1[|store|].email == input.email;
  }

  // ---------------------------------------------------------------------------
  // adminLogin
  // ---------------------------------------------------------------------------

  /** `adminLogin`: `read` is whether `findOne` resolves; a rejected lookup lands in
      the catch as 500. The email is looked up before any password comparison. */
  function AdminLogin(store: AdminStore, email: string, password: string, ts: TokenService, read: bool): (r: Response)
    ensures !read ==> r == Response(500, Error("Server error"))
    ensures read && (forall i :: 0 <= i < |store| ==> store[i].email != email) ==>
      r == Response(400, Error("Invalid email"))
    ensures r.status == 200 <==>
      read && FindByEmail(store, email).Some? && Compare(password, FindByEmail(store, email).value.password)
    ensures r.status == 200 ==>
      && r.body.LoggedIn?
      && r.body.message == "Login success"
      && r.body.admin == SummaryOf(FindByEmail(store, email).value)
      && r.body.token == ts.sign(ClaimsOf(r.body.admin))
    ensures r.status in {200, 400, 401, 500}
  {
    if !read then Response(500, Error("Server error"))
    else match FindByEmail(store, email)
    case None => Response(400, Error("Invalid email"))
    case Some(admin) =>
      if !Compare(password, admin.password) then Response(401, Error("Invalid password"))
      else
        var summary := SummaryOf(admin);
        Response(200, LoggedIn("Login success", summary, ts.sign(ClaimsOf(summary))))
  }

  /** An unknown email is answered the same way whatever password is sent. */
  lemma UnknownEmailIgnoresPassword(store: AdminStore, email: string, p1: string, p2: string, ts: TokenService, read: bool)
    requires FindByEmail(store, email).None?
    ensures AdminLogin(store, email, p1, ts, read) == AdminLogin(store, email, p2, ts, read)
  {
  }

  /** A known email with a password other than the registered one gives 401 "Invalid password". */
  lemma WrongPassword(store: AdminStore, email: string, password: string, ts: TokenService)
    requires FindByEmail(store, email).Some?
    requires !Compare(password, FindByEmail(store, email).value.password)
    ensures AdminLogin(store, email, password, ts, true) == Response(401, Error("Invalid password"))
  {
  }

  /** A successful login's token decodes to exactly the admin object returned beside it. */
  lemma LoginTokenMatchesAdmin(store: AdminStore, email: string, password: string, ts: TokenService, read: bool)
    requires SignsVerifiably(ts)
    requires AdminLogin(store, email, password, ts, read).status == 200
    ensures var b := AdminLogin(store, email, password, ts, read).body;
            ts.verify(b.token) == Some(ClaimsOf(b.admin))
  {
  }

  // ---------------------------------------------------------------------------
  // getAdminProfile
  // ---------------------------------------------------------------------------

  /** `getAdminProfile`: looks up `req.admin.id`; an absent id finds nothing.
      A request that never passed the auth gate has no `req.admin` and throws;
      `read` is whether `findById` resolves. Both failures land in the catch as 500. */
  function GetAdminProfile(store: AdminStore, claims: Option<Claims>, read: bool): (r: Response)
    ensures claims.None? || !read ==> r == Response(500, Error("Server error"))
    ensures claims.Some? && read && claims.value.id.Some? && FindById(store, claims.value.id.value).Some? ==>
      r == Response(200, Profile(SummaryOf(FindById(store, claims.value.id.value).value)))
    ensures claims.Some? && read && (claims.value.id.None? || FindById(store, claims.value.id.value).None?) ==>
      r == Response(404, Error("Admin not found"))
  {
    if !read then Response(500, Error("Server error"))
    else match claims
    case None => Response(500, Error("Server error"))
    case Some(c) =>
      match c.id
      case None => Response(404, Error("Admin not found"))
      case Some(id) =>
        match FindById(store, id)
        case None => Response(404, Error("Admin not found"))
        case Some(admin) => Response(200, Profile(SummaryOf(admin)))
  }

  /** Login then profile: the profile a login token leads to is the admin the login returned. */
  lemma ProfileOfLoggedInAdmin(store: AdminStore, email: string, password: string, ts: TokenService, read: bool)
    requires UniqueIds(store)
    requires SignsVerifiably(ts)
    requires AdminLogin(store, email, password, ts, read).status == 200
    ensures var b := AdminLogin(store, email, password, ts, read).body;
            GetAdminProfile(store, ts.verify(b.token), true) == Response(200, Profile(b.admin))
  {
    var a := FindByEmail(store, email).value;
    var found := FindById(store, a.id);
    assert found.Some?;
    var i :| 0 <= i < |store| && store[i] == a;
    var j :| 0 <= j < |store| && store[j] == found.value;
    assert i == j;
  }

  // ---------------------------------------------------------------------------
  // ensureDefaultAdmin
  // ---------------------------------------------------------------------------

  /** The environment variables the bootstrap reads. */
  datatype Env = Env(
    defaultName: Option<string>,      // DEFAULT_ADMIN_NAME
    defaultEmail: Option<string>,     // DEFAULT_ADMIN_EMAIL
    defaultPassword: Option<string>)  // DEFAULT_ADMIN_PASSWORD

  /** `v || fallback`: an unset or empty variable falls back. */
  function OrDefault(v: Option<string>, fallback: string): (r: string)
    ensures v.Some? && v.value != "" ==> r == v.value
    ensures v.None? || v.value == "" ==> r == fallback
  {
    if v.Some? && v.value != "" then v.value else fallback
  }

  const DefaultName: string := "Administrator"
  const DefaultEmail: string := "admin@example.com"
  const DefaultPassword: string := "admin1234"

  /** `ensureDefaultAdmin()`: `created` is whether the count and `AdminModel.create`
      both succeed; a failure of either is logged and swallowed. */
  function EnsureDefaultAdmin(store: AdminStore, env: Env, salt: string, created: bool): (s': AdminStore)
    ensures |store| > 0 ==> s' == store
    ensures !created ==> s' == store
    ensures |s'| <= |store| + 1
    ensures s'[..|store|] == store
  {
    if |store| > 0 then store
    else if !created then store
    else
      [Admin(FreshId(store, IdOf),
             Some(OrDefault(env.defaultName, DefaultName)),
             OrDefault(env.defaultEmail, DefaultEmail),
             Hash(OrDefault(env.defaultPassword, DefaultPassword), salt),
             Some("admin"),
             None)]
  }

  /** On an empty collection the bootstrap creates exactly one record, with role
      "admin" and the environment's credentials or the built-in defaults. */
  lemma BootstrapCreatesOneAdmin(env: Env, salt: string)
    ensures var s := EnsureDefaultAdmin([], env, salt, true);
            && |s| == 1
            && s[0].role == Some("admin")
            && s[0].name == Some(OrDefault(env.defaultName, DefaultName))
            && s[0].email == OrDefault(env.defaultEmail, DefaultEmail)
            && (forall p :: Compare(p, s[0].password) <==> p == OrDefault(env.defaultPassword, DefaultPassword))
  {
  }

  /** Running the bootstrap twice creates at most one record: the second run is a no-op. */
  lemma BootstrapIdempotent(store: AdminStore, env: Env, salt1: string, salt2: string, c1: bool, c2: bool)
    ensures var once := EnsureDefaultAdmin(store, env, salt1, c1);
            var twice := EnsureDefaultAdmin(once, env, salt2, c2);
            |twice| <= |store| + 1 && (|once| > 0 ==> twice == once)
  {
  }

  /** After a successful bootstrap with no environment overrides, logging in with
      "admin@example.com" / "admin1234" succeeds and yields a role-"admin" summary. */
  lemma DefaultAdminCanLogIn(salt: string, ts: TokenService)
    ensures var s := EnsureDefaultAdmin([], Env(None, None, None), salt, true);
            var r := AdminLogin(s, DefaultEmail, DefaultPassword, ts, true);
            r.status == 200 && r.body.admin.role == Some("admin") && r.body.admin.email == DefaultEmail
  {
  }
}

=== FILE: admin_router.dfy ===
/** backend/router/adminRouter.js: how the three admin routes chain the
    middleware of backend/middleware/auth.js in front of their handlers. */
module AdminRouter {
  import opened Common
  import opened Credentials
  import opened Auth
  import opened AdminAccounts

  /** The admin routes, with the request-body fields each handler reads. */
  datatype Route =
    | CreateRoute(input: NewAdmin)                  // POST /create
    | LoginRoute(email: string, password: string)   // POST /login
    | ProfileRoute                                  // GET /profile

  /** The outcome of a gate that did not call `next()`, as an HTTP response. */
  function Refusal(g: Gate): Response
    requires !g.Next?
  {
    match g
    case Reply(status, error) => Response(status, Error(error))
    case Fault => Response(500, ServerFault)
  }

  /** Express running a route's middleware chain and handler against the admin store.
      `ts` is the JWT library with its secret; `read` is whether the handler's database
      lookup resolves; `salt` and `saved` feed `createAdmin`. */
  function Dispatch(route: Route, req: Request, store: AdminStore, ts: TokenService, salt: string, read: bool, saved: bool)
    : (out: (Response, AdminStore))
    ensures route.LoginRoute? ==> out == (AdminLogin(store, route.email, route.password, ts, read), store)
    ensures !route.CreateRoute? ==> out.1 == store
  {
    match route
    case CreateRoute(input) =>
      var authed := Authenticate(req, ts);
      if !authed.Next? then (Refusal(authed), store)
      else
        var admitted := RequireAdmin(authed.req);
        if !admitted.Next? then (Refusal(admitted), store)
        else CreateAdmin(store, input, salt, read, saved)
    case LoginRoute(email, password) =>
      (AdminLogin(store, email, password, ts, read), store)
    case ProfileRoute =>
      var authed := Authenticate(req, ts);
      if !authed.Next? then (Refusal(authed), store)
      else (GetAdminProfile(store, authed.req.admin, read), store)
  }

  /** A request without a valid token never reaches `createAdmin`: 401 and the store is unchanged. */
  lemma CreateRequiresToken(input: NewAdmin, req: Request, store: AdminStore, ts: TokenService, salt: string, read: bool, saved: bool)
    requires !Authenticate(req, ts).Next?
    ensures var (r, s') := Dispatch(CreateRoute(input), req, store, ts, salt, read, saved);
            r.status == 401 && s' == store
  {
  }

  /** A valid token whose role is not "admin" gets 403 "Admin only" and the store is unchanged. */
  lemma CreateRequiresAdminRole(input: NewAdmin, req: Request, store: AdminStore, ts: TokenService, salt: string, read: bool, saved: bool)
    requires BearerToken(req.authorization).Some?
    requires ts.verify(BearerToken(req.authorization).value).Some?
    requires ts.verify(BearerToken(req.authorization).value).value.role != Some("admin")
    ensures Dispatch(CreateRoute(input), req, store, ts, salt, read, saved) == (Response(403, Error("Admin only")), store)
  {
  }

  /** A token that verifies to role "admin" passes both gates: `/create` is then
      `createAdmin` itself, with every outcome it has. */
  lemma AdminTokenReachesCreate(input: NewAdmin, req: Request, store: AdminStore, ts: TokenService, salt: string, read: bool, saved: bool)
    requires BearerToken(req.authorization).Some?
    requires ts.verify(BearerToken(req.authorization).value).Some?
    requires ts.verify(BearerToken(req.authorization).value).value.role == Some("admin")
    ensures Dispatch(CreateRoute(input), req, store, ts, salt, read, saved) == CreateAdmin(store, input, salt, read, saved)
  {
  }

  /** The store grows on `/create` only for a verified admin token. */
  lemma CreateChangesStoreOnlyForAdmins(input: NewAdmin, req: Request, store: AdminStore, ts: TokenService, salt: string, read: bool, saved: bool)
    requires Dispatch(CreateRoute(input), req, store, ts, salt, read, saved).1 != store
    ensures BearerToken(req.authorization).Some?
    ensures ts.verify(BearerToken(req.authorization).value).Some?
    ensures ts.verify(BearerToken(req.authorization).value).value.role == Some("admin")
  {
  }

  /** `/login` has no gate: the header plays no part. */
  lemma LoginIsOpen(email: string, password: string, req1: Request, req2: Request, store: AdminStore, ts: TokenService, salt: string, read: bool, saved: bool)
    ensures Dispatch(LoginRoute(email, password), req1, store, ts, salt, read, saved)
         == Dispatch(LoginRoute(email, password), req2, store, ts, salt, read, saved)
  {
  }

  /** `/profile` needs a valid token but no role: any verified claims reach `getAdminProfile`. */
  lemma ProfileNeedsTokenNotRole(req: Request, store: AdminStore, ts: TokenService, salt: string, read: bool, saved: bool)
    ensures var r := Dispatch(ProfileRoute, req, store, ts, salt, read, saved).0;
            match BearerToken(req.authorization)
            case None => r == Response(401, Error("No token provided"))
            case Some(t) =>
              match ts.verify(t)
              case None => r == Response(401, Error("Invalid or expired token"))
              case Some(c) => r == GetAdminProfile(store, Some(c), read)
  {
  }

  /** End to end on a freshly bootstrapped store: logging in with the default
      credentials returns a token; `GET /profile` with `Bearer <token>` returns the
      admin's password-free profile; without a header it returns 401. */
  lemma DefaultAdminSession(salt: string, ts: TokenService, salt2: string, saved: bool)
    requires SignsVerifiably(ts)
    ensures var store := EnsureDefaultAdmin([], Env(None, None, None), salt, true);
            var (login, s1) := Dispatch(LoginRoute(DefaultEmail, DefaultPassword), Request(None, None), store, ts, salt2, true, saved);
            && login.status == 200
            && var bearer := Request(Some("Bearer " + login.body.token), None);
            && Dispatch(ProfileRoute, bearer, s1, ts, salt2, true, saved).0 == Response(200, Profile(login.body.admin))
            && Dispatch(ProfileRoute, Request(None, None), s1, ts, salt2, true, saved).0 == Response(401, Error("No token provided"))
  {
    var store := EnsureDefaultAdmin([], Env(None, None, None), salt, true);
    var login := AdminLogin(store, DefaultEmail, DefaultPassword, ts, true);
    var token := login.body.token;
    BearerTokenIsSecondWord("Bearer", token, "");
    assert "Bearer " + token + "" == "Bearer " + token;
    ProfileOfLoggedInAdmin(store, DefaultEmail, DefaultPassword, ts, true);
  }
}

=== FILE: auth.dfy ===
/** The Express middleware of backend/middleware/auth.js: bearer-token extraction
    and verification (`authMiddleware`) and the admin role gate (`isAdmin`). */
module Auth {
  import opened Common
  import opened Text
  import opened Credentials

  /** The parts of an Express request the gates read and write. */
  datatype Request = Request(
    authorization: Option<string>,   // `req.headers.authorization`
    admin: Option<Claims>)           // `req.admin`, set by `authMiddleware`

  /** What a middleware does with a request: call `next()` exactly once with the
      (possibly extended) request, answer it with a status and `{ error }` body,
      or throw, which Express's default handler turns into a 500. */
  datatype Gate =
    | Next(req: Request)
    | Reply(status: int, error: string)
    | Fault

  /** `authorization?.split(" ")[1]`, kept only when truthy (not `undefined`, not `""`). */
  function BearerToken(authorization: Option<string>): Option<string>
  {
    match authorization
    case None => None
    case Some(h) =>
      var words := Split(h, ' ');
      if |words| >= 2 && words[1] != "" then Some(words[1]) else None
  }

  /** The token is the second space-separated word: whatever the first word is,
      and whatever follows a further space. */
  lemma BearerTokenIsSecondWord(scheme: string, token: string, rest: string)
    requires ' ' !in scheme && ' ' !in token && token != ""
    requires rest == "" || rest[0] == ' '
    ensures BearerToken(Some(scheme + " " + token + rest)) == Some(token)
  {
    var tail := if rest == "" then [] else Split(rest[1..], ' ');
    var parts := [scheme, token] + tail;
    JoinTwoThenTail(scheme, token, tail);
    assert rest == "" || rest == [' '] + Join(tail, ' ');
    assert Join(parts, ' ') == scheme + " " + token + rest;
    forall i | 0 <= i < |parts| ensures ' ' !in parts[i] {
      if i >= 2 { assert parts[i] == tail[i - 2]; }
    }
    SplitJoin(parts, ' ');
  }

  /** Joining two words and then a list of further words. */
  lemma JoinTwoThenTail(first: string, second: string, tail: seq<string>)
    ensures Join([first, second] + tail, ' ') ==
      first + " " + second + (if tail == [] then "" else [' '] + Join(tail, ' '))
  {
    var parts := [first, second] + tail;
    assert parts[1..] == [second] + tail;
    if tail != [] {
      assert ([second] + tail)[1..] == tail;
    }
  }

  /** A header with no space (such as a bare token) carries no token. */
  lemma NoSpaceNoToken(h: string)
    requires ' ' !in h
    ensures BearerToken(Some(h)) == None
  {
    SplitJoin([h], ' ');
  }

  /** A header whose second word is empty carries no token: `"Bearer "` and
      `"Bearer  t"` (two spaces) are both rejected. */
  lemma EmptySecondWordNoToken(scheme: string, rest: string)
    requires ' ' !in scheme
    requires rest == "" || rest[0] == ' '
    ensures BearerToken(Some(scheme + " " + rest)) == None
  {
    var h := scheme + " " + rest;
    var tail := Split(rest, ' ');
    if rest == "" {
      assert tail == [""];
    } else {
      assert ' ' in rest;
      assert IndexOf(rest, ' ') == 0;
      assert tail[0] == "";
    }
    var parts := [scheme] + tail;
    assert forall i :: 0 <= i < |parts| ==> ' ' !in parts[i] by {
      forall i | 0 <= i < |parts| ensures ' ' !in parts[i] {
        if i >= 1 { assert parts[i] == tail[i - 1]; }
      }
    }
    assert parts[1..] == tail;
    assert Join(parts, ' ') == h;
    SplitJoin(parts, ' ');
  }

  /** `authMiddleware(req, res, next)`. */
  function Authenticate(req: Request, ts: TokenService): (g: Gate)
    ensures req.authorization == None ==> g == Reply(401, "No token provided")
    ensures g.Next? <==>
      BearerToken(req.authorization).Some? && ts.verify(BearerToken(req.authorization).value).Some?
    ensures g.Next? ==> g.req.authorization == req.authorization
    ensures g.Next? ==> g.req.admin == ts.verify(BearerToken(req.authorization).value)
    ensures g.Reply? ==> g.status == 401
    ensures !g.Fault?
  {
    match BearerToken(req.authorization)
    case None => Reply(401, "No token provided")
    case Some(token) =>
      match ts.verify(token)
      case None => Reply(401, "Invalid or expired token")
      case Some(decoded) => Next(req.(admin := Some(decoded)))
  }

  /** Without a token the verifier is never consulted: the outcome is the same for every token service. */
  lemma NoTokenNoVerification(req: Request, ts1: TokenService, ts2: TokenService)
    requires BearerToken(req.authorization) == None
    ensures Authenticate(req, ts1) == Authenticate(req, ts2) == Reply(401, "No token provided")
  {
  }

  /** A token the verifier rejects gives 401 "Invalid or expired token", and `req.admin` is not set. */
  lemma RejectedToken(req: Request, ts: TokenService)
    requires BearerToken(req.authorization).Some?
    requires ts.verify(BearerToken(req.authorization).value) == None
    ensures Authenticate(req, ts) == Reply(401, "Invalid or expired token")
  {
  }

  /** `isAdmin(req, res, next)`: reads `req.admin.role` and nothing else. */
  function RequireAdmin(req: Request): (g: Gate)
    ensures req.admin == None ==> g == Fault
    ensures req.admin.Some? && req.admin.value.role != Some("admin") ==> g == Reply(403, "Admin only")
    ensures req.admin.Some? && req.admin.value.role == Some("admin") ==> g == Next(req)
  {
    match req.admin
    case None => Fault
    case Some(claims) =>
      if claims.role != Some("admin") then Reply(403, "Admin only") else Next(req)
  }

  /** The role gate depends only on the role claim, and passes the request on unmodified. */
  lemma RequireAdminReadsOnlyRole(req1: Request, req2: Request)
    requires req1.admin.Some? && req2.admin.Some?
    requires req1.admin.value.role == req2.admin.value.role
    ensures RequireAdmin(req1).Next? <==> RequireAdmin(req2).Next?
    ensures RequireAdmin(req1).Next? ==> RequireAdmin(req1).req == req1
  {
  }
}

=== FILE: cart.dfy ===
/** The shopping cart shared by the storefront (frontend/src/components/Bookcard.jsx)
    and the cart page (frontend/src/components/cartPage.jsx): adding a book once,
    changing quantities with a floor of one, removing, and the order summary. */
module Cart {
  import opened Common
  import opened Credentials
  import opened Catalog

  /** One cart line. The storefront stores `{ ...item, quantity: 1 }`, so the
      line's `quantity` is the number of copies ordered and replaces the
      product's stock count. */
  datatype CartEntry = CartEntry(item: Product, quantity: int)

  type CartItems = seq<CartEntry>

  /** `cartItems.find((p) => p._id === id)` finds something. */
  predicate InCart(cart: CartItems, id: Id)
  {
    exists i :: 0 <= i < |cart| && cart[i].item.id == id
  }

  /** The shape every cart operation keeps: one line per product, at least one copy each. */
  predicate Wellformed(cart: CartItems)
  {
    && (forall i, j :: 0 <= i < j < |cart| ==> cart[i].item.id != cart[j].item.id)
    && (forall i :: 0 <= i < |cart| ==> cart[i].quantity >= 1)
  }

  // ---------------------------------------------------------------------------
  // storefront: handleAddToCart, handleQuantityChange, the Add button
  // ---------------------------------------------------------------------------

  /** The Add button is enabled exactly for products whose status is `"available"`;
      a missing status disables it too. */
  predicate AddEnabled(p: Product)
  {
    p.status == Some("available")
  }

  /** `handleAddToCart`: a product already in the cart is ignored; otherwise it is
      appended with one copy. */
  function AddToCart(cart: CartItems, item: Product): (r: CartItems)
    ensures InCart(r, item.id)
    ensures |cart| <= |r| <= |cart| + 1 && r[..|cart|] == cart
    ensures |r| == |cart| + 1 <==> !InCart(cart, item.id)
    ensures |r| == |cart| + 1 ==> r[|cart|] == CartEntry(item, 1)
    ensures Wellformed(cart) ==> Wellformed(r)
  {
    if InCart(cart, item.id) then cart
    else
      var r := cart + [CartEntry(item, 1)];
      assert r[|cart|].item.id == item.id;
      r
  }

  /** A click on a card's Add button, which is only rendered for a product not yet in
      the cart: a disabled button does nothing, an enabled one runs `handleAddToCart`. */
  function ClickAdd(cart: CartItems, p: Product): (r: CartItems)
    ensures |cart| <= |r| <= |cart| + 1 && r[..|cart|] == cart
    ensures |r| == |cart| + 1 <==> AddEnabled(p) && !InCart(cart, p.id)
    ensures |r| == |cart| + 1 ==> r[|cart|] == CartEntry(p, 1) && r[|cart|].item.status == Some("available")
  {
    if AddEnabled(p) then AddToCart(cart, p) else cart
  }

  /** `handleQuantityChange(item, increment)`: the line of `item` gains one copy, or
      loses one but keeps at least one; every other line is unchanged. */
  function QuantityChange(cart: CartItems, item: Product, increment: bool): (r: CartItems)
    ensures |r| == |cart|
    ensures forall i :: 0 <= i < |r| ==> r[i].item == cart[i].item
    ensures forall i :: 0 <= i < |r| && cart[i].item.id != item.id ==> r[i] == cart[i]
    ensures forall i :: 0 <= i < |r| && cart[i].item.id == item.id ==>
      r[i].quantity == if increment then cart[i].quantity + 1
                       else if cart[i].quantity - 1 < 1 then 1 else cart[i].quantity - 1
  {
    if cart == [] then []
    else
      var head := cart[0];
      var q := if head.item.id != item.id then head.quantity
               else if increment then head.quantity + 1
               else if head.quantity - 1 < 1 then 1 else head.quantity - 1;
      [CartEntry(head.item, q)] + QuantityChange(cart[1..], item, increment)
  }

  // ---------------------------------------------------------------------------
  // cart page: updateQuantity, removeItem, the order summary
  // ---------------------------------------------------------------------------

  /** `updateQuantity(id, delta)`: the matching lines become `Math.max(1, quantity + delta)`. */
  function UpdateQuantity(cart: CartItems, id: Id, delta: int): (r: CartItems)
    ensures |r| == |cart|
    ensures forall i :: 0 <= i < |r| ==> r[i].item == cart[i].item
    ensures forall i :: 0 <= i < |r| && cart[i].item.id != id ==> r[i] == cart[i]
    ensures forall i :: 0 <= i < |r| && cart[i].item.id == id ==>
      r[i].quantity >= 1 && r[i].quantity >= cart[i].quantity + delta
      && (r[i].quantity == 1 || r[i].quantity == cart[i].quantity + delta)
  {
    if cart == [] then []
    else
      var head := cart[0];
      var q := if head.item.id != id then head.quantity
               else if head.quantity + delta < 1 then 1 else head.quantity + delta;
      [CartEntry(head.item, q)] + UpdateQuantity(cart[1..], id, delta)
  }

  /** A line of some other product than `id`. */
  function OtherThan(id: Id): (f: CartEntry -> bool)
    ensures forall e :: f(e) == (e.item.id != id)
  {
    (e: CartEntry) => e.item.id != id
  }

  /** `removeItem(id)`: every line except the product's, in order. */
  function RemoveItem(cart: CartItems, id: Id): (r: CartItems)
    ensures !InCart(r, id)
    ensures IsSubsequence(r, cart)
    ensures forall i :: 0 <= i < |cart| && cart[i].item.id != id ==> cart[i] in r
    ensures |r| == Count(cart, OtherThan(id))
    ensures !InCart(cart, id) ==> r == cart
  {
    var keep := OtherThan(id);
    if !InCart(cart, id) then
      FilterAll(cart, keep);
      Filter(cart, keep)
    else Filter(cart, keep)
  }

  function LineTotal(e: CartEntry): int
  {
    e.item.price * e.quantity
  }

  /** `itemsTotal`: the sum of price times quantity over the lines, in cents. */
  function ItemsTotal(cart: CartItems): (r: int)
    ensures cart == [] ==> r == 0
  {
    Sum(cart, LineTotal)
  }

  function Units(e: CartEntry): int
  {
    e.quantity
  }

  /** The delivery options of the summary's select; Standard is preselected. */
  datatype Shipping = Standard | Express

  const DefaultShipping: Shipping := Standard

  /** The fee of each option in cents ($5 and $10). */
  function Fee(s: Shipping): (cents: int)
    ensures cents > 0
    ensures s == DefaultShipping <==> cents == 500
    ensures s == Express ==> cents == 1000
  {
    match s
    case Standard => 500
    case Express => 1000
  }

  /** `totalCost`: the items plus the chosen delivery. The ensures only record the
      decomposition; `TotalCostAdd`, `TotalCostRemove`, `TotalCostUpdate` and
      `ExpressCostsMore` state how the total moves. */
  function TotalCost(cart: CartItems, s: Shipping): (t: int)
    ensures t > ItemsTotal(cart)
    ensures t - ItemsTotal(cart) == Fee(s)
  {
    ItemsTotal(cart) + Fee(s)
  }

  /** The "N Items" label counts lines, not copies. */
  function ItemCount(cart: CartItems): (n: nat)
    ensures n == |cart|
    ensures n == 0 <==> cart == []
  {
    |cart|
  }

  // ---------------------------------------------------------------------------
  // properties
  // ---------------------------------------------------------------------------

  /** Adding a product twice is the same as adding it once. */
  lemma AddIdempotent(cart: CartItems, item: Product)
    ensures AddToCart(AddToCart(cart, item), item) == AddToCart(cart, item)
  {
  }

  /** Removing a product that was just added restores the cart. */
  lemma {:induction false} AddThenRemove(cart: CartItems, item: Product)
    requires !InCart(cart, item.id)
    ensures RemoveItem(AddToCart(cart, item), item.id) == cart
  {
    var keep := OtherThan(item.id);
    var added := AddToCart(cart, item);
    assert added == cart + [CartEntry(item, 1)];
    FilterAppend(cart, [CartEntry(item, 1)], keep);
    FilterAll(cart, keep);
    assert Filter([CartEntry(item, 1)], keep) == [];
  }

  /** The two ways of changing a quantity agree: the storefront's minus button is the
      cart page's `-1`, and its plus button is `+1` whenever no matching line has a
      negative quantity (for which the cart page would jump to one). */
  lemma QuantityChangeIsUpdate(cart: CartItems, item: Product)
    ensures QuantityChange(cart, item, false) == UpdateQuantity(cart, item.id, -1)
    ensures (forall i :: 0 <= i < |cart| && cart[i].item.id == item.id ==> cart[i].quantity >= 0) ==>
      QuantityChange(cart, item, true) == UpdateQuantity(cart, item.id, 1)
  {
    var down, down' := QuantityChange(cart, item, false), UpdateQuantity(cart, item.id, -1);
    assert forall i :: 0 <= i < |cart| ==> down[i] == down'[i];
    if forall i :: 0 <= i < |cart| && cart[i].item.id == item.id ==> cart[i].quantity >= 0 {
      var up, up' := QuantityChange(cart, item, true), UpdateQuantity(cart, item.id, 1);
      assert forall i :: 0 <= i < |cart| ==> up[i] == up'[i];
    }
  }

  /** A negative stored quantity shows where the two disagree: plus gives zero on the
      storefront but one on the cart page. */
  lemma QuantityChangeDiffersBelowZero(p: Product)
    ensures QuantityChange([CartEntry(p, -1)], p, true) == [CartEntry(p, 0)]
    ensures UpdateQuantity([CartEntry(p, -1)], p.id, 1) == [CartEntry(p, 1)]
  {
  }

  lemma UpdateKeepsWellformed(cart: CartItems, id: Id, delta: int)
    requires Wellformed(cart)
    ensures Wellformed(UpdateQuantity(cart, id, delta))
  {
    var r := UpdateQuantity(cart, id, delta);
    forall i, j | 0 <= i < j < |r| ensures r[i].item.id != r[j].item.id {
      assert r[i].item == cart[i].item && r[j].item == cart[j].item;
    }
  }

  lemma QuantityChangeKeepsWellformed(cart: CartItems, item: Product, increment: bool)
    requires Wellformed(cart)
    ensures Wellformed(QuantityChange(cart, item, increment))
  {
    var r := QuantityChange(cart, item, increment);
    forall i, j | 0 <= i < j < |r| ensures r[i].item.id != r[j].item.id {
      assert r[i].item == cart[i].item && r[j].item == cart[j].item;
    }
  }

  lemma RemoveKeepsWellformed(cart: CartItems, id: Id)
    requires Wellformed(cart)
    ensures Wellformed(RemoveItem(cart, id))
  {
    var r := RemoveItem(cart, id);
    SubsequenceMembers(r, cart);
    forall i, j | 0 <= i < j < |r| ensures r[i].item.id != r[j].item.id {
      SubsequenceIndices(r, cart, i, j);
    }
  }

  /** Two positions of a subsequence come from two increasing positions of the whole. */
  lemma {:induction false} SubsequenceIndices(a: CartItems, b: CartItems, i: nat, j: nat)
    requires IsSubsequence(a, b)
    requires i < j < |a|
    ensures exists x, y :: 0 <= x < y < |b| && b[x] == a[i] && b[y] == a[j]
    decreases |b|
  {
    if a[0] == b[0] && IsSubsequence(a[1..], b[1..]) {
      if i == 0 {
        SubsequenceMembers(a[1..], b[1..]);
        assert a[j] == a[1..][j - 1];
        var y :| 0 <= y < |b[1..]| && b[1..][y] == a[j];
        assert b[0] == a[0] && b[y + 1] == a[j];
      } else {
        SubsequenceIndices(a[1..], b[1..], i - 1, j - 1);
        var x, y :| 0 <= x < y < |b[1..]| && b[1..][x] == a[1..][i - 1] && b[1..][y] == a[1..][j - 1];
        assert b[x + 1] == a[i] && b[y + 1] == a[j];
      }
    } else {
      SubsequenceIndices(a, b[1..], i, j);
      var x, y :| 0 <= x < y < |b[1..]| && b[1..][x] == a[i] && b[1..][y] == a[j];
      assert b[x + 1] == a[i] && b[y + 1] == a[j];
    }
  }

  /** Changing one line's quantity changes the items total by its price times the change. */
  lemma UpdateTotal(cart: CartItems, k: nat, delta: int)
    requires Wellformed(cart) && k < |cart|
    ensures var r := UpdateQuantity(cart, cart[k].item.id, delta);
            ItemsTotal(r) == ItemsTotal(cart) + cart[k].item.price * (r[k].quantity - cart[k].quantity)
  {
    var r := UpdateQuantity(cart, cart[k].item.id, delta);
    SumUpdate(cart, r, k, LineTotal);
    assert LineTotal(r[k]) - LineTotal(cart[k]) == cart[k].item.price * (r[k].quantity - cart[k].quantity);
  }

  /** In a well-formed cart, removing a line's product drops exactly that line. */
  lemma RemoveDropsLine(cart: CartItems, k: nat)
    requires Wellformed(cart) && k < |cart|
    ensures RemoveItem(cart, cart[k].item.id) == cart[..k] + cart[k + 1..]
  {
    var id := cart[k].item.id;
    var keep := OtherThan(id);
    assert RemoveItem(cart, id) == Filter(cart, keep);
    FilterDropsOne(cart, k, keep);
  }

  /** Removing a line takes exactly its line total off the items total. */
  lemma RemoveTotal(cart: CartItems, k: nat)
    requires Wellformed(cart) && k < |cart|
    ensures ItemsTotal(RemoveItem(cart, cart[k].item.id)) == ItemsTotal(cart) - LineTotal(cart[k])
  {
    RemoveDropsLine(cart, k);
    SumWithout(cart, k, LineTotal);
  }

  /** In a well-formed cart the line count never exceeds the number of copies. */
  lemma ItemCountAtMostUnits(cart: CartItems)
    requires Wellformed(cart)
    ensures ItemCount(cart) <= Sum(cart, Units)
  {
    SumAtLeastLength(cart, Units);
  }

  /** A card reached through the Add button only ever puts an available product in the
      cart: from a cart of available products, any click keeps it so. */
  lemma AddClickKeepsAvailable(cart: CartItems, p: Product)
    requires forall i :: 0 <= i < |cart| ==> cart[i].item.status == Some("available")
    ensures var r := ClickAdd(cart, p);
            forall i :: 0 <= i < |r| ==> r[i].item.status == Some("available")
  {
    var r := ClickAdd(cart, p);
    forall i | 0 <= i < |r| ensures r[i].item.status == Some("available") {
      if i < |cart| {
        assert r[i] == r[..|cart|][i];
      }
    }
  }

  /** Clicking Add on a product that is not available leaves the cart as it was. */
  lemma UnavailableNeverAdded(cart: CartItems, p: Product)
    requires p.status != Some("available")
    ensures ClickAdd(cart, p) == cart
    ensures InCart(ClickAdd(cart, p), p.id) == InCart(cart, p.id)
  {
  }

  /** The "N Items" label moves by one when a new product is added, and by one when a
      line is removed from a well-formed cart. */
  lemma ItemCountMoves(cart: CartItems, p: Product, k: nat)
    requires Wellformed(cart) && k < |cart|
    ensures ItemCount(AddToCart(cart, p)) == ItemCount(cart) + (if InCart(cart, p.id) then 0 else 1)
    ensures ItemCount(RemoveItem(cart, cart[k].item.id)) == ItemCount(cart) - 1
  {
    RemoveDropsLine(cart, k);
  }

  /** Adding a new product raises the total by its price, one copy. */
  lemma TotalCostAdd(cart: CartItems, p: Product, s: Shipping)
    requires !InCart(cart, p.id)
    ensures TotalCost(AddToCart(cart, p), s) == TotalCost(cart, s) + p.price
  {
    SumAppend(cart, [CartEntry(p, 1)], LineTotal);
  }

  /** Removing a line lowers the total by that line's price times quantity. */
  lemma TotalCostRemove(cart: CartItems, k: nat, s: Shipping)
    requires Wellformed(cart) && k < |cart|
    ensures TotalCost(RemoveItem(cart, cart[k].item.id), s) == TotalCost(cart, s) - LineTotal(cart[k])
  {
    RemoveTotal(cart, k);
  }

  /** A quantity button moves the total by the price times the change in copies. */
  lemma TotalCostUpdate(cart: CartItems, k: nat, delta: int, s: Shipping)
    requires Wellformed(cart) && k < |cart|
    ensures var r := UpdateQuantity(cart, cart[k].item.id, delta);
            TotalCost(r, s) == TotalCost(cart, s) + cart[k].item.price * (r[k].quantity - cart[k].quantity)
  {
    UpdateTotal(cart, k, delta);
  }

  /** Choosing Express instead of Standard adds $5 to any cart. */
  lemma ExpressCostsMore(cart: CartItems)
    ensures TotalCost(cart, Express) == TotalCost(cart, Standard) + 500
  {
  }

  /** An empty cart costs just the delivery. */
  lemma EmptyCartCost(s: Shipping)
    ensures TotalCost([], s) == Fee(s)
    ensures TotalCost([], DefaultShipping) == 500
  {
  }
}

=== FILE: catalog.dfy ===
/** The product record shared by the backend product handlers and the React
    screens that receive it as JSON. */
module Catalog {
  import opened Common
  import opened Credentials

  /** A product document. Prices are integer cents; the other fields may be
      absent, and the screens treat an absent field explicitly. */
  datatype Product = Product(
    id: Id,                       // `_id`
    name: Option<string>,
    quantity: Option<int>,        // units in stock
    price: int,                   // cents
    category: Option<string>,
    prImg: string,                // uploaded file name
    status: Option<string>)       // "available" enables the storefront's Add button
}

=== FILE: common.dfy ===
/** Small value types and sequence combinators shared by every part of the model:
    the JavaScript `undefined`-or-value pattern, `Array.prototype.filter`,
    order-preserving subsequences and integer sums over sequences. */
module Common {

  /** A field that may be absent (`undefined` in the JavaScript source). */
  datatype Option<+T> = None | Some(value: T) {
    function GetOr(default: T): T {
      match this
      case Some(v) => v
      case None => default
    }
  }

  /** `a` is an order-preserving subsequence of `b`: `a` can be obtained from `b` by deleting elements. */
  predicate IsSubsequence<T(==)>(a: seq<T>, b: seq<T>)
    decreases |b|
  {
    if a == [] then true
    else if b == [] then false
    else (a[0] == b[0] && IsSubsequence(a[1..], b[1..])) || IsSubsequence(a, b[1..])
  }

  lemma {:induction false} SubsequenceRefl<T>(s: seq<T>)
    ensures IsSubsequence(s, s)
  {
    if s != [] {
      SubsequenceRefl(s[1..]);
    }
  }

  lemma {:induction false} SubsequenceTransitive<T>(a: seq<T>, b: seq<T>, c: seq<T>)
    requires IsSubsequence(a, b) && IsSubsequence(b, c)
    ensures IsSubsequence(a, c)
    decreases |c|
  {
    if a != [] && b != [] && c != [] {
      if b[0] == c[0] && IsSubsequence(b[1..], c[1..]) {
        if a[0] == b[0] && IsSubsequence(a[1..], b[1..]) {
          SubsequenceTransitive(a[1..], b[1..], c[1..]);
        } else {
          SubsequenceTransitive(a, b[1..], c[1..]);
        }
      } else {
        SubsequenceTransitive(a, b, c[1..]);
      }
    }
  }

  /** Every element of a subsequence occurs in the original sequence. */
  lemma {:induction false} SubsequenceMembers<T>(a: seq<T>, b: seq<T>)
    requires IsSubsequence(a, b)
    ensures forall i :: 0 <= i < |a| ==> a[i] in b
    decreases |b|
  {
    if a != [] && b != [] {
      if a[0] == b[0] && IsSubsequence(a[1..], b[1..]) {
        SubsequenceMembers(a[1..], b[1..]);
        forall i | 0 <= i < |a| ensures a[i] in b {
          if i > 0 {
            assert a[i] == a[1..][i - 1];
          }
        }
      } else {
        SubsequenceMembers(a, b[1..]);
      }
    }
  }

  /** `Array.prototype.filter`: the elements satisfying `p`, in their original order. */
  function Filter<T(==)>(xs: seq<T>, p: T -> bool): (r: seq<T>)
    ensures |r| <= |xs|
    ensures forall i :: 0 <= i < |r| ==> p(r[i])
    ensures forall i :: 0 <= i < |xs| && p(xs[i]) ==> xs[i] in r
    ensures IsSubsequence(r, xs)
    ensures |r| == Count(xs, p)
  {
    if xs == [] then []
    else if p(xs[0]) then [xs[0]] + Filter(xs[1..], p)
    else
      assert IsSubsequence(Filter(xs[1..], p), xs) by {
        if Filter(xs[1..], p) != [] {
          assert xs[1..] == xs[1..];
        }
      }
      Filter(xs[1..], p)
  }

  /** The position of the first element satisfying `p`, or `|xs|` when there is none. */
  function FirstIndex<T>(xs: seq<T>, p: T -> bool): (k: nat)
    ensures k <= |xs|
    ensures forall j :: 0 <= j < k ==> !p(xs[j])
    ensures k < |xs| ==> p(xs[k])
  {
    if xs == [] then 0
    else if p(xs[0]) then 0
    else
      var k := FirstIndex(xs[1..], p);
      assert forall j :: 1 <= j < k + 1 ==> xs[j] == xs[1..][j - 1];
      k + 1
  }

  /** `Array.prototype.find`, and a `findOne` scanning in natural order: the first
      element satisfying `p`, if any. */
  function FindFirst<T>(xs: seq<T>, p: T -> bool): (r: Option<T>)
    ensures r.None? <==> forall i :: 0 <= i < |xs| ==> !p(xs[i])
    ensures r.Some? ==> exists i :: 0 <= i < |xs| && xs[i] == r.value && p(xs[i])
                                 && (forall j :: 0 <= j < i ==> !p(xs[j]))
  {
    var k := FirstIndex(xs, p);
    if k < |xs| then Some(xs[k]) else None
  }

  /** A subsequence whose elements all satisfy `p` has at most as many elements as satisfy `p`. */
  lemma {:induction false} SubsequenceCountBound<T>(r: seq<T>, xs: seq<T>, p: T -> bool)
    requires IsSubsequence(r, xs)
    requires forall i :: 0 <= i < |r| ==> p(r[i])
    ensures |r| <= Count(xs, p)
    decreases |xs|
  {
    if r != [] && xs != [] {
      if r[0] == xs[0] && IsSubsequence(r[1..], xs[1..]) {
        SubsequenceCountBound(r[1..], xs[1..], p);
      } else {
        SubsequenceCountBound(r, xs[1..], p);
      }
    }
  }

  /** `Filter` is the only order-preserving selection of elements satisfying `p` that
      keeps as many of them as there are: the three facts pin the result. */
  lemma {:induction false} FilterExact<T>(r: seq<T>, xs: seq<T>, p: T -> bool)
    requires IsSubsequence(r, xs)
    requires forall i :: 0 <= i < |r| ==> p(r[i])
    requires |r| == Count(xs, p)
    ensures r == Filter(xs, p)
    decreases |xs|
  {
    if xs != [] {
      if r != [] && r[0] == xs[0] && IsSubsequence(r[1..], xs[1..]) {
        FilterExact(r[1..], xs[1..], p);
      } else if r == [] {
        CountIsFilterLength(xs, p);
      } else {
        SubsequenceCountBound(r, xs[1..], p);
        FilterExact(r, xs[1..], p);
      }
    }
  }

  /** Splitting by a predicate and its negation loses and adds nothing. */
  lemma {:induction false} FilterComplement<T>(xs: seq<T>, p: T -> bool, q: T -> bool)
    requires forall i :: 0 <= i < |xs| ==> (q(xs[i]) <==> !p(xs[i]))
    ensures multiset(Filter(xs, p)) + multiset(Filter(xs, q)) == multiset(xs)
  {
    if xs != [] {
      FilterComplement(xs[1..], p, q);
      assert xs == [xs[0]] + xs[1..];
      assert multiset(xs) == multiset{xs[0]} + multiset(xs[1..]);
    }
  }

  /** Both predicates hold. */
  function And<T>(p: T -> bool, q: T -> bool): T -> bool
  {
    x => p(x) && q(x)
  }

  /** Filtering twice is filtering once by the conjunction: successive filters compound. */
  lemma {:induction false} FilterFilter<T>(xs: seq<T>, p: T -> bool, q: T -> bool)
    ensures Filter(Filter(xs, p), q) == Filter(xs, And(p, q))
  {
    if xs != [] {
      FilterFilter(xs[1..], p, q);
    }
  }

  /** Filtering by a predicate every element satisfies is the identity. */
  lemma {:induction false} FilterAll<T>(xs: seq<T>, p: T -> bool)
    requires forall i :: 0 <= i < |xs| ==> p(xs[i])
    ensures Filter(xs, p) == xs
  {
    if xs != [] {
      FilterAll(xs[1..], p);
    }
  }

  /** A stricter predicate keeps a subsequence of what a weaker one keeps. */
  lemma {:induction false} FilterMonotone<T>(xs: seq<T>, p: T -> bool, q: T -> bool)
    requires forall i :: 0 <= i < |xs| && p(xs[i]) ==> q(xs[i])
    ensures IsSubsequence(Filter(xs, p), Filter(xs, q))
  {
    if xs != [] {
      var tail := xs[1..];
      assert forall i :: 0 <= i < |tail| ==> tail[i] == xs[i + 1];
      FilterMonotone(tail, p, q);
      var a, b := Filter(tail, p), Filter(tail, q);
      if p(xs[0]) {
        assert ([xs[0]] + a)[1..] == a && ([xs[0]] + b)[1..] == b;
      } else if q(xs[0]) {
        assert ([xs[0]] + b)[1..] == b;
      }
    }
  }

  /** Filtering distributes over concatenation. */
  lemma {:induction false} FilterAppend<T>(a: seq<T>, b: seq<T>, p: T -> bool)
    ensures Filter(a + b, p) == Filter(a, p) + Filter(b, p)
  {
    if a == [] {
      assert a + b == b;
    } else {
      var x, rest := a[0], a[1..];
      assert a == [x] + rest && a + b == [x] + (rest + b);
      FilterAppend(rest, b, p);
      FilterCons(x, rest + b, p);
      FilterCons(x, rest, p);
      ConsAppend(x, Filter(rest, p), Filter(b, p), p(x));
    }
  }

  lemma ConsAppend<T>(x: T, front: seq<T>, back: seq<T>, keep: bool)
    ensures (if keep then [x] + (front + back) else front + back) == (if keep then [x] + front else front) + back
  {
  }

  lemma FilterCons<T>(x: T, xs: seq<T>, p: T -> bool)
    ensures Filter([x] + xs, p) == if p(x) then [x] + Filter(xs, p) else Filter(xs, p)
  {
    assert ([x] + xs)[0] == x && ([x] + xs)[1..] == xs;
  }

  /** Filtering out exactly the element at `k` leaves the rest in order. */
  lemma {:induction false} FilterDropsOne<T>(xs: seq<T>, k: nat, p: T -> bool)
    requires k < |xs| && !p(xs[k])
    requires forall i :: 0 <= i < |xs| && i != k ==> p(xs[i])
    ensures Filter(xs, p) == xs[..k] + xs[k + 1..]
  {
    if k == 0 {
      FilterAll(xs[1..], p);
    } else {
      FilterDropsOne(xs[1..], k - 1, p);
      KeepFirst(xs, k, Filter(xs[1..], p));
    }
  }

  lemma KeepFirst<T>(xs: seq<T>, k: nat, rest: seq<T>)
    requires 0 < k < |xs| && rest == xs[1..][..k - 1] + xs[1..][k..]
    ensures [xs[0]] + rest == xs[..k] + xs[k + 1..]
  {
  }

  function Count<T>(xs: seq<T>, p: T -> bool): nat
  {
    if xs == [] then 0 else (if p(xs[0]) then 1 else 0) + Count(xs[1..], p)
  }

  lemma {:induction false} CountIsFilterLength<T>(xs: seq<T>, p: T -> bool)
    ensures Count(xs, p) == |Filter(xs, p)|
  {
    if xs != [] {
      CountIsFilterLength(xs[1..], p);
    }
  }

  lemma {:induction false} CountAppend<T>(a: seq<T>, b: seq<T>, p: T -> bool)
    ensures Count(a + b, p) == Count(a, p) + Count(b, p)
  {
    if a == [] {
      assert a + b == b;
    } else {
      assert (a + b)[1..] == a[1..] + b;
      CountAppend(a[1..], b, p);
    }
  }

  /** Filtering by a predicate no element satisfies leaves nothing. */
  lemma {:induction false} FilterNone<T>(xs: seq<T>, p: T -> bool)
    requires forall i :: 0 <= i < |xs| ==> !p(xs[i])
    ensures Filter(xs, p) == []
  {
    if xs != [] {
      assert !p(xs[0]);
      FilterNone(xs[1..], p);
    }
  }

  /** Two predicates that never hold together count at most the whole sequence. */
  lemma {:induction false} CountDisjoint<T>(xs: seq<T>, p: T -> bool, q: T -> bool)
    requires forall i :: 0 <= i < |xs| ==> !(p(xs[i]) && q(xs[i]))
    ensures Count(xs, p) + Count(xs, q) == Count(xs, x => p(x) || q(x))
    ensures Count(xs, p) + Count(xs, q) <= |xs|
  {
    if xs != [] {
      CountDisjoint(xs[1..], p, q);
    }
  }

  /** `xs.reduce((s, x) => s + f(x), 0)`. */
  function Sum<T>(xs: seq<T>, f: T -> int): int
  {
    if xs == [] then 0 else f(xs[0]) + Sum(xs[1..], f)
  }

  lemma {:induction false} SumAppend<T>(a: seq<T>, b: seq<T>, f: T -> int)
    ensures Sum(a + b, f) == Sum(a, f) + Sum(b, f)
  {
    if a == [] {
      assert a + b == b;
    } else {
      assert (a + b)[1..] == a[1..] + b;
      SumAppend(a[1..], b, f);
    }
  }

  /** Leaving one element out takes its term off the sum. */
  lemma {:induction false} SumWithout<T>(xs: seq<T>, k: nat, f: T -> int)
    requires k < |xs|
    ensures Sum(xs[..k] + xs[k + 1..], f) == Sum(xs, f) - f(xs[k])
  {
    if k == 0 {
      assert xs[..k] + xs[k + 1..] == xs[1..];
    } else {
      var rest := xs[1..][..k - 1] + xs[1..][k..];
      SumWithout(xs[1..], k - 1, f);
      KeepFirst(xs, k, rest);
      assert ([xs[0]] + rest)[1..] == rest;
    }
  }

  /** Updating an element of a non-empty sequence, seen from its head and tail. */
  lemma UpdateUnderCons<T>(t: seq<T>, j: nat, v: T)
    requires j < |t|
    ensures j == 0 ==> t[j := v] == [v] + t[1..]
    ensures j > 0 ==> t[j := v] == [t[0]] + t[1..][j - 1 := v]
  {
  }

  /** Replacing one element changes the sum by the difference of its two terms. */
  lemma {:induction false} SumUpdate<T>(a: seq<T>, b: seq<T>, k: nat, f: T -> int)
    requires |a| == |b| && k < |a|
    requires forall i :: 0 <= i < |a| && i != k ==> a[i] == b[i]
    ensures Sum(b, f) == Sum(a, f) - f(a[k]) + f(b[k])
  {
    if k > 0 {
      SumUpdate(a[1..], b[1..], k - 1, f);
    } else {
      assert a[1..] == b[1..];
    }
  }

  /** Reordering the terms does not change the sum. */
  lemma {:induction false} SumPermutation<T>(a: seq<T>, b: seq<T>, f: T -> int)
    requires multiset(a) == multiset(b)
    ensures Sum(a, f) == Sum(b, f)
    decreases |a|
  {
    if a != [] {
      assert a[0] in multiset(b);
      var k :| 0 <= k < |b| && b[k] == a[0];
      MultisetWithout(b, k);
      MultisetWithout(a, 0);
      assert a[..0] + a[1..] == a[1..];
      SumPermutation(a[1..], b[..k] + b[k + 1..], f);
      SumWithout(b, k, f);
    }
  }

  lemma MultisetWithout<T>(xs: seq<T>, k: nat)
    requires k < |xs|
    ensures multiset(xs[..k] + xs[k + 1..]) == multiset(xs) - multiset{xs[k]}
  {
    assert xs == xs[..k] + [xs[k]] + xs[k + 1..];
  }

  /** Terms of at least one add up to at least the number of terms. */
  lemma {:induction false} SumAtLeastLength<T>(xs: seq<T>, f: T -> int)
    requires forall i :: 0 <= i < |xs| ==> f(xs[i]) >= 1
    ensures Sum(xs, f) >= |xs|
  {
    if xs != [] {
      SumAtLeastLength(xs[1..], f);
    }
  }

  lemma {:induction false} SumNonNegative<T>(xs: seq<T>, f: T -> int)
    requires forall i :: 0 <= i < |xs| ==> f(xs[i]) >= 0
    ensures Sum(xs, f) >= 0
  {
    if xs != [] {
      SumNonNegative(xs[1..], f);
    }
  }

  /** No value occurs twice. */
  predicate NoDuplicates<T(==)>(xs: seq<T>)
  {
    forall i, j :: 0 <= i < j < |xs| ==> xs[i] != xs[j]
  }

  /** A sequence without duplicates holds each value at most once, counted as a multiset. */
  lemma {:induction false} NoDuplicatesMultiplicity<T>(xs: seq<T>, x: T)
    requires NoDuplicates(xs)
    ensures multiset(xs)[x] <= 1
  {
    if xs != [] {
      assert NoDuplicates(xs[1..]) by {
        forall i, j | 0 <= i < j < |xs[1..]| ensures xs[1..][i] != xs[1..][j] {
          assert xs[1..][i] == xs[i + 1] && xs[1..][j] == xs[j + 1];
        }
      }
      NoDuplicatesMultiplicity(xs[1..], x);
      assert xs == [xs[0]] + xs[1..];
      if x == xs[0] {
        assert x !in xs[1..] by {
          forall k | 0 <= k < |xs[1..]| ensures xs[1..][k] != x {
            assert xs[1..][k] == xs[k + 1];
          }
        }
      }
    }
  }

  /** A permutation of a duplicate-free sequence is duplicate-free. */
  lemma PermutationNoDuplicates<T>(a: seq<T>, b: seq<T>)
    requires multiset(a) == multiset(b)
    requires NoDuplicates(a)
    ensures NoDuplicates(b)
  {
    forall i, j | 0 <= i < j < |b| ensures b[i] != b[j] {
      if b[i] == b[j] {
        var x := b[i];
        assert b == b[..j] + [b[j]] + b[j + 1..];
        assert x in b[..j];
        assert multiset(b[..j])[x] >= 1;
        assert multiset(b)[x] >= 2;
        NoDuplicatesMultiplicity(a, x);
        assert false;
      }
    }
  }
}

=== FILE: credentials.dfy ===
/** The two cryptographic collaborators of the account handlers, kept abstract:
    bcrypt password hashing and JSON Web Token signing/verification. */
module Credentials {
  import opened Common

  /** Record identifiers (MongoDB `_id`). */
  type Id = nat

  /** The identifier MongoDB would assign to a new record: one that no stored record
      uses, given how to read a record's id. */
  function FreshId<T>(records: seq<T>, idOf: T -> Id): (id: Id)
    ensures forall i :: 0 <= i < |records| ==> idOf(records[i]) < id
  {
    if records == [] then 0
    else
      var rest := FreshId(records[1..], idOf);
      if idOf(records[0]) < rest then rest else idOf(records[0]) + 1
  }

  /** The cost factor every handler passes to `bcrypt.hash`. */
  const HashRounds: nat := 10

  /** A bcrypt digest. Its content is abstract: the only thing the model may do
      with it is compare a candidate password against it. The salt is the random
      input bcrypt draws; it is a parameter of every handler that hashes. */
  datatype Digest = Bcrypt(rounds: nat, salt: string, preimage: string)

  /** `bcrypt.hash(password, 10)` with the salt it happened to draw. */
  function Hash(password: string, salt: string): Digest
  {
    Bcrypt(HashRounds, salt, password)
  }

  /** `bcrypt.compare(candidate, digest)`. */
  predicate Compare(candidate: string, digest: Digest)
  {
    digest.preimage == candidate
  }

  /** A digest accepts exactly the password it was made from, whatever the salt. */
  lemma CompareHash(candidate: string, password: string, salt: string)
    ensures Compare(candidate, Hash(password, salt)) <==> candidate == password
  {
  }

  /** The payload of an admin token: `{ id, name, email, role, avatar }`.
      No expiry: `jwt.sign` is called without an `expiresIn` option. */
  datatype Claims = Claims(
    id: Option<Id>,
    name: Option<string>,
    email: Option<string>,
    role: Option<string>,
    avatar: Option<string>)

  /** `jwt.sign(payload, JWT_SECRET)` and `jwt.verify(token, JWT_SECRET)` with the
      secret fixed: `verify` yields the decoded payload, or `None` where the
      library throws (bad signature, malformed token). */
  datatype TokenService = TokenService(sign: Claims -> string, verify: string -> Option<Claims>)

  /** What a correctly configured JWT library promises: a token it signed verifies
      to the same claims, and is a single non-empty word (base64url segments and dots).
      `Claims` holds only the five signed fields: the `iat` timestamp that `jwt.sign`
      adds and `jwt.verify` returns is not modelled. */
  ghost predicate SignsVerifiably(ts: TokenService)
  {
    forall c: Claims ::
      ts.verify(ts.sign(c)) == Some(c) && ts.sign(c) != "" && ' ' !in ts.sign(c)
  }
}

=== FILE: dashboard.dfy ===
/** The admin dashboard (frontend/src/components/Dashboard.jsx): its fixed sample
    product list with the same stock counters and category tally as the book
    table, and the weekly mini bar chart. */
module Dashboard {
  import opened Common
  import opened Catalog
  import opened Text
  import opened Inventory

  /** The sample rows; the dashboard gives them no id, price, image or status. */
  function SampleProduct(id: nat, name: string, quantity: int, category: string): Product
  {
    Product(id, Some(name), Some(quantity), 0, Some(category), "", None)
  }

  function Products(): seq<Product>
  {
    [ SampleProduct(0, "Product A", 10, "Electronics"),
      SampleProduct(1, "Product B", 3, "Electronics"),
      SampleProduct(2, "Product C", 0, "Furniture"),
      SampleProduct(3, "Product D", 5, "Furniture"),
      SampleProduct(4, "Product E", 2, "Groceries") ]
  }

  /** The stock overview shows 20 in stock, two low (B and E) and one out (C). */
  lemma StockOverview()
    ensures StatsOf(Products()).totalStock == 20
    ensures StatsOf(Products()).lowStock == 2
    ensures StatsOf(Products()).outStock == 1
  {
    var ps := Products();
    assert ps[1..][1..][1..][1..][1..] == [];
  }

  /** Five units is the first quantity that is no longer low: Product D is not counted
      as low stock, and is not out of stock either. */
  lemma ProductDNotLow()
    ensures Products()[3].quantity == Some(5)
    ensures !IsLow(Products()[3]) && !IsOut(Products()[3])
  {
  }

  /** The categories card lists Electronics 2, Furniture 2 and Groceries 1, in that
      order: none of the names is an array index, so `Object.entries` keeps first appearance. */
  lemma CategoriesCard()
    ensures Categories(Products()) ==
      [CategoryCount("Electronics", 2), CategoryCount("Furniture", 2), CategoryCount("Groceries", 1)]
  {
    var el, fu, gr := "Electronics", "Furniture", "Groceries";
    assert el[0] != fu[0] && el[0] != gr[0] && fu[0] != gr[0];
    TallyOfFive(
      SampleProduct(0, "Product A", 10, el), SampleProduct(1, "Product B", 3, el),
      SampleProduct(2, "Product C", 0, fu), SampleProduct(3, "Product D", 5, fu),
      SampleProduct(4, "Product E", 2, gr), el, fu, gr);
    var t := CategoryCounts(Products());
    assert !IsDigit(el[0]) && !IsDigit(fu[0]) && !IsDigit(gr[0]);
    EntriesWithoutIndexKeys(t);
  }

  /** Two books under one key, two under a second and one under a third tally to
      three rows in first-seen order. */
  lemma TallyOfFive(a: Product, b: Product, c: Product, d: Product, e: Product, k1: string, k2: string, k3: string)
    requires CategoryKey(a) == k1 && CategoryKey(b) == k1
    requires CategoryKey(c) == k2 && CategoryKey(d) == k2 && CategoryKey(e) == k3
    requires k1 != k2 && k1 != k3 && k2 != k3
    ensures CategoryCounts([a, b, c, d, e]) == [CategoryCount(k1, 2), CategoryCount(k2, 2), CategoryCount(k3, 1)]
  {
    TallyOfFour(a, b, c, d, k1, k2);
    assert [a, b, c, d] + [e] == [a, b, c, d, e];
    CountsSnoc([a, b, c, d], e);
    BumpAppends([CategoryCount(k1, 2), CategoryCount(k2, 2)], k3);
  }

  lemma TallyOfFour(a: Product, b: Product, c: Product, d: Product, k1: string, k2: string)
    requires CategoryKey(a) == k1 && CategoryKey(b) == k1
    requires CategoryKey(c) == k2 && CategoryKey(d) == k2 && k1 != k2
    ensures CategoryCounts([a, b, c, d]) == [CategoryCount(k1, 2), CategoryCount(k2, 2)]
  {
    TallyOfThree(a, b, c, k1, k2);
    assert [a, b, c] + [d] == [a, b, c, d];
    CountsSnoc([a, b, c], d);
    BumpInPlace([CategoryCount(k1, 2), CategoryCount(k2, 1)], k2, 1);
  }

  lemma TallyOfThree(a: Product, b: Product, c: Product, k1: string, k2: string)
    requires CategoryKey(a) == k1 && CategoryKey(b) == k1
    requires CategoryKey(c) == k2 && k1 != k2
    ensures CategoryCounts([a, b, c]) == [CategoryCount(k1, 2), CategoryCount(k2, 1)]
  {
    TallyOfTwo(a, b, k1);
    assert [a, b] + [c] == [a, b, c];
    CountsSnoc([a, b], c);
    BumpAppends([CategoryCount(k1, 2)], k2);
  }

  lemma TallyOfTwo(a: Product, b: Product, k1: string)
    requires CategoryKey(a) == k1 && CategoryKey(b) == k1
    ensures CategoryCounts([a, b]) == [CategoryCount(k1, 2)]
  {
    assert [] + [a] == [a] && [a] + [b] == [a, b];
    CountsSnoc([], a);
    BumpAppends([], k1);
    CountsSnoc([a], b);
    BumpInPlace([CategoryCount(k1, 1)], k1, 0);
  }

  // ---------------------------------------------------------------------------
  // MiniBarChart
  // ---------------------------------------------------------------------------

  /** One colour per weekday, Saturday to Friday. */
  const Colors: seq<string> := ["#3b82f6", "#06b6d4", "#f97316", "#eab308", "#10b981", "#8b5cf6", "#ec4899"]

  /** `colors[i % colors.length]`: bars past the seventh cycle through the week again. */
  function BarColor(i: nat): (c: string)
    ensures c in Colors
    ensures i < |Colors| ==> c == Colors[i]
  {
    Colors[i % |Colors|]
  }

  /** The eighth bar repeats the first bar's colour, and so on every seven. */
  lemma BarColorCycles(i: nat)
    ensures BarColor(i + |Colors|) == BarColor(i)
  {
  }

  /** `Math.max(...values)`. */
  function MaxOf(values: seq<int>): (m: int)
    requires values != []
    ensures forall i :: 0 <= i < |values| ==> values[i] <= m
    ensures exists i :: 0 <= i < |values| && values[i] == m
  {
    if |values| == 1 then values[0]
    else
      var rest := MaxOf(values[1..]);
      assert forall i :: 1 <= i < |values| ==> values[i] == values[1..][i - 1];
      if values[0] >= rest then values[0] else rest
  }

  /** One bar's height in percent: `(v / max) * 100`. */
  function Height(v: int, max: int): (h: real)
    requires max > 0
    ensures h * (max as real) == (v as real) * 100.0
  {
    var m := max as real;
    var q := v as real / m;
    assert q * m == v as real;
    q * 100.0
  }

  /** The heights of all bars. */
  function Heights(values: seq<int>): (h: seq<real>)
    requires values != [] && MaxOf(values) > 0
    ensures |h| == |values|
    ensures forall i :: 0 <= i < |h| ==> h[i] == Height(values[i], MaxOf(values))
  {
    var m := MaxOf(values);
    seq(|values|, i requires 0 <= i < |values| => Height(values[i], m))
  }

  /** A bar is at most full, exactly full for the maximum, and not negative for a
      non-negative value. */
  lemma HeightBounded(v: int, max: int)
    requires max > 0 && v <= max
    ensures Height(v, max) <= 100.0
    ensures v == max ==> Height(v, max) == 100.0
    ensures v >= 0 ==> Height(v, max) >= 0.0
  {
    var h, m := Height(v, max), max as real;
    assert (h - 100.0) * m == (v as real - m) * 100.0;
  }

  lemma HeightsBounded(values: seq<int>)
    requires values != [] && MaxOf(values) > 0
    ensures forall i :: 0 <= i < |values| ==> Heights(values)[i] <= 100.0
    ensures forall i :: 0 <= i < |values| && values[i] == MaxOf(values) ==> Heights(values)[i] == 100.0
    ensures forall i :: 0 <= i < |values| && values[i] >= 0 ==> Heights(values)[i] >= 0.0
  {
    forall i | 0 <= i < |values| {
      HeightBounded(values[i], MaxOf(values));
    }
  }

  /** The week's totals; Wednesday's 100 is the maximum, so each height equals its total. */
  const DayTotals: seq<int> := [50, 25, 75, 50, 100, 50, 50]

  lemma DayTotalsMax()
    ensures MaxOf(DayTotals) == 100
  {
    assert DayTotals[4] == 100;
  }

  /** Against a maximum of 100 a bar is exactly as tall as its value. */
  lemma HeightAgainstHundred(v: int)
    ensures Height(v, 100) == v as real
  {
    var h := Height(v, 100);
    assert (h - v as real) * 100.0 == 0.0;
  }

  lemma DayTotalHeights()
    ensures forall i :: 0 <= i < |DayTotals| ==> Heights(DayTotals)[i] == DayTotals[i] as real
  {
    DayTotalsMax();
    forall i | 0 <= i < |DayTotals| ensures Heights(DayTotals)[i] == DayTotals[i] as real {
      HeightAgainstHundred(DayTotals[i]);
    }
  }
}

=== FILE: inventory.dfy ===
/** The admin book table (frontend/src/components/Books.jsx): the stock counters,
    the per-category tally, the category and low-stock filters, the status badge,
    the search box, and the table's paging state. */
module Inventory {
  import opened Common
  import opened Text
  import opened Catalog
  import opened Search
  import opened Paging
  import opened Sorting

  // ---------------------------------------------------------------------------
  // stock counters
  // ---------------------------------------------------------------------------

  /** `Number(b.quantity || 0)`: a missing quantity counts as none. */
  function StockOf(p: Product): int
  {
    match p.quantity
    case None => 0
    case Some(q) => q
  }

  /** Low stock: `b.quantity > 0 && b.quantity < 5`; a missing quantity is neither. */
  predicate IsLow(p: Product)
  {
    p.quantity.Some? && 0 < p.quantity.value < 5
  }

  /** Out of stock: `b.quantity === 0`; a missing quantity is not. */
  predicate IsOut(p: Product)
  {
    p.quantity == Some(0)
  }

  /** Value of a row: `Number(b.quantity || 0) * Number(b.price || 0)`, in cents. */
  function ValueOf(p: Product): int
  {
    StockOf(p) * p.price
  }

  /** The four figures of the stats cards. */
  datatype Stats = Stats(totalStock: int, lowStock: nat, outStock: nat, totalValue: int)

  function StatsOf(books: seq<Product>): (s: Stats)
    ensures s.lowStock + s.outStock <= |books|
    ensures books == [] ==> s == Stats(0, 0, 0, 0)
  {
    CountDisjoint(books, IsLow, IsOut);
    Stats(Sum(books, StockOf), Count(books, IsLow), Count(books, IsOut), Sum(books, ValueOf))
  }

  /** One more row moves each figure by that row's own contribution: its copies, its
      value, and one low or out count when it is low or out. */
  lemma StatsAppendRow(books: seq<Product>, p: Product)
    ensures var before, after := StatsOf(books), StatsOf(books + [p]);
            && after.totalStock == before.totalStock + StockOf(p)
            && after.lowStock == before.lowStock + (if IsLow(p) then 1 else 0)
            && after.outStock == before.outStock + (if IsOut(p) then 1 else 0)
            && after.totalValue == before.totalValue + StockOf(p) * p.price
  {
    CountAppend(books, [p], IsLow);
    CountAppend(books, [p], IsOut);
    SumAppend(books, [p], StockOf);
    SumAppend(books, [p], ValueOf);
  }

  /** A row holding at least five copies, or no quantity at all, counts as neither low nor out. */
  lemma StockCountersIgnoreHealthyRows(books: seq<Product>, p: Product)
    requires p.quantity.None? || p.quantity.value >= 5
    ensures StatsOf(books + [p]).lowStock == StatsOf(books).lowStock
    ensures StatsOf(books + [p]).outStock == StatsOf(books).outStock
    ensures StatsOf(books + [p]).totalStock == StatsOf(books).totalStock + StockOf(p)
  {
    CountAppend(books, [p], IsLow);
    CountAppend(books, [p], IsOut);
    SumAppend(books, [p], StockOf);
  }

  // ---------------------------------------------------------------------------
  // category tally
  // ---------------------------------------------------------------------------

  /** `b.category || "Uncategorized"`: a missing or empty category is "Uncategorized". */
  function CategoryKey(p: Product): (k: string)
    ensures k != ""
    ensures p.category.Some? && p.category.value != "" ==> k == p.category.value
    ensures p.category.None? || p.category == Some("") ==> k == "Uncategorized"
  {
    match p.category
    case None => "Uncategorized"
    case Some(c) => if c == "" then "Uncategorized" else c
  }

  /** How many books carry the key `k`. */
  function BooksIn(books: seq<Product>, k: string): nat
  {
    Count(books, (p: Product) => CategoryKey(p) == k)
  }

  /** One entry of `Object.entries(categoryCounts)`. */
  datatype CategoryCount = CategoryCount(category: string, count: nat)

  predicate UniqueKeys(t: seq<CategoryCount>)
  {
    forall i, j :: 0 <= i < j < |t| ==> t[i].category != t[j].category
  }

  /** The count stored under `k`, or 0. */
  function CountOf(t: seq<CategoryCount>, k: string): nat
  {
    if t == [] then 0 else if t[0].category == k then t[0].count else CountOf(t[1..], k)
  }

  function Tally(e: CategoryCount): int
  {
    e.count
  }

  /** `acc[k] = (acc[k] || 0) + 1`: an existing key keeps its place, a new key goes last. */
  function Bump(t: seq<CategoryCount>, k: string): (r: seq<CategoryCount>)
    ensures |r| == |t| || |r| == |t| + 1
    ensures forall i :: 0 <= i < |t| ==> r[i].category == t[i].category
    ensures |r| == |t| + 1 ==> r[|t|] == CategoryCount(k, 1)
    ensures |r| == |t| + 1 <==> forall i :: 0 <= i < |t| ==> t[i].category != k
  {
    if t == [] then [CategoryCount(k, 1)]
    else if t[0].category == k then [CategoryCount(k, t[0].count + 1)] + t[1..]
    else
      assert forall i :: 1 <= i < |t| ==> t[i] == t[1..][i - 1];
      [t[0]] + Bump(t[1..], k)
  }

  lemma {:induction false} BumpAt(t: seq<CategoryCount>, k: string, c: string)
    ensures CountOf(Bump(t, k), c) == CountOf(t, c) + (if c == k then 1 else 0)
  {
    if t != [] && t[0].category != k {
      BumpAt(t[1..], k, c);
    }
  }

  lemma BumpUnique(t: seq<CategoryCount>, k: string)
    requires UniqueKeys(t)
    ensures UniqueKeys(Bump(t, k))
  {
    var r := Bump(t, k);
    forall i, j | 0 <= i < j < |r| ensures r[i].category != r[j].category {
      if j == |t| {
        assert t[i].category != k;
      } else {
        assert t[i].category != t[j].category;
      }
    }
  }


  lemma {:induction false} BumpSum(t: seq<CategoryCount>, k: string)
    ensures Sum(Bump(t, k), Tally) == Sum(t, Tally) + 1
  {
    var r := Bump(t, k);
    if t == [] {
    } else if t[0].category == k {
      assert r[1..] == t[1..];
    } else {
      BumpSum(t[1..], k);
      assert r[1..] == Bump(t[1..], k);
    }
  }

  /** `categoryCounts`, the accumulator object: its keys in the order they were first
      assigned, which is the order a book first carried them. */
  function CategoryCounts(books: seq<Product>): seq<CategoryCount>
  {
    if books == [] then [] else Bump(CategoryCounts(books[..|books| - 1]), CategoryKey(books[|books| - 1]))
  }

  /** The accumulator counts every book once, under its own key, and each key once. */
  lemma CategoryCountsCorrect(books: seq<Product>)
    ensures UniqueKeys(CategoryCounts(books))
    ensures forall k :: CountOf(CategoryCounts(books), k) == BooksIn(books, k)
    ensures Sum(CategoryCounts(books), Tally) == |books|
  {
    CategoryCountsUnique(books);
    CategoryCountsCount(books);
    CategoryCountsSum(books);
  }

  lemma {:induction false} CategoryCountsUnique(books: seq<Product>)
    ensures UniqueKeys(CategoryCounts(books))
  {
    if books != [] {
      CategoryCountsUnique(books[..|books| - 1]);
      BumpUnique(CategoryCounts(books[..|books| - 1]), CategoryKey(books[|books| - 1]));
    }
  }

  lemma {:induction false} CategoryCountsSum(books: seq<Product>)
    ensures Sum(CategoryCounts(books), Tally) == |books|
  {
    if books != [] {
      CategoryCountsSum(books[..|books| - 1]);
      BumpSum(CategoryCounts(books[..|books| - 1]), CategoryKey(books[|books| - 1]));
    }
  }

  lemma {:induction false} CategoryCountsCount(books: seq<Product>)
    ensures forall k :: CountOf(CategoryCounts(books), k) == BooksIn(books, k)
  {
    if books != [] {
      var init, last := books[..|books| - 1], books[|books| - 1];
      CategoryCountsCount(init);
      assert books == init + [last];
      forall k ensures CountOf(CategoryCounts(books), k) == BooksIn(books, k) {
        BumpAt(CategoryCounts(init), CategoryKey(last), k);
        CountAppend(init, [last], (p: Product) => CategoryKey(p) == k);
      }
    }
  }


  /** A later book never moves an earlier key: the accumulator keeps first-assignment order. */
  lemma CategoryOrderStable(books: seq<Product>, b: Product)
    ensures |CategoryCounts(books + [b])| >= |CategoryCounts(books)|
    ensures forall i :: 0 <= i < |CategoryCounts(books)| ==>
      CategoryCounts(books + [b])[i].category == CategoryCounts(books)[i].category
  {
    assert (books + [b])[..|books|] == books;
  }

  /** A key not yet in the accumulator is added after the others with count one. */
  lemma {:induction false} BumpAppends(t: seq<CategoryCount>, k: string)
    requires forall i :: 0 <= i < |t| ==> t[i].category != k
    ensures Bump(t, k) == t + [CategoryCount(k, 1)]
  {
    if t != [] {
      var tail := t[1..];
      assert t == [t[0]] + tail;
      forall i | 0 <= i < |tail| ensures tail[i].category != k {
        assert tail[i] == t[i + 1];
      }
      BumpAppends(tail, k);
      ConsAppend(t[0], tail, [CategoryCount(k, 1)], true);
    }
  }

  /** A key already in the tally is counted once more in its own row, which keeps its place. */
  lemma {:induction false} BumpInPlace(t: seq<CategoryCount>, k: string, j: nat)
    requires j < |t| && t[j].category == k
    requires forall i :: 0 <= i < j ==> t[i].category != k
    ensures Bump(t, k) == t[j := CategoryCount(k, t[j].count + 1)]
  {
    var v := CategoryCount(k, t[j].count + 1);
    if j == 0 {
      UpdateUnderCons(t, 0, v);
    } else {
      var tail := t[1..];
      forall i | 0 <= i < j - 1 ensures tail[i].category != k {
        assert tail[i] == t[i + 1];
      }
      BumpInPlace(tail, k, j - 1);
      UpdateUnderCons(t, j, v);
    }
  }


  /** The tally of one more book bumps that book's key. */
  lemma CountsSnoc(init: seq<Product>, last: Product)
    ensures CategoryCounts(init + [last]) == Bump(CategoryCounts(init), CategoryKey(last))
  {
    assert (init + [last])[..|init|] == init;
  }

  /** Every key in the tally has at least one book, and every book's key is in it. */
  lemma TallyKeysPresent(books: seq<Product>)
    ensures forall i :: 0 <= i < |CategoryCounts(books)| ==> CategoryCounts(books)[i].count >= 1
    ensures forall j :: 0 <= j < |books| ==> CountOf(CategoryCounts(books), CategoryKey(books[j])) >= 1
  {
    TallyNoZeroRows(books);
    forall j | 0 <= j < |books| ensures CountOf(CategoryCounts(books), CategoryKey(books[j])) >= 1 {
      KeyCounted(books, j);
    }
  }

  /** Tally rows are never zero: each is created with one and only grows. */
  lemma {:induction false} TallyNoZeroRows(books: seq<Product>)
    ensures forall i :: 0 <= i < |CategoryCounts(books)| ==> CategoryCounts(books)[i].count >= 1
  {
    if books != [] {
      var init := books[..|books| - 1];
      TallyNoZeroRows(init);
      BumpPositive(CategoryCounts(init), CategoryKey(books[|books| - 1]));
    }
  }

  lemma {:induction false} BumpPositive(t: seq<CategoryCount>, k: string)
    requires forall i :: 0 <= i < |t| ==> t[i].count >= 1
    ensures forall i :: 0 <= i < |Bump(t, k)| ==> Bump(t, k)[i].count >= 1
  {
    if t != [] && t[0].category != k {
      BumpPositive(t[1..], k);
      assert forall i :: 1 <= i < |Bump(t, k)| ==> Bump(t, k)[i] == Bump(t[1..], k)[i - 1];
    }
  }

  lemma KeyCounted(books: seq<Product>, j: nat)
    requires j < |books|
    ensures CountOf(CategoryCounts(books), CategoryKey(books[j])) >= 1
  {
    CategoryCountsCorrect(books);
    var k := CategoryKey(books[j]);
    CountPositive(books, j, (p: Product) => CategoryKey(p) == k);
  }

  lemma {:induction false} CountPositive<T>(xs: seq<T>, j: nat, p: T -> bool)
    requires j < |xs| && p(xs[j])
    ensures Count(xs, p) >= 1
  {
    if j > 0 {
      CountPositive(xs[1..], j - 1, p);
    }
  }

  // ---------------------------------------------------------------------------
  // Object.entries: the order the tally's rows are listed in
  // ---------------------------------------------------------------------------

  /** A property key JavaScript treats as an array index: "0", or decimal digits
      without a leading zero, with a value below 2^32 - 1. */
  predicate IsArrayIndex(k: string)
  {
    && k != ""
    && (forall i :: 0 <= i < |k| ==> IsDigit(k[i]))
    && (k[0] != '0' || k == "0")
    && ParseDigits(k) < 0xFFFF_FFFF
  }

  predicate IndexRow(e: CategoryCount)
  {
    IsArrayIndex(e.category)
  }

  predicate NamedRow(e: CategoryCount)
  {
    !IsArrayIndex(e.category)
  }

  /** The numeric value of an array-index key. */
  function IndexValue(e: CategoryCount): int
  {
    if IsArrayIndex(e.category) then ParseDigits(e.category) else 0
  }

  /** Sorting by this key in descending order sorts index keys in ascending order. */
  function MinusIndex(e: CategoryCount): int
  {
    -IndexValue(e)
  }

  /** `Object.entries(acc)` of an object built by assignment: the array-index keys
      first, in ascending numeric order, then every other key in the order it was
      first assigned. */
  function Entries(t: seq<CategoryCount>): (r: seq<CategoryCount>)
    ensures multiset(r) == multiset(t)
    ensures forall i, j :: 0 <= i < j < |r| && IndexRow(r[j]) ==>
      IndexRow(r[i]) && IndexValue(r[i]) <= IndexValue(r[j])
    ensures Filter(r, NamedRow) == Filter(t, NamedRow)
  {
    var indexed, named := Filter(t, IndexRow), Filter(t, NamedRow);
    var sorted := SortDesc(indexed, MinusIndex);
    var r := sorted + named;
    FilterComplement(t, IndexRow, NamedRow);
    EntriesIndexFirst(indexed, sorted, named);
    FilterAppend(sorted, named, NamedRow);
    EntriesAllIndexed(indexed, sorted);
    FilterNone(sorted, NamedRow);
    FilterAll(named, NamedRow);
    r
  }

  lemma EntriesAllIndexed(indexed: seq<CategoryCount>, sorted: seq<CategoryCount>)
    requires forall i :: 0 <= i < |indexed| ==> IndexRow(indexed[i])
    requires multiset(sorted) == multiset(indexed)
    ensures forall i :: 0 <= i < |sorted| ==> IndexRow(sorted[i])
  {
    forall i | 0 <= i < |sorted| ensures IndexRow(sorted[i]) {
      assert sorted[i] in multiset(indexed);
    }
  }

  lemma EntriesIndexFirst(indexed: seq<CategoryCount>, sorted: seq<CategoryCount>, named: seq<CategoryCount>)
    requires forall i :: 0 <= i < |indexed| ==> IndexRow(indexed[i])
    requires forall i :: 0 <= i < |named| ==> NamedRow(named[i])
    requires multiset(sorted) == multiset(indexed) && SortedDesc(sorted, MinusIndex)
    ensures var r := sorted + named;
            forall i, j :: 0 <= i < j < |r| && IndexRow(r[j]) ==> IndexRow(r[i]) && IndexValue(r[i]) <= IndexValue(r[j])
  {
    EntriesAllIndexed(indexed, sorted);
    var r := sorted + named;
    forall i, j | 0 <= i < j < |r| && IndexRow(r[j]) ensures IndexRow(r[i]) && IndexValue(r[i]) <= IndexValue(r[j]) {
      assert r[i] == sorted[i] && r[j] == sorted[j];
      assert MinusIndex(sorted[i]) >= MinusIndex(sorted[j]);
    }
  }

  /** `categories`: the rows the table lists, `Object.entries(categoryCounts)`. */
  function Categories(books: seq<Product>): seq<CategoryCount>
  {
    Entries(CategoryCounts(books))
  }

  /** The listed rows show every book once, under its own key, and each key once;
      array-index keys come first in ascending order, and the other keys keep the
      order in which a book first carried them. */
  lemma CategoriesCorrect(books: seq<Product>)
    ensures UniqueKeys(Categories(books))
    ensures forall k :: CountOf(Categories(books), k) == BooksIn(books, k)
    ensures Sum(Categories(books), Tally) == |books|
    ensures var r := Categories(books);
            forall i, j :: 0 <= i < j < |r| && IndexRow(r[j]) ==> IndexRow(r[i]) && IndexValue(r[i]) <= IndexValue(r[j])
    ensures Filter(Categories(books), NamedRow) == Filter(CategoryCounts(books), NamedRow)
  {
    var t := CategoryCounts(books);
    var r := Entries(t);
    CategoryCountsCorrect(books);
    PermutationUniqueKeys(t, r);
    forall k ensures CountOf(r, k) == BooksIn(books, k) {
      CountOfPermutation(t, r, k);
    }
    SumPermutation(r, t, Tally);
  }

  /** Without array-index keys, the rows are listed in first-appearance order. */
  lemma EntriesWithoutIndexKeys(t: seq<CategoryCount>)
    requires forall i :: 0 <= i < |t| ==> !IsArrayIndex(t[i].category)
    ensures Entries(t) == t
  {
    FilterNone(t, IndexRow);
    FilterAll(t, NamedRow);
  }

  /** "2024" is an array index; "Fiction" is not. */
  lemma YearIsIndex()
    ensures IsArrayIndex("2024") && IndexValue(CategoryCount("2024", 1)) == 2024
    ensures !IsArrayIndex("Fiction")
  {
    var y := "2024";
    assert y[..3] == "202" && "202"[..2] == "20" && "20"[..1] == "2" && "2"[..0] == "";
    assert ParseDigits(y) == 2024;
    assert !IsDigit("Fiction"[0]);
  }

  /** A book in "Fiction" and then one in "2024": the tally holds "Fiction" first, but
      the table lists "2024" first, because it is an array index. */
  lemma IndexKeyListedFirst(a: Product, b: Product)
    requires a.category == Some("Fiction") && b.category == Some("2024")
    ensures CategoryCounts([a, b]) == [CategoryCount("Fiction", 1), CategoryCount("2024", 1)]
    ensures Categories([a, b]) == [CategoryCount("2024", 1), CategoryCount("Fiction", 1)]
  {
    FictionThenYearTally(a, b);
    FictionThenYearEntries();
  }

  lemma FictionThenYearTally(a: Product, b: Product)
    requires a.category == Some("Fiction") && b.category == Some("2024")
    ensures CategoryCounts([a, b]) == [CategoryCount("Fiction", 1), CategoryCount("2024", 1)]
  {
    var f := CategoryCount("Fiction", 1);
    assert [] + [a] == [a] && [a] + [b] == [a, b];
    CountsSnoc([], a);
    BumpAppends([], "Fiction");
    CountsSnoc([a], b);
    assert "Fiction"[0] != "2024"[0];
    BumpAppends([f], "2024");
  }

  lemma FictionThenYearEntries()
    ensures Entries([CategoryCount("Fiction", 1), CategoryCount("2024", 1)])
         == [CategoryCount("2024", 1), CategoryCount("Fiction", 1)]
  {
    var f, y := CategoryCount("Fiction", 1), CategoryCount("2024", 1);
    YearIsIndex();
    assert [f, y][1..] == [y] && [y][1..] == [];
    assert Filter([f, y], IndexRow) == [y];
    assert Filter([f, y], NamedRow) == [f];
    assert SortDesc([y], MinusIndex) == [y];
  }

  /** Distinct keys mean distinct rows. */
  lemma UniqueKeysNoDuplicates(t: seq<CategoryCount>)
    requires UniqueKeys(t)
    ensures NoDuplicates(t)
  {
  }

  /** Reordering the rows keeps the keys unique. */
  lemma PermutationUniqueKeys(t: seq<CategoryCount>, r: seq<CategoryCount>)
    requires UniqueKeys(t) && multiset(r) == multiset(t)
    ensures UniqueKeys(r)
  {
    UniqueKeysNoDuplicates(t);
    PermutationNoDuplicates(t, r);
    forall i, j | 0 <= i < j < |r| ensures r[i].category != r[j].category {
      assert r[i] in multiset(t) && r[j] in multiset(t);
      var x :| 0 <= x < |t| && t[x] == r[i];
      var y :| 0 <= y < |t| && t[y] == r[j];
      assert x != y;
    }
  }

  /** With unique keys, the count under a row's key is that row's count. */
  lemma {:induction false} CountOfAt(t: seq<CategoryCount>, i: nat)
    requires UniqueKeys(t) && i < |t|
    ensures CountOf(t, t[i].category) == t[i].count
  {
    if i > 0 {
      assert t[0].category != t[i].category;
      assert UniqueKeys(t[1..]) by {
        forall a, b | 0 <= a < b < |t[1..]| ensures t[1..][a].category != t[1..][b].category {
          assert t[1..][a] == t[a + 1] && t[1..][b] == t[b + 1];
        }
      }
      CountOfAt(t[1..], i - 1);
    }
  }

  lemma {:induction false} CountOfAbsent(t: seq<CategoryCount>, k: string)
    requires forall i :: 0 <= i < |t| ==> t[i].category != k
    ensures CountOf(t, k) == 0
  {
    if t != [] {
      assert t[0].category != k;
      CountOfAbsent(t[1..], k);
    }
  }

  /** Reordering rows with unique keys keeps the count under every key. */
  lemma CountOfPermutation(t: seq<CategoryCount>, r: seq<CategoryCount>, k: string)
    requires UniqueKeys(t) && multiset(r) == multiset(t)
    ensures CountOf(r, k) == CountOf(t, k)
  {
    PermutationUniqueKeys(t, r);
    if i :| 0 <= i < |r| && r[i].category == k {
      assert r[i] in multiset(t);
      var x :| 0 <= x < |t| && t[x] == r[i];
      CountOfAt(r, i);
      CountOfAt(t, x);
    } else {
      forall x | 0 <= x < |t| ensures t[x].category != k {
        assert t[x] in multiset(r);
      }
      CountOfAbsent(r, k);
      CountOfAbsent(t, k);
    }
  }

  // ---------------------------------------------------------------------------
  // category and low-stock filters
  // ---------------------------------------------------------------------------

  function InCategory(k: string): (f: Product -> bool)
    ensures forall p :: f(p) == (CategoryKey(p) == k)
  {
    (p: Product) => CategoryKey(p) == k
  }

  /** `filtered`: the books of the selected category, or all of them for "" (All). */
  function CategoryFiltered(books: seq<Product>, filterCategory: string): (r: seq<Product>)
    ensures IsSubsequence(r, books)
    ensures filterCategory == "" ==> r == books
    ensures filterCategory != "" ==> forall i :: 0 <= i < |r| ==> CategoryKey(r[i]) == filterCategory
    ensures forall i :: 0 <= i < |books| && (filterCategory == "" || CategoryKey(books[i]) == filterCategory) ==> books[i] in r
    ensures filterCategory != "" ==> |r| == BooksIn(books, filterCategory)
  {
    if filterCategory != "" then Filter(books, InCategory(filterCategory))
    else
      SubsequenceRefl(books);
      books
  }

  /** `finalBooks`: the low-stock rows when the checkbox is ticked. */
  function LowFiltered(rows: seq<Product>, lowStockOnly: bool): (r: seq<Product>)
    ensures IsSubsequence(r, rows)
    ensures !lowStockOnly ==> r == rows
    ensures lowStockOnly ==> forall i :: 0 <= i < |r| ==> IsLow(r[i])
    ensures forall i :: 0 <= i < |rows| && (!lowStockOnly || IsLow(rows[i])) ==> rows[i] in r
    ensures lowStockOnly ==> |r| == Count(rows, IsLow)
  {
    if lowStockOnly then Filter(rows, IsLow)
    else
      SubsequenceRefl(rows);
      rows
  }

  /** Both controls, as the table applies them. */
  function FinalBooks(books: seq<Product>, filterCategory: string, lowStockOnly: bool): seq<Product>
  {
    LowFiltered(CategoryFiltered(books, filterCategory), lowStockOnly)
  }

  /** The rows kept are exactly the books passing both controls, in their order. */
  lemma FinalBooksExact(books: seq<Product>, filterCategory: string, lowStockOnly: bool)
    ensures IsSubsequence(FinalBooks(books, filterCategory, lowStockOnly), books)
    ensures var r := FinalBooks(books, filterCategory, lowStockOnly);
            forall i :: 0 <= i < |r| ==>
              (filterCategory == "" || CategoryKey(r[i]) == filterCategory) && (!lowStockOnly || IsLow(r[i]))
    ensures forall i :: 0 <= i < |books| ==>
      (filterCategory == "" || CategoryKey(books[i]) == filterCategory) && (!lowStockOnly || IsLow(books[i]))
      ==> books[i] in FinalBooks(books, filterCategory, lowStockOnly)
  {
    var filtered := CategoryFiltered(books, filterCategory);
    var r := LowFiltered(filtered, lowStockOnly);
    SubsequenceTransitive(r, filtered, books);
    SubsequenceMembers(r, filtered);
    forall i | 0 <= i < |r|
      ensures (filterCategory == "" || CategoryKey(r[i]) == filterCategory) && (!lowStockOnly || IsLow(r[i]))
    {
      var j :| 0 <= j < |filtered| && filtered[j] == r[i];
    }
    forall i | 0 <= i < |books| &&
      (filterCategory == "" || CategoryKey(books[i]) == filterCategory) && (!lowStockOnly || IsLow(books[i]))
      ensures books[i] in r
    {
      var j :| 0 <= j < |filtered| && filtered[j] == books[i];
    }
  }

  /** With a category chosen and the box ticked, the two filters are one filter by both conditions. */
  lemma FiltersCompose(books: seq<Product>, k: string)
    requires k != ""
    ensures FinalBooks(books, k, true) == Filter(books, And(InCategory(k), IsLow))
  {
    FilterFilter(books, InCategory(k), IsLow);
  }

  // ---------------------------------------------------------------------------
  // the status badge
  // ---------------------------------------------------------------------------

  datatype Badge = OutOfStock | LowStock | InStock

  /** `quantity === 0` is out, `quantity < 5` is low, otherwise in stock. A missing
      quantity compares false both times and shows In Stock. */
  function BadgeOf(p: Product): (b: Badge)
    ensures b == OutOfStock <==> IsOut(p)
    ensures p.quantity.None? ==> b == InStock
    ensures p.quantity.Some? && p.quantity.value >= 5 ==> b == InStock
  {
    match p.quantity
    case None => InStock
    case Some(q) => if q == 0 then OutOfStock else if q < 5 then LowStock else InStock
  }

  /** For quantities that are missing or non-negative, the badges agree with the counters. */
  lemma BadgeAgreesWithCounters(p: Product)
    requires p.quantity.None? || p.quantity.value >= 0
    ensures BadgeOf(p) == LowStock <==> IsLow(p)
    ensures BadgeOf(p) == OutOfStock <==> IsOut(p)
  {
  }

  /** A negative quantity is badged Low Stock but counted by neither counter. */
  lemma NegativeQuantityBadgedLow(p: Product)
    requires p.quantity.Some? && p.quantity.value < 0
    ensures BadgeOf(p) == LowStock && !IsLow(p) && !IsOut(p)
  {
  }

  // ---------------------------------------------------------------------------
  // the search box
  // ---------------------------------------------------------------------------

  /** `String(b.quantity)`. */
  function QuantityText(q: Option<int>): (t: string)
    ensures q.None? ==> t == "undefined"
    ensures q.Some? && q.value >= 0 ==> t == Digits(q.value)
  {
    match q
    case None => "undefined"
    case Some(n) => IntText(n)
  }

  /** `[b.name, b.category, String(b.quantity), String(b.price)].filter(Boolean)`. */
  function RowFields(p: Product): (fields: seq<string>)
    ensures 2 <= |fields| <= 4
    ensures fields[|fields| - 1] == PriceText(p.price)
    ensures fields[|fields| - 2] == QuantityText(p.quantity)
    ensures p.name.Some? && p.name.value != "" ==> fields[0] == p.name.value
    ensures p.category.Some? && p.category.value != "" ==> p.category.value in fields
    ensures forall i :: 0 <= i < |fields| ==>
      || p.name == Some(fields[i])
      || p.category == Some(fields[i])
      || fields[i] == QuantityText(p.quantity)
      || fields[i] == PriceText(p.price)
  {
    var fields := Present(p.name) + Present(p.category) + [QuantityText(p.quantity), PriceText(p.price)];
    assert p.category.Some? && p.category.value != "" ==> fields[|Present(p.name)|] == p.category.value;
    fields
  }

  function RowMatcher(key: string): (f: Product -> bool)
    ensures forall p :: f(p) == AnyFieldContains(RowFields(p), key)
  {
    (p: Product) => AnyFieldContains(RowFields(p), key)
  }

  /** `searchData` as written. The table's `books` is both the list the search runs
      over and the list it replaces: an empty box calls `showData`, which replaces the
      table with `server`, the list the read handler answers, when the request succeeds
      (`reached`) and otherwise only sets the error, leaving the table as it was; any
      other text keeps the books currently held that match, so successive keystrokes
      compound. */
  function Keystroke(books: seq<Product>, server: seq<Product>, reached: bool, text: string): (r: seq<Product>)
    ensures text == "" && reached ==> r == server
    ensures text == "" && !reached ==> r == books
    ensures text != "" ==>
      && IsSubsequence(r, books)
      && (forall i :: 0 <= i < |r| ==> AnyFieldContains(RowFields(r[i]), ToLower(text)))
      && (forall i :: 0 <= i < |books| && AnyFieldContains(RowFields(books[i]), ToLower(text)) ==> books[i] in r)
      && |r| == Count(books, RowMatcher(ToLower(text)))
  {
    var key := ToLower(text);
    if key == "" then (if reached then server else books) else Filter(books, RowMatcher(key))
  }

  /** Two keystrokes in a row filter by both keys. */
  lemma SearchCompounds(books: seq<Product>, server: seq<Product>, reached: bool, first: string, second: string)
    requires first != "" && second != ""
    ensures Keystroke(Keystroke(books, server, reached, first), server, reached, second)
      == Filter(books, And(RowMatcher(ToLower(first)), RowMatcher(ToLower(second))))
  {
    FilterFilter(books, RowMatcher(ToLower(first)), RowMatcher(ToLower(second)));
  }

  /** A book named "ac" with one copy and a zero price. */
  function BookAC(): (p: Product)
    ensures RowFields(p) == ["ac", "1", "0"]
  {
    assert PriceText(0) == "0" && IntText(1) == "1";
    Product(0, Some("ac"), Some(1), 0, None, "", None)
  }

  lemma BookACFields()
    ensures RowMatcher("a")(BookAC())
    ensures !RowMatcher("ab")(BookAC())
  {
    var fields := RowFields(BookAC());
    assert ToLower("ac") == "ac" && ToLower("1") == "1" && ToLower("0") == "0";
    assert Contains("ac", "a") by { assert "a" <= "ac"; }
    assert !Contains("ac", "ab") by {
      assert !("ab" <= "ac");
      assert !("ab" <= "c");
      assert !Contains("c", "ab");
    }
    assert !Contains("1", "ab");
    assert !Contains("0", "ab");
    assert fields[0] == "ac";
  }

  /** A keystroke over a one-book list keeps the book exactly when it matches. */
  lemma KeystrokeOne(p: Product, server: seq<Product>, text: string)
    requires ToLower(text) == text && text != ""
    ensures Keystroke([p], server, true, text) == if RowMatcher(text)(p) then [p] else []
  {
    assert [p][1..] == [];
  }

  /** Typing "ab" and then deleting the "b" leaves out a book that matches "a",
      although the server holds it and the intended search shows it. */
  lemma BackspaceDoesNotWiden()
    ensures var afterAb := Keystroke([BookAC()], [BookAC()], true, "ab");
            && afterAb == []
            && Keystroke(afterAb, [BookAC()], true, "a") == []
            && KeystrokeFixed(afterAb, [BookAC()], "a") == [BookAC()]
  {
    BookACFields();
    assert ToLower("ab") == "ab" && ToLower("a") == "a";
    KeystrokeOne(BookAC(), [BookAC()], "ab");
    KeystrokeOne(BookAC(), [BookAC()], "a");
    assert Keystroke([], [BookAC()], true, "a") == [];
    assert KeystrokeFixed([], [BookAC()], "a") == Keystroke([BookAC()], [BookAC()], true, "a");
  }

  /** The intended search: every keystroke runs over the list the server answered,
      kept beside the table, whatever the table currently holds; an empty box shows
      that list again without a new request. */
  function KeystrokeFixed(books: seq<Product>, server: seq<Product>, text: string): (r: seq<Product>)
    ensures text == "" ==> r == server
    ensures text != "" ==>
      && IsSubsequence(r, server)
      && (forall i :: 0 <= i < |r| ==> AnyFieldContains(RowFields(r[i]), ToLower(text)))
      && (forall i :: 0 <= i < |server| && AnyFieldContains(RowFields(server[i]), ToLower(text)) ==> server[i] in r)
      && |r| == Count(server, RowMatcher(ToLower(text)))
  {
    Keystroke(server, server, true, text)
  }

  /** With the intended search the table depends on the current text only: what was
      typed before, and so what the table held, makes no difference, and deleting
      characters widens the result again. */
  lemma KeystrokeFixedForgetsHistory(before: seq<Product>, other: seq<Product>, server: seq<Product>, text: string)
    ensures KeystrokeFixed(before, server, text) == KeystrokeFixed(other, server, text)
  {
  }

  /** Lengthening the text never adds a book, and so shortening it never drops one:
      the result for "ab" is inside the result for "a". */
  lemma KeystrokeFixedWidens(server: seq<Product>, shorter: string, longer: string)
    requires shorter != "" && shorter <= longer
    ensures IsSubsequence(KeystrokeFixed([], server, longer), KeystrokeFixed([], server, shorter))
  {
    var short, long := ToLower(shorter), ToLower(longer);
    assert short <= long by {
      assert forall i :: 0 <= i < |short| ==> short[i] == long[i];
    }
    forall p ensures RowMatcher(long)(p) ==> RowMatcher(short)(p) {
      if RowMatcher(long)(p) {
        var fields := RowFields(p);
        var i :| 0 <= i < |fields| && Contains(ToLower(fields[i]), long);
        ContainsPrefix(ToLower(fields[i]), short, long);
      }
    }
    FilterMonotone(server, RowMatcher(long), RowMatcher(short));
  }

  // ---------------------------------------------------------------------------
  // the table's state and the filters' effect on the page
  // ---------------------------------------------------------------------------

  /** The table's filter and paging state. */
  datatype Table = Table(books: seq<Product>, filterCategory: string, lowStockOnly: bool, view: TableView)

  function Rows(t: Table): seq<Product>
  {
    FinalBooks(t.books, t.filterCategory, t.lowStockOnly)
  }

  /** The rows on screen. */
  function Shown(t: Table): seq<Product>
  {
    TablePage(Rows(t), t.view)
  }

  /** Choosing a category as written: only the filter changes, the page stays. */
  function SelectCategory(t: Table, category: string): (t': Table)
    ensures t'.view == t.view && t'.filterCategory == category
    ensures t'.books == t.books && t'.lowStockOnly == t.lowStockOnly
  {
    t.(filterCategory := category)
  }

  /** Choosing a category with the page reset the other controls do. */
  function SelectCategoryFixed(t: Table, category: string): (t': Table)
    ensures t'.view.page == 0 && t'.view.limit == t.view.limit
    ensures Rows(t') == Rows(SelectCategory(t, category))
  {
    t.(filterCategory := category, view := t.view.(page := 0))
  }

  /** After the corrected category choice, rows exist on screen whenever any book passes the filters. */
  lemma SelectCategoryFixedShowsRows(t: Table, category: string)
    requires t.view.limit > 0
    requires Rows(SelectCategory(t, category)) != []
    ensures Shown(SelectCategoryFixed(t, category)) != []
  {
    var t' := SelectCategoryFixed(t, category);
    TableViewShowsRows(Rows(t'), t'.view);
  }

  /** Eleven or more books on page 2 of ten, then choosing a category with a single
      book: that book passes the filter but the table shows no rows. */
  lemma SelectCategoryKeepsStalePage(others: seq<Product>, b: Product)
    requires |others| >= 10
    requires forall i :: 0 <= i < |others| ==> CategoryKey(others[i]) != CategoryKey(b)
    ensures var t := Table(others + [b], "", false, TableView(1, 10));
            var t' := SelectCategory(t, CategoryKey(b));
            && Shown(t) != []
            && Rows(t') == [b]
            && Shown(t') == []
  {
    var k := CategoryKey(b);
    var books := others + [b];
    var t := Table(books, "", false, TableView(1, 10));
    PageNonEmptyIff(books, 10, 1);
    FilterAppend(others, [b], InCategory(k));
    FilterNone(others, InCategory(k));
    assert Filter([b], InCategory(k)) == [b];
    assert Rows(SelectCategory(t, k)) == [b];
    PageNonEmptyIff([b], 10, 1);
  }

  /** Ticking or unticking "low stock only" as written: only the flag flips, the page stays. */
  function ToggleLowStock(t: Table): (t': Table)
    ensures t'.lowStockOnly == !t.lowStockOnly && t'.view == t.view
    ensures t'.books == t.books && t'.filterCategory == t.filterCategory
  {
    t.(lowStockOnly := !t.lowStockOnly)
  }

  /** The toggle with the page reset the page-size control does. */
  function ToggleLowStockFixed(t: Table): (t': Table)
    ensures t'.view.page == 0 && t'.view.limit == t.view.limit
    ensures Rows(t') == Rows(ToggleLowStock(t))
  {
    t.(lowStockOnly := !t.lowStockOnly, view := t.view.(page := 0))
  }

  /** After the corrected toggle, rows exist on screen whenever any book passes the filters. */
  lemma ToggleLowStockFixedShowsRows(t: Table)
    requires t.view.limit > 0
    requires Rows(ToggleLowStock(t)) != []
    ensures Shown(ToggleLowStockFixed(t)) != []
  {
    var t' := ToggleLowStockFixed(t);
    TableViewShowsRows(Rows(t'), t'.view);
  }

  /** Ten or more well-stocked books and one low-stock book, table on page 2 of ten,
      then ticking "low stock only": the low-stock book passes the filter but the
      table shows no rows. */
  lemma ToggleLowStockKeepsStalePage(others: seq<Product>, b: Product)
    requires |others| >= 10
    requires forall i :: 0 <= i < |others| ==> !IsLow(others[i])
    requires IsLow(b)
    ensures var t := Table(others + [b], "", false, TableView(1, 10));
            var t' := ToggleLowStock(t);
            && Shown(t) != []
            && Rows(t') == [b]
            && Shown(t') == []
  {
    var books := others + [b];
    var t := Table(books, "", false, TableView(1, 10));
    PageNonEmptyIff(books, 10, 1);
    FilterAppend(others, [b], IsLow);
    FilterNone(others, IsLow);
    assert Filter([b], IsLow) == [b];
    assert Rows(ToggleLowStock(t)) == [b];
    PageNonEmptyIff([b], 10, 1);
  }
}

=== FILE: orders.dfy ===
/** The order queries of backend/controller/orderController.js: total income,
    the top-five customers aggregation, and the newest-first listing. */
module Orders {
  import opened Common
  import opened Credentials
  import opened Sorting

  /** One line of an order (schema in backend/model/ordermodel.js). */
  datatype LineItem = LineItem(productId: Id, quantity: int, price: int, total: int)

  /** An order document; amounts are integer cents and `createdAt` is the
      timestamp Mongoose adds, as a number. */
  datatype Order = Order(id: Id, customer: string, products: seq<LineItem>, totalAmount: int, createdAt: int)

  // ---------------------------------------------------------------------------
  // reference definitions
  // ---------------------------------------------------------------------------

  /** Everything the customer `c` has spent, over all orders. */
  function SpentBy(orders: seq<Order>, c: string): int
  {
    Sum(orders, (o: Order) => if o.customer == c then o.totalAmount else 0)
  }

  /** How many orders the customer `c` has placed. */
  function OrdersBy(orders: seq<Order>, c: string): nat
  {
    Count(orders, (o: Order) => o.customer == c)
  }

  function Income(orders: seq<Order>): int
  {
    Sum(orders, (o: Order) => o.totalAmount)
  }

  // ---------------------------------------------------------------------------
  // getTotalIncome
  // ---------------------------------------------------------------------------

  /** The body of `getTotalIncome`: the single `$group` row `{ _id: null, totalIncome }`,
      or the fallback `{ totalIncome: 0 }` when the pipeline yields no row. */
  datatype IncomeReport = IncomeReport(hasNullId: bool, totalIncome: int)

  function TotalIncome(orders: seq<Order>): (r: IncomeReport)
    ensures r.totalIncome == Income(orders)
    ensures orders == [] <==> !r.hasNullId
    ensures orders == [] ==> r == IncomeReport(false, 0)
  {
    if orders == [] then IncomeReport(false, 0) else IncomeReport(true, Income(orders))
  }

  // ---------------------------------------------------------------------------
  // getTopCustomer
  // ---------------------------------------------------------------------------

  /** One `$group` row after the final `map`: `{ customer, totalSpent, orderCount }`. */
  datatype CustomerStat = CustomerStat(customer: string, totalSpent: int, orderCount: nat)

  predicate UniqueCustomers(g: seq<CustomerStat>)
  {
    forall i, j :: 0 <= i < j < |g| ==> g[i].customer != g[j].customer
  }

  function Lookup(g: seq<CustomerStat>, c: string): (r: Option<CustomerStat>)
    ensures r.Some? ==> r.value in g && r.value.customer == c
    ensures r.None? <==> forall i :: 0 <= i < |g| ==> g[i].customer != c
  {
    if g == [] then None else if g[0].customer == c then Some(g[0]) else Lookup(g[1..], c)
  }

  function SpentIn(g: seq<CustomerStat>, c: string): int
  {
    match Lookup(g, c)
    case None => 0
    case Some(s) => s.totalSpent
  }

  function CountIn(g: seq<CustomerStat>, c: string): nat
  {
    match Lookup(g, c)
    case None => 0
    case Some(s) => s.orderCount
  }

  function Spent(s: CustomerStat): int
  {
    s.totalSpent
  }

  /** Folds one order into the group table: adds to its customer's row, or opens one. */
  function Accumulate(g: seq<CustomerStat>, o: Order): seq<CustomerStat>
  {
    if g == [] then [CustomerStat(o.customer, o.totalAmount, 1)]
    else if g[0].customer == o.customer then
      [CustomerStat(o.customer, g[0].totalSpent + o.totalAmount, g[0].orderCount + 1)] + g[1..]
    else [g[0]] + Accumulate(g[1..], o)
  }

  lemma {:induction false} AccumulateUnique(g: seq<CustomerStat>, o: Order)
    requires UniqueCustomers(g)
    ensures UniqueCustomers(Accumulate(g, o))
  {
    var r := Accumulate(g, o);
    if g == [] {
    } else if g[0].customer == o.customer {
      assert r[1..] == g[1..];
      forall i, j | 0 <= i < j < |r| ensures r[i].customer != r[j].customer {
        assert r[j] == g[j];
        if i > 0 { assert r[i] == g[i]; }
      }
    } else {
      var tail := g[1..];
      assert UniqueCustomers(tail) by {
        forall i, j | 0 <= i < j < |tail| ensures tail[i].customer != tail[j].customer {
          assert tail[i] == g[i + 1] && tail[j] == g[j + 1];
        }
      }
      AccumulateUnique(tail, o);
      var rt := Accumulate(tail, o);
      assert r == [g[0]] + rt;
      forall k | 0 <= k < |tail| ensures tail[k].customer != g[0].customer {
        assert tail[k] == g[k + 1];
      }
      AccumulateAt(tail, o, g[0].customer);
      forall i, j | 0 <= i < j < |r| ensures r[i].customer != r[j].customer {
        assert r[j] == rt[j - 1];
        if i > 0 { assert r[i] == rt[i - 1]; }
      }
    }
  }

  /** Folding one order changes only its customer's row: one more order, its amount added. */
  lemma {:induction false} AccumulateAt(g: seq<CustomerStat>, o: Order, c: string)
    ensures Lookup(Accumulate(g, o), c).Some? <==> Lookup(g, c).Some? || c == o.customer
    ensures SpentIn(Accumulate(g, o), c) == SpentIn(g, c) + (if c == o.customer then o.totalAmount else 0)
    ensures CountIn(Accumulate(g, o), c) == CountIn(g, c) + (if c == o.customer then 1 else 0)
  {
    var r := Accumulate(g, o);
    if g == [] {
    } else if g[0].customer == o.customer {
      assert r[1..] == g[1..];
    } else {
      AccumulateAt(g[1..], o, c);
      assert r[1..] == Accumulate(g[1..], o);
    }
  }

  lemma {:induction false} AccumulateSum(g: seq<CustomerStat>, o: Order)
    ensures Sum(Accumulate(g, o), Spent) == Sum(g, Spent) + o.totalAmount
  {
    var r := Accumulate(g, o);
    if g == [] {
    } else if g[0].customer == o.customer {
      assert r[1..] == g[1..];
    } else {
      AccumulateSum(g[1..], o);
      assert r[1..] == Accumulate(g[1..], o);
    }
  }

  /** MongoDB's `$group: { _id: "$customer", totalSpent: { $sum: "$totalAmount" }, orderCount: { $sum: 1 } }`. */
  function GroupByCustomer(orders: seq<Order>): (g: seq<CustomerStat>)
    ensures UniqueCustomers(g)
    ensures forall c :: Lookup(g, c).Some? <==> OrdersBy(orders, c) >= 1
    ensures forall c :: SpentIn(g, c) == SpentBy(orders, c)
    ensures forall c :: CountIn(g, c) == OrdersBy(orders, c)
    ensures Sum(g, Spent) == Income(orders)
  {
    if orders == [] then []
    else
      var rest := GroupByCustomer(orders[1..]);
      AccumulateUnique(rest, orders[0]);
      AccumulateSum(rest, orders[0]);
      forall c ensures
        && (Lookup(Accumulate(rest, orders[0]), c).Some? <==> OrdersBy(orders, c) >= 1)
        && SpentIn(Accumulate(rest, orders[0]), c) == SpentBy(orders, c)
        && CountIn(Accumulate(rest, orders[0]), c) == OrdersBy(orders, c)
      {
        AccumulateAt(rest, orders[0], c);
      }
      Accumulate(rest, orders[0])
  }

  /** Each row of a table with unique customers is that customer's lookup result. */
  lemma RowIsLookup(g: seq<CustomerStat>, i: nat)
    requires UniqueCustomers(g) && i < |g|
    ensures Lookup(g, g[i].customer) == Some(g[i])
  {
    var r := Lookup(g, g[i].customer);
    var j :| 0 <= j < |g| && g[j] == r.value;
    assert i == j;
  }

  /** The `$group` rows: each customer once, with their sum and order count (at least one order). */
  lemma GroupRowsCorrect(orders: seq<Order>)
    ensures RowsCorrect(orders, GroupByCustomer(orders))
  {
    var g := GroupByCustomer(orders);
    forall i | 0 <= i < |g|
      ensures g[i].totalSpent == SpentBy(orders, g[i].customer)
      ensures g[i].orderCount == OrdersBy(orders, g[i].customer)
      ensures g[i].orderCount >= 1
    {
      RowIsLookup(g, i);
    }
  }

  /** The rows of the grouping add up to the total income. */
  lemma GroupSumIsIncome(orders: seq<Order>)
    ensures Sum(GroupByCustomer(orders), Spent) == TotalIncome(orders).totalIncome
  {
  }

  /** Reordering a table with unique customers keeps them unique. */
  lemma PermutedUnique(g: seq<CustomerStat>, s: seq<CustomerStat>)
    requires multiset(g) == multiset(s)
    requires UniqueCustomers(g)
    ensures UniqueCustomers(s)
  {
    assert NoDuplicates(g) by {
      forall i, j | 0 <= i < j < |g| ensures g[i] != g[j] {
        assert g[i].customer != g[j].customer;
      }
    }
    PermutationNoDuplicates(g, s);
    forall i, j | 0 <= i < j < |s| ensures s[i].customer != s[j].customer {
      assert s[i] in multiset(g) && s[j] in multiset(g);
      var a :| 0 <= a < |g| && g[a] == s[i];
      var b :| 0 <= b < |g| && g[b] == s[j];
      assert s[i] != s[j];
      assert a != b;
      if a < b { assert g[a].customer != g[b].customer; }
      else { assert g[b].customer != g[a].customer; }
    }
  }

  /** Reordering keeps every row's sum and count. */
  lemma PermutedRowsCorrect(orders: seq<Order>, g: seq<CustomerStat>, s: seq<CustomerStat>)
    requires multiset(g) == multiset(s)
    requires forall i :: 0 <= i < |g| ==>
              && g[i].totalSpent == SpentBy(orders, g[i].customer)
              && g[i].orderCount == OrdersBy(orders, g[i].customer)
              && g[i].orderCount >= 1
    ensures forall i :: 0 <= i < |s| ==>
              && s[i].totalSpent == SpentBy(orders, s[i].customer)
              && s[i].orderCount == OrdersBy(orders, s[i].customer)
              && s[i].orderCount >= 1
  {
    forall i | 0 <= i < |s|
      ensures s[i].totalSpent == SpentBy(orders, s[i].customer)
      ensures s[i].orderCount == OrdersBy(orders, s[i].customer)
      ensures s[i].orderCount >= 1
    {
      assert s[i] in multiset(g);
      var a :| 0 <= a < |g| && g[a] == s[i];
    }
  }

  /** Reordering keeps every customer's row. */
  lemma PermutedCovers(g: seq<CustomerStat>, s: seq<CustomerStat>, c: string) returns (k: nat)
    requires multiset(g) == multiset(s)
    requires Lookup(g, c).Some?
    ensures k < |s| && s[k].customer == c
  {
    var row := Lookup(g, c).value;
    assert row in multiset(s);
    k :| 0 <= k < |s| && s[k] == row;
  }

  /** Every row holds its customer's sum and order count, and at least one order. */
  predicate RowsCorrect(orders: seq<Order>, t: seq<CustomerStat>)
  {
    forall i :: 0 <= i < |t| ==>
      && t[i].totalSpent == SpentBy(orders, t[i].customer)
      && t[i].orderCount == OrdersBy(orders, t[i].customer)
      && t[i].orderCount >= 1
  }

  /** Every customer with an order has a row. */
  ghost predicate CoversCustomers(orders: seq<Order>, t: seq<CustomerStat>)
  {
    forall c :: OrdersBy(orders, c) >= 1 ==> exists k :: 0 <= k < |t| && t[k].customer == c
  }

  /** Reordering a correct table gives a correct table. */
  lemma PermutedTable(orders: seq<Order>, g: seq<CustomerStat>, s: seq<CustomerStat>)
    requires multiset(g) == multiset(s)
    requires UniqueCustomers(g) && RowsCorrect(orders, g)
    requires forall c :: OrdersBy(orders, c) >= 1 ==> Lookup(g, c).Some?
    ensures |s| == |g| && UniqueCustomers(s) && RowsCorrect(orders, s) && CoversCustomers(orders, s)
  {
    assert |multiset(g)| == |multiset(s)|;
    PermutedUnique(g, s);
    PermutedRowsCorrect(orders, g, s);
    forall c | OrdersBy(orders, c) >= 1 ensures exists k :: 0 <= k < |s| && s[k].customer == c {
      var k := PermutedCovers(g, s, c);
      assert s[k].customer == c;
    }
  }

  /** The grouping sorted by `totalSpent`, descending: every customer with an order
      exactly once, with their sum and count. */
  lemma SortedGroup(orders: seq<Order>)
    ensures var s := SortDesc(GroupByCustomer(orders), Spent);
            && |s| == |GroupByCustomer(orders)|
            && UniqueCustomers(s)
            && RowsCorrect(orders, s)
            && CoversCustomers(orders, s)
  {
    var g := GroupByCustomer(orders);
    GroupRowsCorrect(orders);
    assert forall c :: OrdersBy(orders, c) >= 1 ==> Lookup(g, c).Some?;
    PermutedTable(orders, g, SortDesc(g, Spent));
  }

  /** The first `n` rows, or all of them when there are fewer (`$limit: n`). */
  function Limit(s: seq<CustomerStat>, n: nat): (r: seq<CustomerStat>)
    ensures |r| == if |s| <= n then |s| else n
    ensures r == s[..|r|]
  {
    if |s| <= n then s else s[..n]
  }

  /** A customer left out of the first five of a sorted, complete table has spent
      no more than any of them, and there are five. */
  lemma LeftOutOutranked(orders: seq<Order>, s: seq<CustomerStat>, c: string)
    requires SortedDesc(s, Spent) && RowsCorrect(orders, s) && CoversCustomers(orders, s)
    requires OrdersBy(orders, c) >= 1
    requires forall i :: 0 <= i < |Limit(s, 5)| ==> Limit(s, 5)[i].customer != c
    ensures |Limit(s, 5)| == 5
    ensures forall i :: 0 <= i < |Limit(s, 5)| ==> Limit(s, 5)[i].totalSpent >= SpentBy(orders, c)
  {
    var r := Limit(s, 5);
    var k :| 0 <= k < |s| && s[k].customer == c;
    assert forall i :: 0 <= i < |r| ==> r[i] == s[i];
    forall i | 0 <= i < |r| ensures r[i].totalSpent >= SpentBy(orders, c) {
      assert r[i] == s[i];
      assert Spent(s[i]) >= Spent(s[k]);
    }
  }

  /** A prefix of a sorted, correct table is sorted and correct. */
  lemma PrefixKeepsRows(orders: seq<Order>, s: seq<CustomerStat>, n: nat)
    requires n <= |s|
    requires SortedDesc(s, Spent) && UniqueCustomers(s) && RowsCorrect(orders, s)
    ensures SortedDesc(s[..n], Spent) && UniqueCustomers(s[..n]) && RowsCorrect(orders, s[..n])
  {
    assert forall i :: 0 <= i < n ==> s[..n][i] == s[i];
  }

  /** The first five rows of a sorted, complete and correct table answer the top-five question. */
  lemma LimitFive(orders: seq<Order>, s: seq<CustomerStat>)
    requires SortedDesc(s, Spent)
    requires UniqueCustomers(s)
    requires RowsCorrect(orders, s)
    requires CoversCustomers(orders, s)
    ensures var r := Limit(s, 5);
            && SortedDesc(r, Spent)
            && UniqueCustomers(r)
            && RowsCorrect(orders, r)
            && (forall c :: OrdersBy(orders, c) >= 1 && (forall i :: 0 <= i < |r| ==> r[i].customer != c) ==>
                 |r| == 5 && forall i :: 0 <= i < |r| ==> r[i].totalSpent >= SpentBy(orders, c))
  {
    var r := Limit(s, 5);
    PrefixKeepsRows(orders, s, |r|);
    forall c | OrdersBy(orders, c) >= 1 && (forall i :: 0 <= i < |r| ==> r[i].customer != c)
      ensures |r| == 5 && forall i :: 0 <= i < |r| ==> r[i].totalSpent >= SpentBy(orders, c)
    {
      LeftOutOutranked(orders, s, c);
    }
  }

  /** `getTopCustomer`: group, `$sort: { totalSpent: -1 }`, `$limit: 5`. Equal totals
      may come out in any order in MongoDB; the model fixes one. */
  function TopCustomers(orders: seq<Order>): (r: seq<CustomerStat>)
    ensures |r| <= 5
    ensures SortedDesc(r, Spent)
    ensures UniqueCustomers(r)
    ensures forall i :: 0 <= i < |r| ==>
      && r[i].totalSpent == SpentBy(orders, r[i].customer)
      && r[i].orderCount == OrdersBy(orders, r[i].customer)
      && r[i].orderCount >= 1
    ensures forall c :: OrdersBy(orders, c) >= 1 && (forall i :: 0 <= i < |r| ==> r[i].customer != c) ==>
      |r| == 5 && forall i :: 0 <= i < |r| ==> r[i].totalSpent >= SpentBy(orders, c)
  {
    var s := SortDesc(GroupByCustomer(orders), Spent);
    SortedGroup(orders);
    LimitFive(orders, s);
    Limit(s, 5)
  }

  /** With at most five distinct customers, every customer appears. */
  lemma FewCustomersAllListed(orders: seq<Order>, c: string)
    requires OrdersBy(orders, c) >= 1
    requires |GroupByCustomer(orders)| <= 5
    ensures exists i :: 0 <= i < |TopCustomers(orders)| && TopCustomers(orders)[i].customer == c
  {
    SortedGroup(orders);
    assert TopCustomers(orders) == SortDesc(GroupByCustomer(orders), Spent);
  }

  // ---------------------------------------------------------------------------
  // readOrder
  // ---------------------------------------------------------------------------

  function CreatedAt(o: Order): int
  {
    o.createdAt
  }

  /** `orderModel.find().sort({ createdAt: -1 })`: every order, newest first. */
  function ReadOrders(orders: seq<Order>): (r: seq<Order>)
    ensures multiset(r) == multiset(orders)
    ensures SortedDesc(r, CreatedAt)
  {
    SortDesc(orders, CreatedAt)
  }

  // ---------------------------------------------------------------------------
  // the three handlers: a resolved database call answers 200 with its result,
  // a rejected one lands in the catch with 500 and a fixed message
  // ---------------------------------------------------------------------------

  datatype Body =
    | OrderList(orders: seq<Order>)
    | IncomeBody(report: IncomeReport)
    | TopList(rows: seq<CustomerStat>)
    | Failed(message: string)

  datatype Response = Response(status: int, body: Body)

  /** `readOrder`: `read` is whether `find().sort(...)` resolves. */
  function ReadOrder(orders: seq<Order>, read: bool): (r: Response)
    ensures !read ==> r == Response(500, Failed("Server error while fetching orders"))
    ensures read ==>
      && r.status == 200 && r.body.OrderList?
      && multiset(r.body.orders) == multiset(orders)
      && SortedDesc(r.body.orders, CreatedAt)
  {
    if read then Response(200, OrderList(ReadOrders(orders)))
    else Response(500, Failed("Server error while fetching orders"))
  }

  /** `getTotalIncome`: `read` is whether the aggregate resolves. */
  function GetTotalIncome(orders: seq<Order>, read: bool): (r: Response)
    ensures !read ==> r == Response(500, Failed("Error getting total income"))
    ensures read ==>
      && r.status == 200 && r.body.IncomeBody?
      && r.body.report.totalIncome == Income(orders)
      && (r.body.report.hasNullId <==> orders != [])
  {
    if read then Response(200, IncomeBody(TotalIncome(orders)))
    else Response(500, Failed("Error getting total income"))
  }

  /** `getTopCustomer`: `read` is whether the aggregate resolves. */
  function GetTopCustomer(orders: seq<Order>, read: bool): (r: Response)
    ensures !read ==> r == Response(500, Failed("Error getting top customers"))
    ensures read ==>
      && r.status == 200 && r.body.TopList?
      && |r.body.rows| <= 5
      && SortedDesc(r.body.rows, Spent)
      && UniqueCustomers(r.body.rows)
      && (forall i :: 0 <= i < |r.body.rows| ==>
            && r.body.rows[i].totalSpent == SpentBy(orders, r.body.rows[i].customer)
            && r.body.rows[i].orderCount == OrdersBy(orders, r.body.rows[i].customer))
  {
    if read then Response(200, TopList(TopCustomers(orders)))
    else Response(500, Failed("Error getting top customers"))
  }
}

=== FILE: paging.dfy ===
/** Client-side pagination as the two product screens do it: `Array.prototype.slice`
    over the loaded list, a page count of `Math.ceil(length / size)`, and Prev/Next
    buttons that clamp. The storefront (frontend/src/components/Bookcard.jsx) counts
    pages from 1 with eight cards each; the admin table
    (frontend/src/components/Books.jsx) counts from 0 with a chosen page size. */
module Paging {

  function Min(a: int, b: int): int { if a <= b then a else b }
  function Max(a: int, b: int): int { if a <= b then b else a }

  /** How `slice` reads one of its arguments: negative values count from the end,
      and everything is clamped to `[0, len]`. */
  function RelativeIndex(i: int, len: nat): (k: nat)
    ensures k <= len
    ensures 0 <= i <= len ==> k == i
    ensures i > len ==> k == len
    ensures i < 0 ==> k == Max(len + i, 0)
  {
    if i < 0 then (if len + i < 0 then 0 else len + i)
    else if i > len then len
    else i
  }

  /** `xs.slice(start, end)`. */
  function JsSlice<T>(xs: seq<T>, start: int, end: int): (r: seq<T>)
    ensures |r| <= |xs|
    ensures 0 <= start <= |xs| ==>
      |r| == Max(0, (if end < 0 then Max(end + |xs|, 0) else Min(end, |xs|)) - start)
    ensures 0 <= start ==> forall i :: 0 <= i < |r| ==> start + i < |xs| && r[i] == xs[start + i]
    ensures 0 <= start <= end ==> |r| == Min(end, |xs|) - Min(start, |xs|)
  {
    var a, b := RelativeIndex(start, |xs|), RelativeIndex(end, |xs|);
    if b <= a then [] else xs[a..b]
  }

  /** `Math.ceil(n / d)` for a positive divisor. */
  function CeilDiv(n: nat, d: nat): (r: nat)
    requires d > 0
    ensures r * d >= n
    ensures r > 0 ==> (r - 1) * d < n
    ensures r == 0 <==> n == 0
  {
    (n + d - 1) / d
  }

  /** Page `p` (counted from 0) of `size` elements. */
  function Page<T>(xs: seq<T>, size: nat, p: int): seq<T>
  {
    JsSlice(xs, p * size, p * size + size)
  }

  /** A page holds the next `size` elements from its start, fewer on the last page. */
  lemma PageContents<T>(xs: seq<T>, size: nat, p: nat)
    requires size > 0
    ensures var r := Page(xs, size, p);
            && |r| == Min(p * size + size, |xs|) - Min(p * size, |xs|)
            && (forall i :: 0 <= i < |r| ==> r[i] == xs[p * size + i])
  {
  }

  /** Appending page `p` to the first `p * size` elements gives the first `(p + 1) * size`. */
  lemma NextPagePrefix<T>(xs: seq<T>, size: nat, p: nat, before: seq<T>)
    requires size > 0 && before == xs[..Min(p * size, |xs|)]
    ensures before + Page(xs, size, p) == xs[..Min((p + 1) * size, |xs|)]
  {
    MulSucc(p, size);
    PageIsSlice(xs, size, p);
    PrefixThenSlice(xs, Min(p * size, |xs|), Min((p + 1) * size, |xs|));
  }

  lemma MulSucc(p: nat, size: nat)
    ensures p * size + size == (p + 1) * size
  {
  }

  lemma PrefixThenSlice<T>(xs: seq<T>, lo: nat, hi: nat)
    requires lo <= hi <= |xs|
    ensures xs[..lo] + xs[lo..hi] == xs[..hi]
  {
  }

  /** A page is the slice between its clamped bounds. */
  lemma PageIsSlice<T>(xs: seq<T>, size: nat, p: nat)
    requires size > 0
    ensures Page(xs, size, p) == xs[Min(p * size, |xs|)..Min(p * size + size, |xs|)]
  {
    PageContents(xs, size, p);
  }

  /** A page has something on it exactly when its number is below the page count. */
  lemma PageNonEmptyIff<T>(xs: seq<T>, size: nat, p: nat)
    requires size > 0
    ensures Page(xs, size, p) != [] <==> p < CeilDiv(|xs|, size)
  {
    var tp := CeilDiv(|xs|, size);
    PageContents(xs, size, p);
    if p < tp {
      assert p * size <= (tp - 1) * size by { MulMono(p, tp - 1, size); }
    } else {
      assert p * size >= tp * size by { MulMono(tp, p, size); }
    }
  }

  lemma MulMono(a: nat, b: nat, c: nat)
    requires a <= b
    ensures a * c <= b * c
  {
  }

  /** The first `k` pages, one after the other. */
  function FirstPages<T>(xs: seq<T>, size: nat, k: nat): seq<T>
  {
    if k == 0 then [] else FirstPages(xs, size, k - 1) + Page(xs, size, k - 1)
  }

  /** Paging neither drops, repeats nor reorders: the first `k` pages are the
      first `k * size` elements. */
  lemma {:induction false} FirstPagesArePrefix<T>(xs: seq<T>, size: nat, k: nat)
    requires size > 0
    ensures FirstPages(xs, size, k) == xs[..Min(k * size, |xs|)]
  {
    if k > 0 {
      var p := k - 1;
      FirstPagesArePrefix(xs, size, p);
      NextPagePrefix(xs, size, p, FirstPages(xs, size, p));
    }
  }

  /** All the pages together are the whole list. */
  lemma PagesCoverAll<T>(xs: seq<T>, size: nat)
    requires size > 0
    ensures FirstPages(xs, size, CeilDiv(|xs|, size)) == xs
  {
    FirstPagesArePrefix(xs, size, CeilDiv(|xs|, size));
    assert xs[..|xs|] == xs;
  }

  // ---------------------------------------------------------------------------
  // storefront pager: pages 1..totalPages of eight cards
  // ---------------------------------------------------------------------------

  const CardsPerPage: nat := 8

  /** `Math.ceil(data.length / itemsPerPage)`. */
  function CardPageCount(n: nat): nat
  {
    CeilDiv(n, CardsPerPage)
  }

  /** `data.slice((currentPage - 1) * itemsPerPage, currentPage * itemsPerPage)`. */
  function CardPage<T>(data: seq<T>, currentPage: int): (r: seq<T>)
    ensures |r| <= CardsPerPage
    ensures currentPage >= 1 ==> forall i :: 0 <= i < |r| ==> (currentPage - 1) * CardsPerPage + i < |data| && r[i] == data[(currentPage - 1) * CardsPerPage + i]
    ensures currentPage >= 1 ==> (r != [] <==> currentPage <= CardPageCount(|data|))
  {
    var r := JsSlice(data, (currentPage - 1) * CardsPerPage, currentPage * CardsPerPage);
    if currentPage >= 1 then
      assert r == Page(data, CardsPerPage, currentPage - 1);
      PageNonEmptyIff(data, CardsPerPage, currentPage - 1);
      r
    else r
  }

  /** The pager appears only when there is more than one page. */
  predicate CardPagerShown(n: nat)
  {
    CardPageCount(n) > 1
  }

  /** So the storefront shows its pager exactly when more than eight cards are found. */
  lemma CardPagerShownIff(n: nat)
    ensures CardPagerShown(n) <==> n > CardsPerPage
  {
  }

  /** Prev: `Math.max(1, p - 1)`; disabled on page 1. */
  function CardPrev(p: int): (q: int)
    ensures q >= 1
    ensures p > 1 ==> q == p - 1
    ensures p <= 1 ==> q == 1
  {
    Max(1, p - 1)
  }

  /** Next: `Math.min(totalPages, p + 1)`; disabled on the last page. */
  function CardNext(p: int, totalPages: nat): (q: int)
    ensures q <= totalPages && q <= p + 1
    ensures p < totalPages ==> q == p + 1
    ensures p >= totalPages ==> q == totalPages
  {
    Min(totalPages, p + 1)
  }

  /** Prev and Next keep a valid page valid, and Next then Prev returns to the
      page it started from unless Next was at the end. */
  lemma CardPagerStaysInRange(p: int, totalPages: nat)
    requires 1 <= p <= totalPages
    ensures 1 <= CardPrev(p) <= totalPages
    ensures 1 <= CardNext(p, totalPages) <= totalPages
    ensures p < totalPages ==> CardPrev(CardNext(p, totalPages)) == p
    ensures p > 1 ==> CardNext(CardPrev(p), totalPages) == p
  {
  }

  // ---------------------------------------------------------------------------
  // admin table pager: pages 0..totalPages-1 of a chosen size
  // ---------------------------------------------------------------------------

  /** The page sizes the table offers; 10 is preselected. */
  predicate ValidLimit(limit: nat)
  {
    limit == 10 || limit == 20 || limit == 50 || limit == 100
  }

  const DefaultLimit: nat := 10

  /** The table's paging state. */
  datatype TableView = TableView(page: int, limit: nat)

  const InitialView: TableView := TableView(0, DefaultLimit)

  /** The rows shown: `finalBooks.slice(page * limit, page * limit + limit)`. */
  function TablePage<T>(rows: seq<T>, v: TableView): seq<T>
  {
    Page(rows, v.limit, v.page)
  }

  /** `Math.ceil(finalBooks.length / limit)`. */
  function TablePageCount(n: nat, limit: nat): nat
    requires limit > 0
  {
    CeilDiv(n, limit)
  }

  /** The row number column: `start + i + 1`. */
  function RowNumber(v: TableView, i: nat): int
  {
    v.page * v.limit + i + 1
  }

  /** The number printed beside a row is that row's 1-based position in the whole
      filtered list, on every page. */
  lemma RowNumberIsPosition<T>(rows: seq<T>, v: TableView, i: nat)
    requires v.limit > 0 && v.page >= 0
    requires i < |TablePage(rows, v)|
    ensures 1 <= RowNumber(v, i) <= |rows|
    ensures TablePage(rows, v)[i] == rows[RowNumber(v, i) - 1]
  {
    PageContents(rows, v.limit, v.page);
  }

  /** The two numbers of the label `Page {page + 1} of {totalPages || 1}`. */
  datatype Label = Label(current: int, outOf: nat)

  function PageLabel(v: TableView, totalPages: nat): (shown: Label)
    ensures shown.outOf >= 1
    ensures totalPages > 0 ==> shown.outOf == totalPages
    ensures shown.current - 1 == v.page
  {
    Label(v.page + 1, if totalPages == 0 then 1 else totalPages)
  }

  /** Choosing a page size from the select goes back to the first page. */
  function SetLimit(v: TableView, limit: nat): (v': TableView)
    requires ValidLimit(limit)
    ensures v'.limit == limit && v'.page == 0
    ensures v'.limit > 0
  {
    TableView(0, limit)
  }

  /** Prev: `Math.max(0, p - 1)`; disabled on page 0. */
  function TablePrev(v: TableView): (v': TableView)
    ensures v'.limit == v.limit
    ensures v'.page >= 0
    ensures v.page > 0 ==> v'.page == v.page - 1
  {
    v.(page := Max(0, v.page - 1))
  }

  predicate PrevDisabled(v: TableView)
  {
    v.page == 0
  }

  /** Next: `Math.min(totalPages - 1, p + 1)`; disabled from the last page on. */
  function TableNext(v: TableView, totalPages: nat): (v': TableView)
    ensures v'.limit == v.limit
    ensures v'.page <= totalPages - 1
    ensures v.page + 1 < totalPages ==> v'.page == v.page + 1
  {
    v.(page := Min(totalPages - 1, v.page + 1))
  }

  predicate NextDisabled(v: TableView, totalPages: nat)
  {
    v.page >= totalPages - 1
  }

  /** The enabled buttons keep the page inside `[0, totalPages)`, and each moves by exactly one. */
  lemma TablePagerStaysInRange(v: TableView, totalPages: nat)
    requires 0 <= v.page < totalPages
    ensures !NextDisabled(v, totalPages) ==>
      0 <= TableNext(v, totalPages).page < totalPages && TableNext(v, totalPages).page == v.page + 1
    ensures !PrevDisabled(v) ==> 0 <= TablePrev(v).page < totalPages && TablePrev(v).page == v.page - 1
    ensures NextDisabled(v, totalPages) <==> v.page == totalPages - 1
  {
  }

  /** Every reachable view of a non-empty table shows rows: after a limit change the
      first page, and after Prev or Next a page below the count. */
  lemma TableViewShowsRows<T>(rows: seq<T>, v: TableView)
    requires v.limit > 0 && 0 <= v.page < TablePageCount(|rows|, v.limit)
    ensures TablePage(rows, v) != []
    ensures |TablePage(rows, v)| <= v.limit
  {
    PageNonEmptyIff(rows, v.limit, v.page);
  }

  /** After choosing any offered page size, a non-empty list shows its first rows. */
  lemma SetLimitShowsRows<T>(rows: seq<T>, v: TableView, limit: nat)
    requires ValidLimit(limit) && rows != []
    ensures var v' := SetLimit(v, limit);
            TablePage(rows, v') != [] && TablePage(rows, v') == rows[..Min(limit, |rows|)]
  {
    var v' := SetLimit(v, limit);
    TableViewShowsRows(rows, v');
    PageIsSlice(rows, limit, 0);
  }
}

=== FILE: products.dfy ===
/** The product handlers of backend/controller/productController.js over an
    in-memory product collection. */
module Products {
  import opened Common
  import opened Text
  import opened Credentials
  import opened Catalog

  type ProductStore = seq<Product>

  /** The multipart form fields of `POST` create. */
  datatype ProductForm = ProductForm(name: Option<string>, quantity: Option<int>, price: int, category: Option<string>)

  datatype Body =
    | Saved(product: Product)
    | Found(products: seq<Product>)
    | Single(hit: Option<Product>)   // `null` when no product has the id
    | Message(text: string)
    | Categories(values: seq<string>)
    | Failed(message: string)

  datatype Response = Response(status: int, body: Body)

  predicate UniqueIds(store: ProductStore)
  {
    forall i, j :: 0 <= i < j < |store| ==> store[i].id != store[j].id
  }

  function IdOf(p: Product): Id
  {
    p.id
  }

  // ---------------------------------------------------------------------------
  // createProduct
  // ---------------------------------------------------------------------------

  /** `createProduct`: `file` is multer's `req.file` (its stored name), `saved`
      the database's verdict. The file name is read before saving, so a request
      without a file throws and nothing is saved. The success status is 200. */
  function CreateProduct(store: ProductStore, form: ProductForm, file: Option<string>, saved: bool)
    : (out: (Response, ProductStore))
    ensures file.None? || !saved ==> out == (Response(500, Failed("Error creating product")), store)
    ensures file.Some? && saved ==>
      && out.0.status == 200 && out.0.body.Saved?
      && out.1 == store + [out.0.body.product]
      && out.0.body.product.name == form.name
      && out.0.body.product.quantity == form.quantity
      && out.0.body.product.price == form.price
      && out.0.body.product.category == form.category
      && out.0.body.product.prImg == file.value
      && (forall i :: 0 <= i < |store| ==> store[i].id != out.0.body.product.id)
  {
    match file
    case None => (Response(500, Failed("Error creating product")), store)
    case Some(filename) =>
      if !saved then (Response(500, Failed("Error creating product")), store)
      else
        var p := Product(FreshId(store, IdOf), form.name, form.quantity, form.price, form.category, filename, None);
        (Response(200, Saved(p)), store + [p])
  }

  // ---------------------------------------------------------------------------
  // readProduct
  // ---------------------------------------------------------------------------

  /** `req.body` of the read request; the whole body may be missing. */
  datatype ReadBody = ReadBody(category: Option<string>)

  /** The filter `readProduct` builds: a category only when it is present and not blank. */
  function CategoryFilter(body: Option<ReadBody>): (f: Option<string>)
    ensures f.Some? <==> body.Some? && body.value.category.Some? && !IsBlank(body.value.category.value)
    ensures f.Some? ==> f == body.value.category
  {
    match body
    case None => None
    case Some(b) =>
      match b.category
      case None => None
      case Some(c) =>
        TrimEmptyIffBlank(c);
        if c != "" && Trim(c) != "" then Some(c) else None
  }

  /** The query `{ category }`: the stored category equals the string exactly. */
  function WithCategory(c: string): (f: Product -> bool)
    ensures forall p :: f(p) == (p.category == Some(c))
  {
    (p: Product) => p.category == Some(c)
  }

  /** `readProduct`: every product, or those whose category equals the string as sent (untrimmed). */
  function ReadProduct(store: ProductStore, body: Option<ReadBody>): (r: seq<Product>)
    ensures CategoryFilter(body).None? ==> r == store
    ensures CategoryFilter(body).Some? ==>
      && IsSubsequence(r, store)
      && (forall i :: 0 <= i < |r| ==> r[i].category == CategoryFilter(body))
      && (forall i :: 0 <= i < |store| && store[i].category == CategoryFilter(body) ==> store[i] in r)
      && |r| == Count(store, WithCategory(CategoryFilter(body).value))
  {
    match CategoryFilter(body)
    case None => store
    case Some(c) => Filter(store, WithCategory(c))
  }

  // ---------------------------------------------------------------------------
  // readSingleData / deletedata / getCategories
  // ---------------------------------------------------------------------------

  /** `readSingleData`: 200 whether or not the id exists; the body is `null` when it does not. */
  function ReadSingle(store: ProductStore, id: Id): (r: Response)
    ensures r.status == 200 && r.body.Single?
    ensures r.body.hit.None? <==> forall i :: 0 <= i < |store| ==> store[i].id != id
    ensures r.body.hit.Some? ==> r.body.hit.value in store && r.body.hit.value.id == id
  {
    if store == [] then Response(200, Single(None))
    else if store[0].id == id then Response(200, Single(Some(store[0])))
    else ReadSingle(store[1..], id)
  }

  function WithId(id: Id): (f: Product -> bool)
    ensures forall p :: f(p) <==> p.id == id
  {
    (p: Product) => p.id == id
  }

  /** `deleteOne({ _id: id })`: removes the first document with that id, if any. */
  function DeleteOne(store: ProductStore, id: Id): (s': ProductStore)
    ensures (forall i :: 0 <= i < |store| ==> store[i].id != id) ==> s' == store
    ensures |s'| == |store| || |s'| == |store| - 1
    ensures IsSubsequence(s', store)
    ensures var k := FirstIndex(store, WithId(id)); k < |store| ==> s' == store[..k] + store[k + 1..]
  {
    if store == [] then []
    else if store[0].id == id then
      assert IsSubsequence(store[1..], store) by {
        if store[1..] != [] { assert store[1..][0] == store[1]; }
        SubsequenceOfTail(store);
      }
      store[1..]
    else
      var rest := DeleteOne(store[1..], id);
      FirstIndexPastHead(store, WithId(id));
      RemovalUnderHead(store, rest, FirstIndex(store[1..], WithId(id)));
      [store[0]] + rest
  }

  /** Skipping a non-matching head moves the first match one place on. */
  lemma FirstIndexPastHead<T>(xs: seq<T>, p: T -> bool)
    requires xs != []
    ensures !p(xs[0]) ==> FirstIndex(xs, p) == FirstIndex(xs[1..], p) + 1
  {
  }

  /** Putting the head back in front of the tail with its `k`-th element removed is
      the whole sequence with its `k + 1`-th element removed. */
  lemma RemovalUnderHead<T>(xs: seq<T>, rest: seq<T>, k: nat)
    requires xs != []
    ensures k < |xs[1..]| && rest == xs[1..][..k] + xs[1..][k + 1..] ==>
      [xs[0]] + rest == xs[..k + 1] + xs[k + 2..]
  {
    if k < |xs[1..]| {
      assert xs[..k + 1] == [xs[0]] + xs[1..][..k];
      assert xs[k + 2..] == xs[1..][k + 1..];
    }
  }

  /** Dropping the head leaves a subsequence. */
  lemma {:induction false} SubsequenceOfTail(s: seq<Product>)
    requires s != []
    ensures IsSubsequence(s[1..], s)
  {
    SubsequenceRefl(s[1..]);
  }

  /** `deletedata`: always 200 with the same message; with unique ids, no product
      keeps the id afterwards and every other product stays, in order. */
  function DeleteProduct(store: ProductStore, id: Id): (out: (Response, ProductStore))
    ensures out.0 == Response(200, Message("Product deleted successfully"))
    ensures IsSubsequence(out.1, store)
    ensures UniqueIds(store) ==> forall i :: 0 <= i < |out.1| ==> out.1[i].id != id
    ensures forall i :: 0 <= i < |store| && store[i].id != id ==> store[i] in out.1
  {
    DeleteOneSpec(store, id);
    (Response(200, Message("Product deleted successfully")), DeleteOne(store, id))
  }

  lemma {:induction false} DeleteOneSpec(store: ProductStore, id: Id)
    ensures UniqueIds(store) ==> forall i :: 0 <= i < |DeleteOne(store, id)| ==> DeleteOne(store, id)[i].id != id
    ensures forall i :: 0 <= i < |store| && store[i].id != id ==> store[i] in DeleteOne(store, id)
  {
    if store != [] {
      DeleteOneSpec(store[1..], id);
      assert UniqueIds(store) ==> UniqueIds(store[1..]) by {
        if UniqueIds(store) {
          forall i, j | 0 <= i < j < |store[1..]| ensures store[1..][i].id != store[1..][j].id {
            assert store[1..][i] == store[i + 1] && store[1..][j] == store[j + 1];
          }
        }
      }
      if store[0].id == id {
        assert UniqueIds(store) ==> forall k :: 0 <= k < |store[1..]| ==> store[1..][k].id != id by {
          if UniqueIds(store) {
            forall k | 0 <= k < |store[1..]| ensures store[1..][k].id != id {
              assert store[1..][k] == store[k + 1];
            }
          }
        }
        forall i | 0 <= i < |store| && store[i].id != id ensures store[i] in store[1..] {
          assert i > 0;
          assert store[i] == store[1..][i - 1];
        }
      } else {
        forall i | 0 <= i < |store| && store[i].id != id ensures store[i] in DeleteOne(store, id) {
          if i > 0 {
            assert store[i] == store[1..][i - 1];
          }
        }
      }
    }
  }

  /** `productModel.distinct("category")`: each category value present once.
      Products without a category contribute nothing. */
  function DistinctCategories(store: ProductStore): (r: seq<string>)
    ensures NoDuplicates(r)
    ensures forall c :: c in r <==> exists i :: 0 <= i < |store| && store[i].category == Some(c)
  {
    if store == [] then []
    else
      var rest := DistinctCategories(store[1..]);
      assert forall c :: (exists i :: 0 <= i < |store[1..]| && store[1..][i].category == Some(c))
                     <==> (exists i :: 1 <= i < |store| && store[i].category == Some(c)) by {
        forall c | exists i :: 1 <= i < |store| && store[i].category == Some(c)
          ensures exists i :: 0 <= i < |store[1..]| && store[1..][i].category == Some(c)
        {
          var i :| 1 <= i < |store| && store[i].category == Some(c);
          assert store[1..][i - 1] == store[i];
        }
      }
      match store[0].category
      case None => rest
      case Some(c) =>
        if c in rest then rest
        else
          assert NoDuplicates([c] + rest) by {
            forall i, j | 0 <= i < j < |[c] + rest| ensures ([c] + rest)[i] != ([c] + rest)[j] {
              if i == 0 { assert ([c] + rest)[j] == rest[j - 1]; }
              else { assert ([c] + rest)[i] == rest[i - 1] && ([c] + rest)[j] == rest[j - 1]; }
            }
          }
          [c] + rest
  }

  /** `getCategories`. */
  function GetCategories(store: ProductStore): (r: Response)
    ensures r.status == 200 && r.body.Categories?
    ensures NoDuplicates(r.body.values)
    ensures forall c :: c in r.body.values <==> exists i :: 0 <= i < |store| && store[i].category == Some(c)
  {
    Response(200, Categories(DistinctCategories(store)))
  }
}

=== FILE: search.dfy ===
/** The free-text match both product screens use:
    `[fields].filter(Boolean).some((v) => v.toLowerCase().includes(key))`. */
module Search {
  import opened Common
  import opened Text

  /** An optional string field after `.filter(Boolean)`: kept when present and non-empty. */
  function Present(field: Option<string>): (r: seq<string>)
    ensures |r| <= 1
    ensures r != [] <==> field.Some? && field.value != ""
    ensures r != [] ==> r[0] == field.value
  {
    if field.Some? && field.value != "" then [field.value] else []
  }

  /** `String(x)` of a string-or-undefined value. */
  function StringOf(field: Option<string>): (r: string)
    ensures field.None? ==> r == "undefined"
    ensures field.Some? ==> r == field.value
  {
    match field
    case None => "undefined"
    case Some(s) => s
  }

  /** Some field, lower-cased, contains `key`. */
  predicate AnyFieldContains(fields: seq<string>, key: string)
    ensures AnyFieldContains(fields, key) <==> exists i :: 0 <= i < |fields| && Contains(ToLower(fields[i]), key)
  {
    if fields == [] then false
    else
      assert forall i :: 1 <= i < |fields| ==> fields[i] == fields[1..][i - 1];
      Contains(ToLower(fields[0]), key) || AnyFieldContains(fields[1..], key)
  }

  /** Only `key`'s occurrences matter, not which field holds them: adding fields never loses a match. */
  lemma AnyFieldContainsAppend(a: seq<string>, b: seq<string>, key: string)
    ensures AnyFieldContains(a + b, key) <==> AnyFieldContains(a, key) || AnyFieldContains(b, key)
  {
    var ab := a + b;
    if AnyFieldContains(a + b, key) {
      var i :| 0 <= i < |ab| && Contains(ToLower(ab[i]), key);
      if i < |a| { assert ab[i] == a[i]; } else { assert ab[i] == b[i - |a|]; }
    }
    if AnyFieldContains(a, key) {
      var i :| 0 <= i < |a| && Contains(ToLower(a[i]), key);
      assert ab[i] == a[i];
    }
    if AnyFieldContains(b, key) {
      var i :| 0 <= i < |b| && Contains(ToLower(b[i]), key);
      assert ab[|a| + i] == b[i];
    }
  }
}

=== FILE: sorting.dfy ===
/** Sorting by a descending integer key, as the MongoDB `$sort: { key: -1 }`
    stage and `.sort({ key: -1 })` produce. */
module Sorting {

  /** Keys never increase from left to right. */
  ghost predicate SortedDesc<T>(xs: seq<T>, key: T -> int)
  {
    forall i, j :: 0 <= i < j < |xs| ==> key(xs[i]) >= key(xs[j])
  }

  /** Places `x` before the first element whose key does not exceed its own. */
  function Insert<T>(x: T, xs: seq<T>, key: T -> int): (r: seq<T>)
    requires SortedDesc(xs, key)
    ensures multiset(r) == multiset(xs) + multiset{x}
    ensures SortedDesc(r, key)
  {
    if xs == [] || key(xs[0]) <= key(x) then
      ConsSorted(x, xs, key);
      [x] + xs
    else
      var rest := Insert(x, xs[1..], key);
      assert xs == [xs[0]] + xs[1..];
      HeadDominates(xs[0], x, xs[1..], rest, key);
      ConsSorted(xs[0], rest, key);
      [xs[0]] + rest
  }

  /** Putting in front an element whose key is at least every other key keeps the order. */
  lemma ConsSorted<T>(h: T, xs: seq<T>, key: T -> int)
    requires SortedDesc(xs, key)
    requires xs != [] ==> key(h) >= key(xs[0])
    ensures SortedDesc([h] + xs, key)
  {
  }

  /** The head of a sorted list outranks everything its tail, with `x` inserted, holds. */
  lemma HeadDominates<T>(h: T, x: T, tail: seq<T>, rest: seq<T>, key: T -> int)
    requires SortedDesc([h] + tail, key) && key(h) > key(x)
    requires multiset(rest) == multiset(tail) + multiset{x}
    ensures rest != [] ==> key(h) >= key(rest[0])
  {
    if rest != [] {
      assert rest[0] in multiset(rest);
      if rest[0] != x {
        assert rest[0] in multiset(tail);
        var k :| 0 <= k < |tail| && tail[k] == rest[0];
        var ht := [h] + tail;
        assert ht[0] == h && ht[k + 1] == rest[0];
        assert key(ht[0]) >= key(ht[k + 1]);
      }
    }
  }

  /** A permutation of `xs` with non-increasing keys. */
  function SortDesc<T>(xs: seq<T>, key: T -> int): (r: seq<T>)
    ensures multiset(r) == multiset(xs)
    ensures SortedDesc(r, key)
  {
    if xs == [] then []
    else
      assert xs == [xs[0]] + xs[1..];
      Insert(xs[0], SortDesc(xs[1..], key), key)
  }

  /** Sorting keeps every element (and nothing else), so it keeps the length. */
  lemma SortDescPermutes<T>(xs: seq<T>, key: T -> int)
    ensures |SortDesc(xs, key)| == |xs|
    ensures forall i :: 0 <= i < |xs| ==> xs[i] in SortDesc(xs, key)
    ensures forall i :: 0 <= i < |SortDesc(xs, key)| ==> SortDesc(xs, key)[i] in xs
  {
    var r := SortDesc(xs, key);
    assert |multiset(r)| == |multiset(xs)|;
    forall i | 0 <= i < |xs| ensures xs[i] in r {
      assert xs[i] in multiset(xs);
    }
    forall i | 0 <= i < |r| ensures r[i] in xs {
      assert r[i] in multiset(r);
    }
  }
}

=== FILE: storefront.dfy ===
/** The storefront's product list (frontend/src/components/Bookcard.jsx): the
    category buttons, `fetchData` with its client-side search, and the page reset. */
module Storefront {
  import opened Common
  import opened Text
  import opened Catalog
  import opened Products
  import opened Search

  /** The category buttons: `["All", ...categories, "Other"]`. */
  function CategoryButtons(categories: seq<string>): (r: seq<string>)
    ensures |r| == |categories| + 2
    ensures r[0] == "All" && r[|r| - 1] == "Other"
    ensures r[1..|r| - 1] == categories
  {
    ["All"] + categories + ["Other"]
  }

  /** Clicking a button sets the category state; "All" means no category. */
  function ChooseCategory(button: string): (category: string)
    ensures category == "" <==> button == "All" || button == ""
    ensures button != "All" ==> category == button
  {
    if button == "All" then "" else button
  }

  /** The texts a card is searched in: `[b.name, b.category, String(b.price), String(b.status)]`
      after `.filter(Boolean)`. A missing status reads as `"undefined"`, which is kept. */
  function CardFields(p: Product): (fields: seq<string>)
    ensures PriceText(p.price) in fields
    ensures p.status.None? ==> "undefined" in fields
    ensures forall i :: 0 <= i < |fields| ==> fields[i] != ""
    ensures p.name.Some? && p.name.value != "" ==> p.name.value in fields
    ensures p.category.Some? && p.category.value != "" ==> p.category.value in fields
    ensures p.status.Some? && p.status.value != "" ==> p.status.value in fields
    ensures 1 <= |fields| <= 4
    ensures forall i :: 0 <= i < |fields| ==>
      || p.name == Some(fields[i])
      || p.category == Some(fields[i])
      || fields[i] == PriceText(p.price)
      || fields[i] == StringOf(p.status)
  {
    var fields := Present(p.name) + Present(p.category) + [PriceText(p.price)] + Present(Some(StringOf(p.status)));
    assert fields[|fields| - |Present(Some(StringOf(p.status)))| - 1] == PriceText(p.price);
    assert p.name.Some? && p.name.value != "" ==> fields[0] == p.name.value;
    assert p.category.Some? && p.category.value != "" ==> fields[|Present(p.name)|] == p.category.value;
    assert p.status.None? ==> fields[|fields| - 1] == "undefined";
    assert p.status.Some? && p.status.value != "" ==> fields[|fields| - 1] == p.status.value;
    fields
  }

  /** A card matches the lower-cased key. */
  predicate CardMatches(p: Product, key: string)
  {
    AnyFieldContains(CardFields(p), key)
  }

  /** The search step of `fetchData`: nothing happens while the search box is blank;
      otherwise the key is the search text lower-cased but not trimmed. */
  function SearchProducts(products: seq<Product>, search: string): (r: seq<Product>)
    ensures IsBlank(search) ==> r == products
    ensures !IsBlank(search) ==>
      && IsSubsequence(r, products)
      && (forall i :: 0 <= i < |r| ==> CardMatches(r[i], ToLower(search)))
      && (forall i :: 0 <= i < |products| && CardMatches(products[i], ToLower(search)) ==> products[i] in r)
      && |r| == Count(products, Matcher(ToLower(search)))
  {
    TrimEmptyIffBlank(search);
    if Trim(search) == "" then products
    else Filter(products, Matcher(ToLower(search)))
  }

  function Matcher(key: string): (f: Product -> bool)
    ensures forall p :: f(p) == CardMatches(p, key)
  {
    (p: Product) => CardMatches(p, key)
  }

  /** The storefront's list state. */
  datatype Shelf = Shelf(data: seq<Product>, currentPage: int, error: string)

  const LoadError: string := "Failed to load books. Please try again later."

  /** `fetchData`: posts `{ category }` to the read handler, searches the answer and
      goes back to page 1. `reached` is false when the request fails, which keeps the
      list and page and shows the error. */
  function FetchData(shelf: Shelf, store: ProductStore, category: string, search: string, reached: bool): (s: Shelf)
    ensures !reached ==> s == shelf.(error := LoadError)
    ensures reached ==> s.currentPage == 1 && s.error == ""
    ensures reached ==> forall i :: 0 <= i < |s.data| ==> s.data[i] in store
    ensures reached && !IsBlank(category) ==> forall i :: 0 <= i < |s.data| ==> s.data[i].category == Some(category)
    ensures reached && IsBlank(category) && IsBlank(search) ==> s.data == store
    ensures reached && !IsBlank(search) ==> forall i :: 0 <= i < |s.data| ==> CardMatches(s.data[i], ToLower(search))
    ensures reached ==> forall i :: 0 <= i < |store| && Wanted(store[i], category, search) ==> store[i] in s.data
    ensures reached ==> s.data == SearchProducts(ReadProduct(store, Some(ReadBody(Some(category)))), search)
  {
    if !reached then shelf.(error := LoadError)
    else
      var answered := ReadProduct(store, Some(ReadBody(Some(category))));
      var found := SearchProducts(answered, search);
      FoundInStore(store, category, search);
      Shelf(found, 1, "")
  }

  /** A product the storefront should list for this category and search: in the
      category unless none is chosen, and matching the search unless it is blank. */
  predicate Wanted(p: Product, category: string, search: string)
  {
    && (IsBlank(category) || p.category == Some(category))
    && (IsBlank(search) || CardMatches(p, ToLower(search)))
  }

  /** Whatever the category and search, the cards found come from the store, and
      from the chosen category when there is one; and every product of the store
      that is in the category and matches the search is found. */
  lemma FoundInStore(store: ProductStore, category: string, search: string)
    ensures var found := SearchProducts(ReadProduct(store, Some(ReadBody(Some(category)))), search);
            && (forall i :: 0 <= i < |found| ==> found[i] in store)
            && (CategoryFilter(Some(ReadBody(Some(category)))).Some? ==>
                 forall i :: 0 <= i < |found| ==> found[i].category == CategoryFilter(Some(ReadBody(Some(category)))))
            && (forall i :: 0 <= i < |store| && Wanted(store[i], category, search) ==> store[i] in found)
  {
    var answered := ReadProduct(store, Some(ReadBody(Some(category))));
    var found := SearchProducts(answered, search);
    forall i | 0 <= i < |store| && Wanted(store[i], category, search) ensures store[i] in found {
      assert store[i] in answered;
      var j :| 0 <= j < |answered| && answered[j] == store[i];
    }
    if CategoryFilter(Some(ReadBody(Some(category)))).Some? {
      SubsequenceMembers(answered, store);
    }
    SubsequenceRefl(answered);
    SubsequenceMembers(found, answered);
    forall i | 0 <= i < |found| ensures exists j :: 0 <= j < |answered| && answered[j] == found[i] {
      assert found[i] in answered;
    }
  }

  /** Upper and lower case in the search box find the same cards. */
  lemma SearchIgnoresCase(products: seq<Product>, search: string)
    ensures SearchProducts(products, ToLower(search)) == SearchProducts(products, search)
  {
    LowerKeepsBlank(search);
    ToLowerIdempotent(search);
    var key := ToLower(search);
    TrimEmptyIffBlank(search);
    TrimEmptyIffBlank(key);
    if !IsBlank(search) {
      calc {
        SearchProducts(products, key);
        Filter(products, Matcher(ToLower(key)));
        { assert ToLower(key) == key; }
        Filter(products, Matcher(key));
        SearchProducts(products, search);
      }
    }
  }

  lemma UndefinedContainsUndef()
    ensures Contains(ToLower("undefined"), "undef")
  {
    assert ToLower("undefined") == "undefined";
    assert "undef" <= "undefined";
  }

  /** A card without a status matches "undef", whatever it is called. */
  lemma MissingStatusMatchesUndefined(p: Product)
    requires p.status.None?
    ensures CardMatches(p, "undef")
  {
    var fields := CardFields(p);
    var i :| 0 <= i < |fields| && fields[i] == "undefined";
    UndefinedContainsUndef();
  }

  /** So searching for "undef" finds every card without a status. */
  lemma MissingStatusFoundAsUndefined(p: Product)
    requires p.status.None?
    ensures SearchProducts([p], "undef") == [p]
  {
    MissingStatusMatchesUndefined(p);
    KeyUndef();
    SearchOne(p, "undef");
  }

  /** "undef" is a search text that is not blank and is its own key. */
  lemma KeyUndef()
    ensures ToLower("undef") == "undef" && !IsBlank("undef")
  {
    assert !IsJsWhitespace("undef"[0]);
  }

  /** A one-letter book used to show the untrimmed key. */
  function BookA(): (p: Product)
    ensures CardFields(p) == ["a", "0", "available"]
  {
    var p := Product(0, Some("a"), Some(1), 0, None, "", Some("available"));
    assert PriceText(0) == "0";
    p
  }

  lemma AvailableHasNoASpace()
    ensures !Contains(ToLower("available"), "a ")
  {
    var low := ToLower("available");
    assert "a "[1] == ' ';
    forall i | 0 <= i < |low| ensures low[i] != ' ' {
      assert "available"[i] != ' ';
    }
    ContainsNeedsChars(low, "a ", ' ');
  }

  lemma BookAMisses()
    ensures CardMatches(BookA(), "a")
    ensures !CardMatches(BookA(), "a ")
  {
    var fields := CardFields(BookA());
    assert ToLower("a") == "a" && ToLower("0") == "0";
    assert Contains("a", "a") by { assert "a" <= "a"; }
    assert !Contains("a", "a ");
    assert !Contains("0", "a ");
    AvailableHasNoASpace();
    assert fields[0] == "a";
  }

  /** "a" is a search text that is not blank and is its own key. */
  lemma KeyA()
    ensures ToLower("a") == "a" && !IsBlank("a") && Trim("a") != ""
  {
    assert !IsJsWhitespace("a"[0]);
    TrimEmptyIffBlank("a");
  }

  /** Searching for the book's name finds it. */
  lemma NameFindsBookA()
    ensures SearchProducts([BookA()], "a") == [BookA()]
  {
    BookAMisses();
    KeyA();
    SearchOne(BookA(), "a");
  }

  /** The key is not trimmed: a trailing space in the search box hides a book whose
      fields only contain the word itself. */
  lemma UntrimmedKeyHidesMatch()
    ensures SearchProducts([BookA()], "a ") == []
  {
    BookAMisses();
    KeyASpace();
    SearchOne(BookA(), "a ");
  }

  /** A non-blank search over one card keeps it exactly when it matches. */
  lemma SearchOne(p: Product, search: string)
    requires !IsBlank(search)
    ensures SearchProducts([p], search) == if CardMatches(p, ToLower(search)) then [p] else []
  {
    TrimEmptyIffBlank(search);
    var f := Matcher(ToLower(search));
    assert SearchProducts([p], search) == Filter([p], f);
    assert [p][1..] == [];
  }

  /** "a " is a search text that is not blank and is its own key. */
  lemma KeyASpace()
    ensures ToLower("a ") == "a " && !IsBlank("a ") && Trim("a ") != ""
  {
    assert !IsJsWhitespace("a "[0]);
    TrimEmptyIffBlank("a ");
  }
}

=== FILE: text.dfy ===
/** The JavaScript string operations the core relies on, on `string == seq<char>`:
    `split` on a one-character separator, `trim`, `toLowerCase`, `includes`,
    and `String(n)` for integers and for prices held as integer cents. */
module Text {

  // ---------------------------------------------------------------------------
  // split / join
  // ---------------------------------------------------------------------------

  /** Position of the first `c` in `s`. */
  function IndexOf(s: string, c: char): (i: nat)
    requires c in s
    ensures i < |s| && s[i] == c
    ensures c !in s[..i]
  {
    if s[0] == c then 0
    else
      assert c in s[1..] by { assert s == [s[0]] + s[1..]; }
      var k := IndexOf(s[1..], c);
      assert s[..k + 1] == [s[0]] + s[1..][..k];
      k + 1
  }

  /** `parts.join(sep)`. */
  function Join(parts: seq<string>, sep: char): string
    requires |parts| >= 1
  {
    if |parts| == 1 then parts[0] else parts[0] + [sep] + Join(parts[1..], sep)
  }

  /** `s.split(sep)` for a one-character separator: the maximal separator-free
      pieces between separators, empty pieces included. */
  function Split(s: string, sep: char): (parts: seq<string>)
    ensures |parts| >= 1
    ensures forall i :: 0 <= i < |parts| ==> sep !in parts[i]
    ensures Join(parts, sep) == s
    decreases |s|
  {
    if sep !in s then [s]
    else
      var i := IndexOf(s, sep);
      var rest := Split(s[i + 1..], sep);
      assert s == s[..i] + [sep] + s[i + 1..];
      [s[..i]] + rest
  }

  /** Splitting a join of separator-free pieces gives the pieces back. */
  lemma {:induction false} SplitJoin(parts: seq<string>, sep: char)
    requires |parts| >= 1
    requires forall i :: 0 <= i < |parts| ==> sep !in parts[i]
    ensures Split(Join(parts, sep), sep) == parts
  {
    if |parts| > 1 {
      var s := Join(parts, sep);
      var tail := Join(parts[1..], sep);
      assert s == parts[0] + [sep] + tail;
      assert sep in s by { assert s[|parts[0]|] == sep; }
      var i := IndexOf(s, sep);
      assert s[..|parts[0]|] == parts[0];
      assert i == |parts[0]|;
      assert s[..i] == parts[0];
      assert s[i + 1..] == tail;
      SplitJoin(parts[1..], sep);
    }
  }

  // ---------------------------------------------------------------------------
  // trim
  // ---------------------------------------------------------------------------

  /** The characters `String.prototype.trim` removes: ECMAScript WhiteSpace and LineTerminator. */
  predicate IsJsWhitespace(c: char)
  {
    || c == '\t' || c == '\n' || c == '\U{000B}' || c == '\U{000C}' || c == '\r' || c == ' '
    || c == '\U{00A0}' || c == '\U{1680}' || ('\U{2000}' <= c <= '\U{200A}')
    || c == '\U{2028}' || c == '\U{2029}' || c == '\U{202F}' || c == '\U{205F}'
    || c == '\U{3000}' || c == '\U{FEFF}'
  }

  function TrimStart(s: string): string
  {
    if s != [] && IsJsWhitespace(s[0]) then TrimStart(s[1..]) else s
  }

  function TrimEnd(s: string): string
  {
    if s != [] && IsJsWhitespace(s[|s| - 1]) then TrimEnd(s[..|s| - 1]) else s
  }

  /** `s.trim()`. */
  function Trim(s: string): string
  {
    TrimEnd(TrimStart(s))
  }

  /** Only whitespace (or nothing): the strings whose `trim()` is `""`. */
  predicate IsBlank(s: string)
  {
    forall i :: 0 <= i < |s| ==> IsJsWhitespace(s[i])
  }

  lemma {:induction false} TrimStartBlank(s: string)
    ensures TrimStart(s) == [] <==> IsBlank(s)
    ensures TrimStart(s) != [] ==> !IsJsWhitespace(TrimStart(s)[0])
  {
    if s != [] && IsJsWhitespace(s[0]) {
      TrimStartBlank(s[1..]);
      assert IsBlank(s) <==> IsBlank(s[1..]) by {
        if IsBlank(s[1..]) {
          forall i | 0 <= i < |s| ensures IsJsWhitespace(s[i]) {
            if i > 0 { assert s[i] == s[1..][i - 1]; }
          }
        }
      }
    }
  }

  lemma {:induction false} TrimEndKeepsFirst(s: string)
    requires s != [] && !IsJsWhitespace(s[0])
    ensures TrimEnd(s) != [] && TrimEnd(s)[0] == s[0]
    decreases |s|
  {
    if IsJsWhitespace(s[|s| - 1]) {
      TrimEndKeepsFirst(s[..|s| - 1]);
    }
  }

  /** `s.trim() === ""` exactly when `s` is blank. */
  lemma TrimEmptyIffBlank(s: string)
    ensures Trim(s) == [] <==> IsBlank(s)
  {
    TrimStartBlank(s);
    if TrimStart(s) != [] {
      TrimEndKeepsFirst(TrimStart(s));
    }
  }

  // ---------------------------------------------------------------------------
  // toLowerCase / includes
  // ---------------------------------------------------------------------------

  function LowerChar(c: char): char
  {
    if 'A' <= c <= 'Z' then (c as int + 32) as char else c
  }

  /** `s.toLowerCase()` on the ASCII letters. */
  function ToLower(s: string): (r: string)
    ensures |r| == |s|
    ensures forall i :: 0 <= i < |s| ==> r[i] == LowerChar(s[i])
  {
    if s == [] then [] else [LowerChar(s[0])] + ToLower(s[1..])
  }

  /** Lower-casing twice changes nothing more. */
  lemma ToLowerIdempotent(s: string)
    ensures ToLower(ToLower(s)) == ToLower(s)
  {
  }

  /** Lower-casing changes no whitespace, so it keeps a string blank or not blank. */
  lemma LowerKeepsBlank(s: string)
    ensures IsBlank(ToLower(s)) <==> IsBlank(s)
  {
    forall i | 0 <= i < |s| ensures IsJsWhitespace(ToLower(s)[i]) <==> IsJsWhitespace(s[i]) {
      if 'A' <= s[i] <= 'Z' {
        assert 'a' <= ToLower(s)[i] <= 'z';
      }
    }
  }

  /** `needle` occurs in `hay` starting at position `k`. */
  predicate OccursAt(hay: string, needle: string, k: nat)
  {
    k + |needle| <= |hay| && hay[k..k + |needle|] == needle
  }

  /** `hay.includes(needle)`. */
  predicate Contains(hay: string, needle: string)
  {
    if needle <= hay then true
    else if hay == [] then false
    else Contains(hay[1..], needle)
  }

  /** `includes` holds exactly when the needle occurs at some position. */
  lemma {:induction false} ContainsIffOccurs(hay: string, needle: string)
    ensures Contains(hay, needle) <==> exists k: nat :: OccursAt(hay, needle, k)
  {
    if needle <= hay {
      assert OccursAt(hay, needle, 0);
    } else if hay == [] {
    } else {
      ContainsIffOccurs(hay[1..], needle);
      if Contains(hay[1..], needle) {
        var k: nat :| OccursAt(hay[1..], needle, k);
        OccursShift(hay, needle, k + 1);
      } else {
        forall k: nat ensures !OccursAt(hay, needle, k) {
          if k > 0 {
            OccursShift(hay, needle, k);
          }
        }
      }
    }
  }

  /** Past the first position, an occurrence in `hay` is one in its tail. */
  lemma OccursShift(hay: string, needle: string, k: nat)
    requires hay != [] && k > 0
    ensures OccursAt(hay, needle, k) <==> OccursAt(hay[1..], needle, k - 1)
  {
    if k + |needle| <= |hay| {
      assert hay[k..k + |needle|] == hay[1..][k - 1..k - 1 + |needle|];
    }
  }

  /** Whatever contains a string contains each of its prefixes. */
  lemma ContainsPrefix(hay: string, short: string, long: string)
    requires short <= long && Contains(hay, long)
    ensures Contains(hay, short)
  {
    ContainsIffOccurs(hay, long);
    ContainsIffOccurs(hay, short);
    var k: nat :| OccursAt(hay, long, k);
    assert hay[k..k + |short|] == hay[k..k + |long|][..|short|];
    assert OccursAt(hay, short, k);
  }

  /** A needle holding a character the haystack lacks is never found. */
  lemma ContainsNeedsChars(hay: string, needle: string, c: char)
    requires c in needle && c !in hay
    ensures !Contains(hay, needle)
  {
    var i :| 0 <= i < |needle| && needle[i] == c;
    ContainsIffOccurs(hay, needle);
    forall k: nat ensures !OccursAt(hay, needle, k) {
      if k + |needle| <= |hay| {
        assert hay[k..k + |needle|][i] == hay[k + i] != c;
      }
    }
  }

  // ---------------------------------------------------------------------------
  // String(n)
  // ---------------------------------------------------------------------------

  function DigitChar(d: nat): char
    requires d < 10
  {
    ('0' as int + d) as char
  }

  predicate IsDigit(c: char)
  {
    '0' <= c <= '9'
  }

  /** The decimal numeral of `n`, without leading zeros. */
  function Digits(n: nat): (r: string)
    ensures |r| >= 1
    ensures forall i :: 0 <= i < |r| ==> IsDigit(r[i])
    ensures n > 0 ==> r[0] != '0'
  {
    if n < 10 then [DigitChar(n)] else Digits(n / 10) + [DigitChar(n % 10)]
  }

  /** Reading a numeral back: the left inverse of `Digits`. */
  function ParseDigits(s: string): int
    requires forall i :: 0 <= i < |s| ==> IsDigit(s[i])
  {
    if s == [] then 0 else ParseDigits(s[..|s| - 1]) * 10 + (s[|s| - 1] as int - '0' as int)
  }

  lemma {:induction false} DigitsRoundTrip(n: nat)
    ensures ParseDigits(Digits(n)) == n
  {
    if n >= 10 {
      DigitsRoundTrip(n / 10);
      assert Digits(n)[..|Digits(n)| - 1] == Digits(n / 10);
    }
  }

  /** `String(n)` for an integer-valued JavaScript number. */
  function IntText(n: int): string
  {
    if n < 0 then "-" + Digits(-n) else Digits(n)
  }

  /** `String(c / 100)` for a price held as `c` cents: the shortest decimal,
      so trailing zeros of the fraction and a zero fraction are dropped. */
  function PriceText(cents: int): (r: string)
    ensures |r| >= 1
    ensures cents % 100 == 0 ==> r == IntText(cents / 100)
    decreases if cents < 0 then 1 else 0
  {
    if cents < 0 then "-" + PriceText(-cents)
    else
      var whole := cents / 100;
      var frac := cents % 100;
      if frac == 0 then Digits(whole)
      else if frac % 10 == 0 then Digits(whole) + "." + [DigitChar(frac / 10)]
      else Digits(whole) + "." + [DigitChar(frac / 10), DigitChar(frac % 10)]
  }
}

=== FILE: users.dfy ===
/** The customer account handlers of backend/controller/useControll.js:
    registration without a duplicate check, and a token-less login. */
module UserAccounts {
  import opened Common
  import opened Credentials

  /** A stored user document. */
  datatype User = User(id: Id, userName: string, password: Digest)

  type UserStore = seq<User>

  datatype Body =
    | Error(error: string)
    | Saved(user: User)                                         // the saved document, as returned by `save()`
    | LoggedIn(message: string, userId: Id, userName: string)   // no token, no role

  datatype Response = Response(status: int, body: Body)

  function IdOf(u: User): Id
  {
    u.id
  }

  /** `UserModel.findOne({ userName })`: the first match in natural order. */
  function FindByUserName(store: UserStore, userName: string): (r: Option<User>)
    ensures r.None? <==> forall i :: 0 <= i < |store| ==> store[i].userName != userName
    ensures r.Some? ==> exists i :: 0 <= i < |store| && store[i] == r.value
                                 && (forall j :: 0 <= j < i ==> store[j].userName != userName)
    ensures r.Some? ==> r.value.userName == userName
  {
    FindFirst(store, (u: User) => u.userName == userName)
  }

  /** `createUser`: hashes and saves; `saved` is the database's verdict. There is
      no duplicate-name check here, so the only refusal is the store's, as a 500. */
  function CreateUser(store: UserStore, userName: string, password: string, salt: string, saved: bool)
    : (out: (Response, UserStore))
    ensures !saved ==> out == (Response(500, Error("Server error")), store)
    ensures saved ==>
      && |out.1| == |store| + 1
      && out.1[..|store|] == store
      && out.1[|store|].userName == userName
      && (forall p :: Compare(p, out.1[|store|].password) <==> p == password)
      && out.0 == Response(201, Saved(out.1[|store|]))
  {
    if !saved then (Response(500, Error("Server error")), store)
    else
      var u := User(FreshId(store, IdOf), userName, Hash(password, salt));
      (Response(201, Saved(u)), store + [u])
  }

  /** Without a uniqueness rule in the store, registering a taken name succeeds and
      the store then holds two users with that name. */
  lemma DuplicateUserNamesAccepted(store: UserStore, userName: string, p1: string, p2: string, s1: string, s2: string)
    ensures var (r1, st1) := CreateUser(store, userName, p1, s1, true);
            var (r2, st2) := CreateUser(st1, userName, p2, s2, true);
            r1.status == 201 && r2.status == 201
            && st2[|store|].userName == userName && st2[|store| + 1].userName == userName
  {
  }

  /** `userLogin`: looks the user up by name only. `read` is whether `findOne`
      resolves; a rejected lookup lands in the catch as 500. */
  function UserLogin(store: UserStore, userName: string, password: string, read: bool): (r: Response)
    ensures !read ==> r == Response(500, Error("Server error"))
    ensures read && (forall i :: 0 <= i < |store| ==> store[i].userName != userName) ==>
      r == Response(400, Error("Invalid username"))
    ensures r.status == 200 <==>
      read && FindByUserName(store, userName).Some? && Compare(password, FindByUserName(store, userName).value.password)
    ensures r.status == 200 ==>
      r.body == LoggedIn("User login success", FindByUserName(store, userName).value.id, userName)
    ensures r.status in {200, 400, 401, 500}
  {
    if !read then Response(500, Error("Server error"))
    else match FindByUserName(store, userName)
    case None => Response(400, Error("Invalid username"))
    case Some(user) =>
      if !Compare(password, user.password) then Response(401, Error("Invalid password"))
      else Response(200, LoggedIn("User login success", user.id, user.userName))
  }

  /** With two users of the same name, only the first one found can log in:
      the second one's password is answered with 401. */
  lemma ShadowedDuplicateCannotLogIn(store: UserStore, userName: string, p1: string, p2: string, s1: string, s2: string)
    requires forall i :: 0 <= i < |store| ==> store[i].userName != userName
    requires p1 != p2
    ensures var st1 := CreateUser(store, userName, p1, s1, true).1;
            var st2 := CreateUser(st1, userName, p2, s2, true).1;
            UserLogin(st2, userName, p2, true) == Response(401, Error("Invalid password"))
  {
    var st1 := CreateUser(store, userName, p1, s1, true).1;
    var st2 := CreateUser(st1, userName, p2, s2, true).1;
    var found := FindByUserName(st2, userName);
    assert found.Some? by { assert st2[|store|].userName == userName; }
    var i :| 0 <= i < |st2| && st2[i] == found.value && (forall j :: 0 <= j < i ==> st2[j].userName != userName);
    assert st2[|store|].userName == userName;
    assert i == |store|;
  }

  /** Register then log in with the same credentials succeeds when the name was new. */
  lemma RegisterThenLogin(store: UserStore, userName: string, password: string, salt: string)
    requires forall i :: 0 <= i < |store| ==> store[i].userName != userName
    ensures var (_, st) := CreateUser(store, userName, password, salt, true);
            UserLogin(st, userName, password, true).status == 200
  {
    var st := CreateUser(store, userName, password, salt, true).1;
    var found := FindByUserName(st, userName);
    assert found.Some? by { assert st[|store|].userName == userName; }
    var i :| 0 <= i < |st| && st[i] == found.value && (forall j :: 0 <= j < i ==> st[j].userName != userName);
    assert i == |store|;
  }
}
